=== FILE: README.md ===
# Query synthesis from a question and a schema catalog

This project models the query-synthesis engine of `app.py` in Dafny. Given a
schema catalog and a free-text question, the engine writes one SQL SELECT
statement. The model covers five parts:

- **The join graph.** Every foreign key adds an adjacency entry in both
  directions, and both entries carry the key's own `(col_from, col_to)` pair.
- **`find_join_path`.** This is a multi-source breadth-first search over the
  join graph.
- **Alias allocation.** An alias is the first two letters of the table name,
  lowercased. When that is taken, the engine tries `base1`, `base2`, … until
  one is free.
- **`generate_joins`.** It writes one `INNER JOIN` / `LEFT JOIN` fragment per
  path step.
- **`build_sql`.** It does four things:
  - detects count intent and a `show N` / `top N` limit;
  - detects the tables the question needs, by name, singular, plural or column
    name;
  - runs the alias and join loops;
  - builds the deduplicated select list or the `COUNT(DISTINCT …)` override,
    the `<word> is <value>` WHERE predicates, and the final text.

The catalog is an input value (`Catalog.Catalog`): tables in enumeration order,
their columns, an optional primary key and their foreign keys. `build_sql` first
computes a structured `Sql.Query` (`Build.BuildQuery`). `Sql.Render` then writes
it out with the same separators and keywords as the source's f-strings.

Two places in the source iterate a Python set. The model fixes an order for
each:

- the join loop (app.py:136) visits the needed tables in sorted order;
- the search sources (app.py:139) are the added tables in the order they were
  added, main table first.

The three regular expressions (app.py:94, 95 and 164) are written as scanners
over ASCII:

- `\b` is a word boundary over `[A-Za-z0-9_]`;
- `\s` is Python's default (Unicode-mode) `\s` restricted to ASCII characters,
  so it includes `\x1c`–`\x1f`;
- `findall` takes the leftmost match, then resumes at its end.

The modules follow the program's structure:

| file | module | models |
|---|---|---|
| text.dfy | Text | `str.lower`, digits, `int()` and `str()` of a natural number |
| order.dfy | Order | Python string order and `sorted` |
| catalog.dfy | Catalog | `SCHEMA`, `PRIMARY_KEYS`, `FOREIGN_KEYS` as a value |
| join_graph.dfy | JoinGraph | `JOIN_GRAPH` |
| join_path.dfy | JoinPath | `find_join_path` |
| alias.dfy | Alias | the alias map and the allocation loop |
| sql.dfy | Sql | the query record and its rendering |
| joins.dfy | Joins | `generate_joins` |
| assemble.dfy | Assemble | the alias loop and the join loop of `build_sql` |
| patterns.dfy | Patterns | the count, limit and filter patterns |
| detect.dfy | Detect | table detection |
| select.dfy | Select | the deduplicated select list and the count key |
| where.dfy | Where | WHERE predicates and the limit value |
| build.dfy | Build | `build_sql` end to end |
| scenarios.dfy | Scenarios | worked cases on a customers/accounts catalog |

app.py:44 appends `(table, col_from, col_to)` under the referenced table
without swapping the pair; the model does the same (`JoinGraph.Symmetric`,
`Scenarios.ReverseStep`). This only shows in the rendered ON condition when a
foreign key's two column names differ. The scenario catalog (`Scenarios.Bank`)
is made up so that they do: there `accounts.customer_id` references
`customers.id`, and when `accounts` is reached from `customers` the fragment
reads `ON cu.customer_id = ac.id`, which names a column `customers` does not
have. Every foreign key in the schema db_init.py creates uses the same column
name on both sides, so for that schema the unswapped condition is valid.

## Model

| member | source | states |
|---|---|---|
| Text.ToLower | app.py:93 | The lowered text has the same length and maps each character through ASCII lowercasing. |
| Text.LowerIdempotent | app.py:93 | The lowered text contains no upper-case letter, and lowering it again gives the same text. |
| Text.NatToString | app.py:71 | The decimal text of a number is a digit string with no leading zero except for 0 itself. |
| Text.ParseNatToString | app.py:96 | Reading back the decimal text of `n` gives `n`. |
| Text.NatToStringParse | app.py:185 | Writing out the value of a digit string without a leading zero gives back the same string. |
| Text.NatToStringInjective | app.py:71 | Different numbers have different decimal texts, so the candidates `base1`, `base2`, … are pairwise distinct. |
| Order.Sort | app.py:119 | `sorted` returns an ascending list with the same elements. |
| Order.SortedUnique | app.py:130 | Two ascending lists with the same elements are equal. |
| Order.LessTotal | app.py:130 | Python string order is total on distinct strings, and also irreflexive and transitive (`LessIrreflexive`, `LessTransitive`). |
| Order.SortedHeadLeast | app.py:130 | The first element of a sorted list is below every other element. |
| Catalog.Columns | app.py:28 | `SCHEMA[name]` is the column list of the first table with that name. For a name not in the catalog the model gives the empty list where Python raises `KeyError`; under `Catalog.WellFormed` the engine never looks one up. |
| Catalog.LinksComplete | app.py:32-34 | The listed foreign keys are exactly the `(col_from, table_to, col_to)` triples of all tables. |
| JoinGraph.BuildFromAdjacency | app.py:40-44 | The adjacency list the loop builds for a table is, key by key, the concatenation of each foreign key's contribution in iteration order. |
| JoinGraph.NeighborIff | app.py:40-44 | An entry is in a table's adjacency list iff some foreign key joins the table to that neighbour on that column pair, in either direction. |
| JoinGraph.ForeignKeyEdges | app.py:43-44 | Every foreign key `(T, cf, U, ct)` puts `(U, cf, ct)` under `T` and `(T, cf, ct)` under `U`. |
| JoinGraph.Symmetric | app.py:43-44 | `y` is a neighbour of `x` on a column pair iff `x` is a neighbour of `y` on the same, unswapped pair. |
| JoinPath.ExpandSpec | app.py:54-57 | Expanding one table keeps the old queue, marks every neighbour visited, appends only entries for neighbours not visited before, each with the path extended by its step, and grows the queue by exactly the newly visited tables. |
| JoinPath.ExpandInOrder | app.py:54-57 | The appended entries are, in adjacency order, one per neighbour whose table is neither visited nor named by an earlier neighbour, and each carries that neighbour's column pair. The reference (`JoinPath.Fresh`) is built from the end of the adjacency list, independently of the loop. |
| JoinPath.BfsCorrect | app.py:50-58 | From any state satisfying the search invariant, the result is a simple walk from a source to the target that is no longer than any walk, or it is empty only when the target is a source or is unreachable. |
| JoinPath.FindJoinPath | app.py:47-58 | The path is empty when the target is a start table. A non-empty path is a chain of graph steps from a start table to the target, with no table entered twice and no start table re-entered. No walk is shorter. An empty path for a target outside the start tables means the target is unreachable. |
| Alias.AliasOf | app.py:64-65 | The lookup finds nothing iff the table has no alias. Otherwise it returns the alias of the table's first entry in insertion order. |
| Alias.Allocate | app.py:67-72 | The allocated alias is not in use. It is the base or the base followed by the first `k` for which all earlier candidates are taken. |
| Alias.FirstFree | app.py:120-125 | The `while alias in used_aliases` loop ends at a free alias. It has stepped over exactly the taken candidates before it. |
| Alias.TakenBound | app.py:123 | If the first `n` candidates are taken, at least `n` aliases are in use, so the loop terminates. |
| Alias.Bind | app.py:67-74 | Binding keeps the map free of repeated aliases and tables. It appends one entry for the table under the alias `Allocate` gives against the aliases in use (the base, or the base followed by the first free number), and adds that alias to the used set. |
| Alias.Register | app.py:65-74 | A table that already has an alias keeps the map unchanged. Otherwise exactly one fresh entry is appended, under the alias `Allocate` gives against the aliases in use. The table set grows by the table. |
| Alias.RegisterAllocates | app.py:65-74 | Every entry the lookup-then-allocate step appends got its alias from `Allocate` against the aliases bound before it (`Alias.Allocated`). |
| Alias.AliasOfExtend | app.py:73 | Appending to the map never changes an existing table's alias. |
| Alias.AliasOfDistinct | app.py:126 | Distinct tables in a map without repetitions have distinct aliases. |
| Assemble.BindAllTables | app.py:119-127 | After the allocation loop, the aliased tables are exactly the earlier ones plus the names allocated. |
| Assemble.BindAllOrder | app.py:119-127 | The allocation loop appends the tables in the order it visits them. |
| Assemble.BindAllAllocates | app.py:119-127 | Each needed table the allocation loop binds gets the first free alias of base, base1, base2, … against the aliases bound before it. |
| Assemble.FirstAlias | app.py:119-131 | The first table allocated into an empty map gets its base alias, so the main alias is the lowercased first two letters of the main table. |
| Joins.GenerateJoins | app.py:61-77 | One fragment per path step. The alias map keeps its earlier entries, stays free of repetitions, and ends up covering exactly the earlier tables plus each step's right table. |
| Joins.JoinsAllocate | app.py:64-74 | Every table a join path reaches without an alias is bound, in path order, to the first free alias of base, base1, base2, … against the aliases bound before it. |
| Joins.GenerateJoinsFragments | app.py:63-76 | Fragment `i` joins step `i`'s right table under its alias in the final map. It uses step `i`'s column pair and the left table's alias. It is INNER iff the right table is an inner table. |
| Assemble.JoinTable | app.py:136-142 | One pass of the join loop keeps the assembly invariant and only extends the FROM clause. A table reachable from the added tables is added; an unreachable one leaves everything unchanged. The alias map gains only tables now in the FROM clause, each under the alias `Allocate` gave it (`Alias.Allocated`). |
| Assemble.ExtendFrame | app.py:61-77 | Appending a path's fragments binds exactly the path's tables, each new one under `Allocate`'s alias against the aliases bound before it, and nothing else. |
| Assemble.AssembleJoins | app.py:134-142 | The join loop keeps the invariant, and every listed table reachable from the main table ends up added. The alias map's tables are exactly the earlier ones plus the tables added to the FROM clause, and every new entry has `Allocate`'s alias. |
| Assemble.AddedReachable | app.py:139-142 | Every added table is reachable from the main table. |
| Assemble.ScopeOf | app.py:76 | Each ON condition's left alias is the main table's alias or that of a table joined earlier, joined to this one by a graph step on the fragment's columns. |
| Detect.StemTest | app.py:102-107 | The three name tests (the name, the name without a trailing `s`, the name with an added `s`) together hold iff the question contains the name's stem. |
| Detect.Mentioned | app.py:101-112 | A table is mentioned iff the question contains its lowercased stem or one of its lowercased column names. |
| Detect.MentionedNames | app.py:99-112 | The mentioned tables, without repetition, are exactly the catalog tables that pass the test. |
| Detect.NeededTables | app.py:99-114 | The needed set is non-empty and lists catalog tables only. A table is in it iff it is mentioned, or if no table is mentioned and it is the first catalog table. |
| Patterns.CountSearch | app.py:94 | The count test holds iff `count`, `number of`, `total` or `how many` occurs with a word boundary on both sides. |
| Patterns.LimitSearch | app.py:95 | Finds nothing iff no position has a word boundary, `show` or `top`, whitespace, digits and a word boundary. A result is a digit string, and it is the digit group of a match at some position with no match at any earlier position: the leftmost match. |
| Patterns.LimitLeftmostUnique | app.py:95 | Two leftmost matches start at the same position and carry the same digit group, so the leftmost match determines the value. |
| Patterns.LimitFrom | app.py:95 | `re.search` returns the match at the leftmost position where the pattern matches. |
| Patterns.LimitAtComplete | app.py:95 | Wherever the limit pattern matches, the scanner reports that match's digits. |
| Patterns.FilterAt | app.py:164 | A match at a position is a word, whitespace, `is`, whitespace and a value run. The groups are the word and the value. |
| Patterns.FilterAtComplete | app.py:164 | Wherever the filter pattern can match, the scanner matches there with the greedy word and a value at least as long. |
| Patterns.FindAll | app.py:165 | `findall` returns genuine matches in order, without overlap. Every position where a match could start lies inside a returned match. |
| Select.VisitedPairs | app.py:149-150 | The visited column references are exactly the `(alias, column)` pairs of the alias map's tables. |
| Select.VisitedFirst | app.py:149-150 | The first visited reference with a given column name lies in the block of the first alias-map entry whose table has that column, at the column's position in that table, under that entry's alias. |
| Select.Dedup | app.py:147-153 | Deduplication keeps, in order, the first reference of each column name not already seen, and keeps every such name. |
| Select.DedupDistinct | app.py:151-153 | No column name appears twice in the select list. |
| Select.SelectCovers | app.py:149-153 | Every column of every aliased table is named in the select list. |
| Select.SelectOrder | app.py:147-153 | Each selected name carries the alias of the first alias-map entry whose table has it. The list is ordered by that entry's position, then by the name's position among that table's columns. |
| Select.CountKey | app.py:157 | The counted column is the declared primary key, or else the table's first column. |
| Where.Format | app.py:169-172 | A value is written bare iff it is a non-empty digit string, and is single-quoted otherwise. The text is unchanged either way. |
| Where.Resolve | app.py:167-168 | The predicate's alias belongs to the first aliased table that has the word as a lowercased column name. The word resolves to nothing iff no aliased table has it. |
| Where.FiltersSound | app.py:166-174 | Every predicate comes from one of the matches. |
| Where.FiltersComplete | app.py:166-174 | Every match whose word resolves contributes its predicate. |
| Where.FiltersInOrder | app.py:165-174 | The predicates correspond one to one, in order, to the matches whose word resolves. The matching positions strictly increase, each predicate is its match's, and no resolving match is skipped. |
| Where.LimitValue | app.py:96 | There is no limit for a count question. Otherwise there is a limit only when the leftmost match's number is non-zero, and it is the value of that match's digit group. |
| Where.LimitText | app.py:185 | The rendered number of a limit is the matched digit text when it has no leading zero. |
| Build.SortIndependent | app.py:119 | Any two listings of the same set of tables sort to the same list, so the set's iteration order does not matter. |
| Build.SortedNeeded | app.py:119 | The sorted needed tables list exactly the needed set, ascending. The first is below every other and has columns. |
| Build.JoinLoop | app.py:134-142 | The join loop over the sorted needed tables starts at the least one with its base alias. It keeps every needed table aliased, and adds every needed table reachable from the main table. |
| Build.JoinLoopFrame | app.py:119-142 | The final alias map starts with the allocation loop's entries for the sorted needed tables and holds exactly those tables plus the ones the join loop added, every entry under the alias `Allocate` gave it against the aliases bound before it. |
| Build.PlanFrame | app.py:119-142 | The same for the plan `build_sql` works from: the alias map behind the select list and the WHERE lookups contains the needed tables and the joined tables and nothing else. |
| Build.BuildQuery | app.py:92-187 | The FROM table is the least needed table, aliased by its base. The select list is a count iff the lowered question has a count keyword. A count uses the main alias and the primary key, or else the first column, and has no limit. |
| Sql.RenderEnds | app.py:144-185 | `Sql.Render` writes the statement with the f-strings of app.py:144, 158, 160, 173, 178 and 181-185. Every rendered statement opens with the SELECT line. A statement with a limit ends with the line `LIMIT n` for its number. |
| Build.BuildSql | app.py:181-185 | The statement starts with the SELECT line. When there is a limit, the last line is `LIMIT n`. |
| Build.JoinedOnce | app.py:135-142 | The main table is never joined, and no table is joined twice. |
| Build.JoinKinds | app.py:75 | A fragment is INNER JOIN iff its table is a needed table. Bridging tables are LEFT joined. |
| Build.NeededJoined | app.py:136-142 | Every needed table the graph connects to the main table is the main table or is joined. |
| Build.JoinedReachable | app.py:139-142 | Every joined table is reachable from the main table. |
| Build.JoinScope | app.py:76 | Every ON condition refers to the main alias or to an earlier join's alias. Its column pair is a catalog foreign key between those two tables. |
| Build.AliasesDistinct | app.py:119-127 | The main alias and all join aliases are pairwise distinct. |
| Build.SelectCoversNeeded | app.py:147-153 | Without a count, every column of every needed table is named in the select list, joined or not. |
| Build.SelectDistinct | app.py:151-153 | Without a count, the select list names each column at most once. |
| Build.WhereOfQuestion | app.py:163-174 | The WHERE predicates are exactly those of the `<word> is <value>` matches whose word resolves. |
| Build.WhereInOrder | app.py:163-174 | The WHERE predicates follow their matches' order in the lowered question, one per resolving match, none skipped. |
| Build.LimitOfQuestion | app.py:184-185 | A LIMIT is emitted iff the question is not a count question and its leftmost `show`/`top` match has a non-zero number. The limit is the value of that match's digit group. |
| Scenarios.ReverseStep | app.py:44 | With `accounts.customer_id → customers.id`, the path from `customers` to `accounts` is one step carrying `(customer_id, id)` unswapped. |
| Scenarios.AliasClash | app.py:67-72 | `cupboards` gets `cu` when free and `cu1` when `cu` is taken. |
| Scenarios.RenderCase | app.py:144-185 | A one-join query renders clause by clause: the select list one column per line, the INNER JOIN with its ON condition, the quoted predicate, and the limit. |
| Scenarios.DiscountDoesNotCount | app.py:94 | `count` inside `discount` is not at a word boundary, so it is not a count question. |
| Scenarios.ShowFive | app.py:95-96 | `show 5 accounts` gives limit 5, and none for a count question. |
| Scenarios.EmailFilter | app.py:164-165 | `email is a@b.com` yields one match whose value is the whole address. |
| Scenarios.FormatCases | app.py:169-172 | An address and a word are quoted; a digit string is bare. |

## Left out

- `load_schema` (app.py:17-37) is left out because it reads a SQLite store. Its result is the `Catalog` input. `Catalog.WellFormed` states what the engine relies on:
  - at least one table (app.py:114);
  - distinct non-empty names;
  - at least one column per table (app.py:157 reads the first column eagerly);
  - every foreign key targets a catalog table (app.py:150 looks up every aliased table).
- `run_sql` (app.py:80-89), the Flask routes and template rendering (app.py:190-207), and the OpenAI key are left out. They are I/O.
- db_init.py is not part of this model. The scenario catalog is made up; it is not db_init.py's schema.
- Unicode: `str.lower`, `\w`, `\s` and `str.isdigit` are modelled on ASCII only.
- Set iteration order: the join loop visits needed tables in sorted order, and the search sources are the added tables in insertion order. Python's own set order is not modelled. Where the source's result does not depend on it, the model shows so (`Build.SortIndependent`).
- An alias that is the empty string would be falsy at app.py:66. `Alias.Register` decides by table membership instead. The two agree because every alias is non-empty when table names are non-empty.
- Composite primary keys: the source keeps the last key column (app.py:30-31). The catalog holds that single column as `primaryKey`.
- Build.BuildSql: states the opening line and the closing LIMIT line, not the full text. The full text is `Sql.Render` of `Build.BuildQuery`, whose clauses the other members pin down.
- JoinPath.FindJoinPath: states shortest-path, chain and simplicity properties rather than which of several equally short paths is returned. The returned one is determined by queue order, which `JoinPath.ExpandInOrder` pins down for each expansion.
- Catalog.Columns: returns the empty list where Python's `SCHEMA[name]` raises `KeyError`. Under `Catalog.WellFormed` every name looked up is a catalog table, so that path is never taken.
- Where.LimitValue: does not model the `ValueError` that `int()` raises for a digit group longer than 4300 digits, CPython's default limit on converting text to an integer. The model returns the number.

=== FILE: alias.dfy ===
/** Alias allocation. A table's alias is the first two characters of its name,
    lowercased; if that is taken, the base followed by 1, 2, ... up to the
    first free one. The alias map lists `(alias, table)` pairs in insertion
    order, as the dictionary does. */
module Alias {
  import opened Text

  datatype AliasEntry = AliasEntry(alias: string, table: string)

  /** `alias_map`, in insertion order. */
  type AliasMap = seq<AliasEntry>

  /** The aliases in use; the source keeps `used_aliases` equal to this set,
      adding to both at every allocation. */
  function Aliases(m: AliasMap): set<string> {
    set e | e in m :: e.alias
  }

  function Tables(m: AliasMap): set<string> {
    set e | e in m :: e.table
  }

  /** No alias is bound twice and no table has two aliases. */
  predicate Unique(m: AliasMap) {
    && (forall i, j :: 0 <= i < j < |m| ==> m[i].alias != m[j].alias)
    && (forall i, j :: 0 <= i < j < |m| ==> m[i].table != m[j].table)
  }

  /** `next((a for a, t in alias_map.items() if t == table), None)` */
  function AliasOf(m: AliasMap, table: string): (r: Option<string>)
    ensures r.None? <==> table !in Tables(m)
    ensures r.Some? ==> exists i :: 0 <= i < |m| && m[i] == AliasEntry(r.value, table) &&
                          forall j :: 0 <= j < i ==> m[j].table != table
  {
    if m == [] then None
    else if m[0].table == table then Some(m[0].alias)
    else
      var r := AliasOf(m[1..], table);
      assert m == [m[0]] + m[1..];
      if r.Some? then
        var i :| 0 <= i < |m[1..]| && m[1..][i] == AliasEntry(r.value, table) &&
                 forall j :: 0 <= j < i ==> m[1..][j].table != table;
        assert m[i + 1] == AliasEntry(r.value, table);
        r
      else r
  }

  /** `table[:2].lower()` */
  function Base(table: string): string {
    ToLower(if |table| <= 2 then table else table[..2])
  }

  /** The k-th alias tried: the base itself, then `f"{base}{k}"`. */
  function Candidate(base: string, k: nat): string {
    if k == 0 then base else base + NatToString(k)
  }

  lemma CandidateInjective(base: string, j: nat, k: nat)
    requires Candidate(base, j) == Candidate(base, k)
    ensures j == k
  {
    if j != 0 && k != 0 {
      assert NatToString(j) == Candidate(base, j)[|base|..];
      assert NatToString(k) == Candidate(base, k)[|base|..];
      NatToStringInjective(j, k);
    }
  }

  ghost function Candidates(base: string, n: nat): set<string> {
    set k | 0 <= k < n :: Candidate(base, k)
  }

  lemma {:induction false} CandidatesCardinality(base: string, n: nat)
    ensures |Candidates(base, n)| == n
  {
    if n > 0 {
      CandidatesCardinality(base, n - 1);
      assert Candidates(base, n) == Candidates(base, n - 1) + {Candidate(base, n - 1)};
      if Candidate(base, n - 1) in Candidates(base, n - 1) {
        var k :| 0 <= k < n - 1 && Candidate(base, k) == Candidate(base, n - 1);
        CandidateInjective(base, k, n - 1);
      }
    }
  }

  /** If the first `n` candidates are all taken, there are at least `n` aliases. */
  lemma TakenBound(base: string, used: set<string>, n: nat)
    requires forall k :: 0 <= k < n ==> Candidate(base, k) in used
    ensures n <= |used|
  {
    CandidatesCardinality(base, n);
    SubsetCardinality(Candidates(base, n), used);
  }

  /** The `while alias in used_aliases` loop from the k-th candidate on. */
  function FirstFree(base: string, used: set<string>, k: nat): (r: string)
    requires forall j :: 0 <= j < k ==> Candidate(base, j) in used
    ensures r !in used
    ensures exists n: nat :: k <= n && r == Candidate(base, n) &&
                        forall j :: 0 <= j < n ==> Candidate(base, j) in used
    decreases |used| - k
  {
    TakenBound(base, used, k);
    if Candidate(base, k) !in used then Candidate(base, k)
    else
      TakenBound(base, used, k + 1);
      FirstFree(base, used, k + 1)
  }

  /** The alias a table receives: never one in use, and the first free one in
      the order base, base1, base2, ... */
  function Allocate(table: string, used: set<string>): (r: string)
    ensures r !in used
    ensures exists n: nat :: r == Candidate(Base(table), n) &&
                        forall j :: 0 <= j < n ==> Candidate(Base(table), j) in used
  {
    FirstFree(Base(table), used, 0)
  }

  /** Bind a fresh alias to `table`: `alias_map[alias] = table` together with
      `used_aliases.add(alias)`. The new binding never clashes with an alias in
      use, and a table already in the map keeps its single binding only when
      the caller skips it (see `Register`). */
  function Bind(m: AliasMap, table: string): (m': AliasMap)
    requires Unique(m) && table !in Tables(m)
    ensures Unique(m')
    ensures |m'| == |m| + 1 && m'[..|m|] == m && m'[|m|].table == table
    ensures m'[|m|].alias !in Aliases(m) && m'[|m|].alias == Allocate(table, Aliases(m))
    ensures Aliases(m') == Aliases(m) + {m'[|m|].alias}
    ensures Tables(m') == Tables(m) + {table}
  {
    var a := Allocate(table, Aliases(m));
    AppendFresh(m, a, table);
    m + [AliasEntry(a, table)]
  }

  /** Appending an unused alias for a table not yet in the map. */
  lemma AppendFresh(m: AliasMap, a: string, table: string)
    requires Unique(m) && table !in Tables(m) && a !in Aliases(m)
    ensures var m' := m + [AliasEntry(a, table)];
            && Unique(m') && m'[..|m|] == m
            && Aliases(m') == Aliases(m) + {a} && Tables(m') == Tables(m) + {table}
  {
    var m' := m + [AliasEntry(a, table)];
    assert forall i :: 0 <= i < |m| ==> m'[i] == m[i];
    forall i | 0 <= i < |m| ensures m[i].alias != a && m[i].table != table {
      assert m[i] in m;
    }
    assert m'[..|m|] == m;
  }

  /** The lookup-then-allocate step for a table reached by a join: a table
      that already has an alias is never given a second one. */
  function Register(m: AliasMap, table: string): (m': AliasMap)
    requires Unique(m)
    ensures Unique(m')
    ensures Tables(m') == Tables(m) + {table}
    ensures m <= m'
    ensures table in Tables(m) ==> m' == m
    ensures table !in Tables(m) ==>
              |m'| == |m| + 1 && m'[|m|].table == table && m'[|m|].alias !in Aliases(m)
    ensures table !in Tables(m) ==> m'[|m|].alias == Allocate(table, Aliases(m))
  {
    if table in Tables(m) then m else Bind(m, table)
  }

  /** `m'` extends `m`, and every entry appended got its alias from
      `Allocate` against the aliases bound before it: the lowercased first two
      letters of its table, or that base followed by the first free number. */
  ghost predicate Allocated(m: AliasMap, m': AliasMap) {
    && m <= m'
    && forall i :: |m| <= i < |m'| ==> m'[i].alias == Allocate(m'[i].table, Aliases(m'[..i]))
  }

  lemma AllocatedRefl(m: AliasMap)
    ensures Allocated(m, m)
  {
  }

  lemma RegisterAllocates(m: AliasMap, table: string)
    requires Unique(m)
    ensures Allocated(m, Register(m, table))
  {
    var m' := Register(m, table);
    if table !in Tables(m) {
      assert m'[..|m|] == m;
    }
  }

  lemma {:induction false} AllocatedTrans(a: AliasMap, b: AliasMap, c: AliasMap)
    requires Allocated(a, b) && Allocated(b, c)
    ensures Allocated(a, c)
  {
    assert c[..|a|] == b[..|a|];
    forall i | |a| <= i < |b| ensures c[i].alias == Allocate(c[i].table, Aliases(c[..i])) {
      assert c[..i] == b[..i];
      assert c[i] == b[i];
    }
  }

  /** Extending a map keeps every existing table's alias. */
  lemma AliasOfExtend(m: AliasMap, m': AliasMap, table: string)
    requires m <= m' && table in Tables(m)
    ensures AliasOf(m', table) == AliasOf(m, table)
  {
    if m[0].table != table {
      assert m[1..] <= m'[1..];
      assert table in Tables(m[1..]) by {
        var e :| e in m && e.table == table;
        assert e in m[1..] by { assert e != m[0]; assert m == [m[0]] + m[1..]; }
      }
      AliasOfExtend(m[1..], m'[1..], table);
    }
  }

  /** Distinct tables of a map without repetitions have distinct aliases. */
  lemma AliasOfDistinct(m: AliasMap, t: string, u: string)
    requires Unique(m) && t != u
    requires AliasOf(m, t).Some? && AliasOf(m, u).Some?
    ensures AliasOf(m, t).value != AliasOf(m, u).value
  {
    var i :| 0 <= i < |m| && m[i] == AliasEntry(AliasOf(m, t).value, t) &&
             forall j :: 0 <= j < i ==> m[j].table != t;
    var k :| 0 <= k < |m| && m[k] == AliasEntry(AliasOf(m, u).value, u) &&
             forall j :: 0 <= j < k ==> m[j].table != u;
    assert i != k;
  }
}

=== FILE: assemble.dfy ===
/** The alias loop over the sorted needed tables and the join loop of
    `build_sql`: each needed table not yet in the FROM clause is reached by a
    shortest join path from the tables already there, and the path's join
    fragments are appended. */
module Assemble {
  import opened Text
  import opened Order
  import opened Alias
  import opened JoinGraph
  import opened JoinPath
  import opened Sql
  import opened Joins

  /** `for table in sorted(needed_tables)`: bind a fresh alias to each table
      in turn. The map keeps its entries and gains exactly `names`, in order. */
  function BindAll(m: AliasMap, names: seq<string>): (m': AliasMap)
    requires Unique(m) && Distinct(names)
    requires forall x :: x in names ==> x !in Tables(m)
    ensures Unique(m') && m <= m' && |m'| == |m| + |names|
    decreases |names|
  {
    if names == [] then m
    else
      var m1 := Bind(m, names[0]);
      BindAllStep(m, names, m1);
      var r := BindAll(m1, names[1..]);
      PrefixTrans(m, m1, r);
      r
  }

  /** Each needed table bound by the allocation loop gets the first free
      alias of the sequence base, base1, base2, ... against those bound
      before it. */
  lemma {:induction false} BindAllAllocates(m: AliasMap, names: seq<string>)
    requires Unique(m) && Distinct(names)
    requires forall x :: x in names ==> x !in Tables(m)
    ensures Allocated(m, BindAll(m, names))
    decreases |names|
  {
    if names == [] {
      AllocatedRefl(m);
    } else {
      var m1 := Bind(m, names[0]);
      assert m1[..|m|] == m;
      BindAllStep(m, names, m1);
      BindAllAllocates(m1, names[1..]);
      AllocatedTrans(m, m1, BindAll(m1, names[1..]));
    }
  }

  lemma PrefixTrans(a: AliasMap, b: AliasMap, c: AliasMap)
    requires a <= b && b <= c
    ensures a <= c
  {
    assert c[..|a|] == b[..|a|];
  }

  lemma BindAllStep(m: AliasMap, names: seq<string>, m1: AliasMap)
    requires Unique(m) && Distinct(names) && names != []
    requires forall x :: x in names ==> x !in Tables(m)
    requires Unique(m1) && Tables(m1) == Tables(m) + {names[0]}
    ensures Distinct(names[1..])
    ensures forall x :: x in names[1..] ==> x !in Tables(m1)
  {
    forall x | x in names[1..] ensures x !in Tables(m1) {
      var i :| 0 <= i < |names[1..]| && names[1..][i] == x;
      assert names[i + 1] == x && names[0] != names[i + 1];
    }
  }

  lemma ShiftTables(m: AliasMap, names: seq<string>, m1: AliasMap, r: AliasMap)
    requires names != [] && |m1| == |m| + 1 && m1[|m|].table == names[0]
    requires m1 <= r && |r| == |m1| + |names| - 1
    requires forall i :: 0 <= i < |names| - 1 ==> r[|m1| + i].table == names[1..][i]
    ensures forall i :: 0 <= i < |names| ==> r[|m| + i].table == names[i]
  {
    forall i | 0 <= i < |names| ensures r[|m| + i].table == names[i] {
      if i == 0 {
        assert r[|m|] == m1[|m|];
      } else {
        assert r[|m1| + (i - 1)].table == names[1..][i - 1];
      }
    }
  }

  /** `BindAll` appends one entry per name, in the order of `names`. */
  lemma {:induction false} BindAllOrder(m: AliasMap, names: seq<string>)
    requires Unique(m) && Distinct(names)
    requires forall x :: x in names ==> x !in Tables(m)
    ensures forall i :: 0 <= i < |names| ==> BindAll(m, names)[|m| + i].table == names[i]
    decreases |names|
  {
    if names != [] {
      var m1 := Bind(m, names[0]);
      BindAllStep(m, names, m1);
      var r := BindAll(m1, names[1..]);
      BindAllOrder(m1, names[1..]);
      ShiftTables(m, names, m1, r);
    }
  }

  /** The tables `BindAll` leaves in the map: the old ones and `names`. */
  lemma BindAllTables(m: AliasMap, names: seq<string>)
    requires Unique(m) && Distinct(names)
    requires forall x :: x in names ==> x !in Tables(m)
    ensures forall x :: x in Tables(BindAll(m, names)) <==> x in Tables(m) || x in names
  {
    var r := BindAll(m, names);
    BindAllOrder(m, names);
    forall x ensures x in Tables(r) <==> x in Tables(m) || x in names {
      if x in Tables(r) {
        var e :| e in r && e.table == x;
        var i :| 0 <= i < |r| && r[i] == e;
        if i < |m| {
          assert m[i] == r[i];
        } else {
          assert names[i - |m|] == x;
        }
      }
      if x in Tables(m) {
        var e :| e in m && e.table == x;
        var i :| 0 <= i < |m| && m[i] == e;
        assert r[i] == e;
      }
      if x in names {
        var i :| 0 <= i < |names| && names[i] == x;
        assert r[|m| + i] in r;
      }
    }
  }

  /** The first table bound in an empty map gets its base alias: the main
      table's alias is its first two characters, lowercased. */
  lemma FirstAlias(names: seq<string>)
    requires |names| > 0 && Distinct(names)
    ensures BindAll([], names)[0] == AliasEntry(Base(names[0]), names[0])
  {
    var m1 := Bind([], names[0]);
    assert Aliases([]) == {};
    var a := Allocate(names[0], {});
    assert a == Candidate(Base(names[0]), 0);
    assert BindAll([], names)[0] == m1[0];
  }

  /** The loop state: fragments so far, the alias map, and `added_tables` in
      insertion order (the main table first). */
  datatype Assembly = Assembly(joins: seq<Join>, m: AliasMap, added: seq<string>)

  /** Fragment k's left alias belongs to a table that was already in the FROM
      clause, the main table or one joined before it, and its ON columns are
      an edge of the join graph from that table. */
  ghost predicate Scoped(g: Graph, a: Assembly, k: nat)
    requires k < |a.joins| && k < |a.added|
  {
    exists j :: 0 <= j <= k && AliasOf(a.m, a.added[j]) == Some(a.joins[k].leftAlias) &&
      InGraph(g, Edge(a.added[j], a.joins[k].table, a.joins[k].leftCol, a.joins[k].rightCol))
  }

  /** Fragment k joins `added[k + 1]` under its alias in the map, as INNER
      exactly for needed tables, and in scope. */
  ghost predicate FragmentOk(g: Graph, inner: set<string>, a: Assembly, k: nat) {
    && k < |a.joins| && k + 1 < |a.added|
    && a.joins[k].table == a.added[k + 1]
    && AliasOf(a.m, a.joins[k].table) == Some(a.joins[k].alias)
    && a.joins[k].kind == KindFor(a.joins[k].table, inner)
    && Scoped(g, a, k)
  }

  /** What the loop keeps: every fragment is in order. */
  ghost predicate Good(g: Graph, inner: set<string>, a: Assembly) {
    && Unique(a.m)
    && |a.added| > 0 && Distinct(a.added)
    && (forall x :: x in a.added ==> x in Tables(a.m))
    && |a.joins| == |a.added| - 1
    && (forall k: nat :: k < |a.joins| ==> FragmentOk(g, inner, a, k))
  }

  /** The state before the join loop: only the main table, no fragments. */
  lemma GoodStart(g: Graph, inner: set<string>, m: AliasMap, main: string)
    requires Unique(m) && main in Tables(m)
    ensures Good(g, inner, Assembly([], m, [main]))
  {
    var a := Assembly([], m, [main]);
    assert forall x :: x in a.added ==> x == main;
  }

  lemma WalkCovered(g: Graph, a: Assembly, t: string, path: seq<Edge>)
    requires forall x :: x in a.added ==> x in Tables(a.m)
    requires path != [] && IsWalk(g, SourceSet(a.added), t, path)
    ensures LeftsCovered(path, a.m)
  {
    forall i | 0 <= i < |path|
      ensures path[i].left in Tables(a.m) || exists j :: 0 <= j < i && path[j].right == path[i].left
    {
      if i > 0 {
        assert path[i - 1].right == path[i].left;
      }
    }
  }

  lemma DistinctAppend(s: seq<string>, t: seq<string>)
    requires Distinct(s) && Distinct(t)
    requires forall x :: x in t ==> x !in s
    ensures Distinct(s + t)
  {
    var r := s + t;
    forall i, j | 0 <= i < j < |r| ensures r[i] != r[j] {
      if j >= |s| {
        assert r[j] == t[j - |s|] && r[j] in t;
        if i >= |s| {
          assert r[i] == t[i - |s|];
        } else {
          assert r[i] == s[i] && r[i] in s;
        }
      }
    }
  }

  /** The state after one path's fragments are appended. */
  function Extend(a: Assembly, path: seq<Edge>, inner: set<string>): Assembly
    requires Unique(a.m) && LeftsCovered(path, a.m)
  {
    var r := GenerateJoins(path, a.m, inner);
    Assembly(a.joins + r.0, r.1, a.added + Rights(path))
  }

  /** The facts about a path found from the current tables to `t`. */
  ghost predicate PathFound(g: Graph, inner: set<string>, a: Assembly, t: string, path: seq<Edge>) {
    && Good(g, inner, a)
    && path != []
    && IsWalk(g, SourceSet(a.added), t, path)
    && Simple(SourceSet(a.added), path)
  }

  lemma ExtendShape(g: Graph, inner: set<string>, a: Assembly, t: string, path: seq<Edge>)
    requires PathFound(g, inner, a, t, path)
    ensures LeftsCovered(path, a.m)
    ensures var r := Extend(a, path, inner);
            && Unique(r.m) && a.m <= r.m
            && |r.added| > 0 && Distinct(r.added)
            && (forall x :: x in r.added ==> x in Tables(r.m))
            && |r.joins| == |r.added| - 1
            && t in r.added
  {
    WalkCovered(g, a, t, path);
    var r := Extend(a, path, inner);
    var rights := Rights(path);
    assert Distinct(rights) by {
      forall i, j | 0 <= i < j < |rights| ensures rights[i] != rights[j] {
        assert rights[i] == path[i].right && rights[j] == path[j].right;
      }
    }
    assert forall x :: x in rights ==> x !in a.added by {
      forall x | x in rights ensures x !in a.added {
        var i :| 0 <= i < |rights| && rights[i] == x;
        assert path[i].right !in SourceSet(a.added);
      }
    }
    DistinctAppend(a.added, rights);
    assert rights[|path| - 1] == t;
  }

  lemma ExtendOld(g: Graph, inner: set<string>, a: Assembly, r: Assembly, k: nat)
    requires Good(g, inner, a) && a.m <= r.m
    requires a.joins <= r.joins && a.added <= r.added
    requires k < |a.joins|
    ensures FragmentOk(g, inner, r, k)
  {
    assert FragmentOk(g, inner, a, k);
    assert r.joins[k] == a.joins[k];
    assert r.added[k + 1] == a.added[k + 1];
    assert a.joins[k].table in a.added;
    AliasOfExtend(a.m, r.m, a.joins[k].table);
    assert Scoped(g, a, k);
    var j :| 0 <= j <= k && AliasOf(a.m, a.added[j]) == Some(a.joins[k].leftAlias) &&
      InGraph(g, Edge(a.added[j], a.joins[k].table, a.joins[k].leftCol, a.joins[k].rightCol));
    assert a.added[j] in a.added;
    AliasOfExtend(a.m, r.m, a.added[j]);
    assert r.added[j] == a.added[j];
  }

  /** The path facts the new fragments rely on: it starts at a table in
      the FROM clause, each step starts where the previous one ended, and
      each step is a graph edge. */
  ghost predicate Chain(g: Graph, a: Assembly, path: seq<Edge>) {
    && path != []
    && path[0].left in a.added
    && (forall i :: 0 <= i < |path| - 1 ==> path[i].right == path[i + 1].left)
    && (forall i :: 0 <= i < |path| ==> InGraph(g, path[i]))
  }

  /** A fragment rendering a graph edge whose right table follows it in
      `added` and whose left table comes no later than that is in order. */
  lemma FragmentFrom(g: Graph, inner: set<string>, r: Assembly, k: nat, e: Edge, j: nat)
    requires k < |r.joins| && k + 1 < |r.added| && j <= k
    requires Renders(r.joins[k], e, r.m, inner) && InGraph(g, e)
    requires r.added[k + 1] == e.right && r.added[j] == e.left
    ensures FragmentOk(g, inner, r, k)
  {
    var jn := r.joins[k];
    assert e == Edge(r.added[j], jn.table, jn.leftCol, jn.rightCol);
  }

  lemma ExtendNew(g: Graph, inner: set<string>, a: Assembly, path: seq<Edge>, js: seq<Join>,
                  r: Assembly, i: nat)
    requires Chain(g, a, path) && |a.joins| == |a.added| - 1
    requires |js| == |path| && forall n :: 0 <= n < |path| ==> Renders(js[n], path[n], r.m, inner)
    requires r.joins == a.joins + js && r.added == a.added + Rights(path)
    requires i < |path|
    ensures FragmentOk(g, inner, r, |a.joins| + i)
  {
    var k := |a.joins| + i;
    assert r.joins[k] == js[i];
    assert r.added[k + 1] == path[i].right by {
      assert r.added[k + 1] == Rights(path)[i];
    }
    var j := LeftIndex(a, path, r, i);
    FragmentFrom(g, inner, r, k, path[i], j);
  }

  /** Where the left table of step `i` sits in the extended `added` list:
      among the earlier tables for the first step, else right before the
      step's own table. */
  lemma LeftIndex(a: Assembly, path: seq<Edge>, r: Assembly, i: nat) returns (j: nat)
    requires path != [] && path[0].left in a.added
    requires forall n :: 0 <= n < |path| - 1 ==> path[n].right == path[n + 1].left
    requires r.added == a.added + Rights(path) && i < |path|
    ensures j <= |a.added| - 1 + i && j < |r.added| && r.added[j] == path[i].left
  {
    if i == 0 {
      j :| 0 <= j < |a.added| && a.added[j] == path[0].left;
      assert r.added[j] == a.added[j];
    } else {
      j := |a.added| + i - 1;
      assert r.added[j] == Rights(path)[i - 1];
    }
  }

  lemma OldFragments(g: Graph, inner: set<string>, a: Assembly, r: Assembly)
    requires Good(g, inner, a) && a.m <= r.m
    requires a.joins <= r.joins && a.added <= r.added
    ensures forall k: nat :: k < |a.joins| ==> FragmentOk(g, inner, r, k)
  {
    forall k: nat | k < |a.joins| ensures FragmentOk(g, inner, r, k) {
      ExtendOld(g, inner, a, r, k);
    }
  }

  lemma NewFragments(g: Graph, inner: set<string>, a: Assembly, path: seq<Edge>, js: seq<Join>, r: Assembly)
    requires Chain(g, a, path) && |a.joins| == |a.added| - 1
    requires |js| == |path| && forall n :: 0 <= n < |path| ==> Renders(js[n], path[n], r.m, inner)
    requires r.joins == a.joins + js && r.added == a.added + Rights(path)
    ensures forall k: nat :: |a.joins| <= k < |r.joins| ==> FragmentOk(g, inner, r, k)
  {
    forall k: nat | |a.joins| <= k < |r.joins| ensures FragmentOk(g, inner, r, k) {
      ExtendNew(g, inner, a, path, js, r, k - |a.joins|);
    }
  }

  /** The invariant for the extended state, from the facts about its parts. */
  lemma GoodFromParts(g: Graph, inner: set<string>, a: Assembly, path: seq<Edge>, js: seq<Join>, r: Assembly)
    requires Good(g, inner, a) && Chain(g, a, path)
    requires |js| == |path| && forall n :: 0 <= n < |path| ==> Renders(js[n], path[n], r.m, inner)
    requires r.joins == a.joins + js && r.added == a.added + Rights(path)
    requires Unique(r.m) && a.m <= r.m && Distinct(r.added)
    requires forall x :: x in r.added ==> x in Tables(r.m)
    ensures Good(g, inner, r)
  {
    OldFragments(g, inner, a, r);
    NewFragments(g, inner, a, path, js, r);
  }

  lemma ExtendGood(g: Graph, inner: set<string>, a: Assembly, t: string, path: seq<Edge>)
    requires PathFound(g, inner, a, t, path)
    ensures LeftsCovered(path, a.m)
    ensures Good(g, inner, Extend(a, path, inner))
    ensures t in Extend(a, path, inner).added
    ensures a.added <= Extend(a, path, inner).added
    ensures a.m <= Extend(a, path, inner).m
  {
    ExtendShape(g, inner, a, t, path);
    assert Chain(g, a, path) by {
      assert path[0].left in SourceSet(a.added);
    }
    var gj := GenerateJoins(path, a.m, inner);
    GenerateJoinsFragments(path, a.m, inner);
    var r := Extend(a, path, inner);
    assert r == Assembly(a.joins + gj.0, gj.1, a.added + Rights(path));
    GoodFromParts(g, inner, a, path, gj.0, r);
  }

  /** Appending a path's fragments binds exactly the path's tables that had
      no alias, each under `Allocate`'s alias, and nothing else. */
  lemma ExtendFrame(a: Assembly, path: seq<Edge>, inner: set<string>)
    requires Unique(a.m) && LeftsCovered(path, a.m)
    requires forall x :: x in a.added ==> x in Tables(a.m)
    ensures var r := Extend(a, path, inner);
            && Allocated(a.m, r.m)
            && forall x :: x in Tables(r.m) <==> x in Tables(a.m) || x in r.added
  {
    JoinsAllocate(path, a.m, inner);
    var r := Extend(a, path, inner);
    forall x ensures x in Tables(r.m) <==> x in Tables(a.m) || x in r.added {
      assert x in r.added <==> x in a.added || x in Rights(path);
    }
  }

  /** One iteration for table `t`: skip it if already in the FROM clause,
      else search a path from the tables there and append its fragments. A
      table reachable from those tables always ends up in the FROM clause. */
  function JoinTable(g: Graph, inner: set<string>, a: Assembly, t: string): (r: Assembly)
    requires Good(g, inner, a)
    ensures Good(g, inner, r)
    ensures a.added <= r.added && a.m <= r.m
    ensures Reachable(g, SourceSet(a.added), t) ==> t in r.added
    ensures !Reachable(g, SourceSet(a.added), t) ==> r == a
    ensures Allocated(a.m, r.m)
    ensures forall x :: x in Tables(r.m) <==> x in Tables(a.m) || x in r.added
  {
    if t in a.added then
      AllocatedRefl(a.m);
      a
    else
      var path := FindJoinPath(g, a.added, t);
      if path == [] then
        AllocatedRefl(a.m);
        a
      else
        ExtendGood(g, inner, a, t, path);
        ExtendFrame(a, path, inner);
        Extend(a, path, inner)
  }

  /** A walk from the main table is a walk from any set holding it. */
  lemma WalkFromMain(g: Graph, main: string, s: seq<string>, t: string, w: seq<Edge>)
    requires IsWalk(g, {main}, t, w) && main in s
    ensures Reachable(g, SourceSet(s), t)
  {
    assert IsWalk(g, SourceSet(s), t, w);
  }

  /** `for table in needed_tables`, in sorted order. Every table of `todo`
      reachable from the main table ends up in the FROM clause. */
  function AssembleJoins(g: Graph, inner: set<string>, a: Assembly, todo: seq<string>): (r: Assembly)
    requires Good(g, inner, a)
    ensures Good(g, inner, r)
    ensures a.added <= r.added && a.m <= r.m
    ensures forall t :: t in todo && Reachable(g, {a.added[0]}, t) ==> t in r.added
    ensures Allocated(a.m, r.m)
    ensures forall x :: x in Tables(r.m) <==> x in Tables(a.m) || x in r.added
    decreases |todo|
  {
    if todo == [] then
      AllocatedRefl(a.m);
      a
    else
      var a1 := JoinTable(g, inner, a, todo[0]);
      var r := AssembleJoins(g, inner, a1, todo[1..]);
      assert a1.added[0] == a.added[0];
      AllocatedTrans(a.m, a1.m, r.m);
      forall x | x in a1.added ensures x in r.added {
        var i :| 0 <= i < |a1.added| && a1.added[i] == x;
        assert r.added[i] == x;
      }
      forall t | t in todo && Reachable(g, {a.added[0]}, t) ensures t in r.added {
        if t == todo[0] {
          var w :| IsWalk(g, {a.added[0]}, t, w);
          WalkFromMain(g, a.added[0], a.added, t, w);
          assert t in a1.added;
        } else {
          assert t in todo[1..];
        }
      }
      r
  }

  // ---------------------------------------------------------------------
  // What the invariant says about the finished FROM clause

  /** The joined tables are pairwise distinct and none is the main table. */
  lemma JoinTablesDistinct(g: Graph, inner: set<string>, a: Assembly)
    requires Good(g, inner, a)
    ensures forall k :: 0 <= k < |a.joins| ==> a.joins[k].table != a.added[0]
    ensures forall k, l :: 0 <= k < l < |a.joins| ==> a.joins[k].table != a.joins[l].table
  {
    forall k | 0 <= k < |a.joins| ensures a.joins[k].table != a.added[0] {
      assert FragmentOk(g, inner, a, k);
    }
    forall k, l | 0 <= k < l < |a.joins| ensures a.joins[k].table != a.joins[l].table {
      assert FragmentOk(g, inner, a, k) && FragmentOk(g, inner, a, l);
    }
  }

  /** A fragment is INNER exactly when its table is in `inner`. */
  lemma JoinKindsOf(g: Graph, inner: set<string>, a: Assembly)
    requires Good(g, inner, a)
    ensures forall k :: 0 <= k < |a.joins| ==> (a.joins[k].kind == InnerJoin <==> a.joins[k].table in inner)
  {
    forall k | 0 <= k < |a.joins| ensures a.joins[k].kind == InnerJoin <==> a.joins[k].table in inner {
      assert FragmentOk(g, inner, a, k);
    }
  }

  /** A table in `added` is the main table or the table of a fragment. */
  lemma AddedJoined(g: Graph, inner: set<string>, a: Assembly, t: string)
    requires Good(g, inner, a) && t in a.added
    ensures t == a.added[0] || exists k :: 0 <= k < |a.joins| && a.joins[k].table == t
  {
    var i :| 0 <= i < |a.added| && a.added[i] == t;
    if i > 0 {
      assert FragmentOk(g, inner, a, i - 1);
    }
  }

  /** Table `added[k]` was entered by a graph step from an earlier table. */
  ghost predicate Entered(g: Graph, added: seq<string>, k: nat)
    requires k < |added|
  {
    exists j, c1, c2 :: 0 <= j < k && InGraph(g, Edge(added[j], added[k], c1, c2))
  }

  /** In a list where every table after the first was entered from an
      earlier one, every table is reachable from the first. */
  lemma {:induction false} ChainReachable(g: Graph, added: seq<string>, k: nat)
    requires k < |added|
    requires forall i :: 0 < i < |added| ==> Entered(g, added, i)
    ensures Reachable(g, {added[0]}, added[k])
  {
    if k == 0 {
      assert IsWalk(g, {added[0]}, added[0], []);
    } else {
      assert Entered(g, added, k);
      var j, c1, c2 :| 0 <= j < k && InGraph(g, Edge(added[j], added[k], c1, c2));
      ChainReachable(g, added, j);
      var w :| IsWalk(g, {added[0]}, added[j], w);
      var e := Edge(added[j], added[k], c1, c2);
      WalkExtend(g, {added[0]}, added[j], w, e);
      assert IsWalk(g, {added[0]}, added[k], w + [e]);
    }
  }

  lemma EnteredFromGood(g: Graph, inner: set<string>, a: Assembly)
    requires Good(g, inner, a)
    ensures forall i :: 0 < i < |a.added| ==> Entered(g, a.added, i)
  {
    forall i | 0 < i < |a.added| ensures Entered(g, a.added, i) {
      assert FragmentOk(g, inner, a, i - 1);
      var jn := a.joins[i - 1];
      var j :| 0 <= j <= i - 1 && AliasOf(a.m, a.added[j]) == Some(jn.leftAlias) &&
               InGraph(g, Edge(a.added[j], jn.table, jn.leftCol, jn.rightCol));
    }
  }

  /** The tables in the FROM clause stay connected to the main table: each
      one is reachable from it in the join graph. */
  lemma AddedReachable(g: Graph, inner: set<string>, a: Assembly, k: nat)
    requires Good(g, inner, a) && k < |a.added|
    ensures Reachable(g, {a.added[0]}, a.added[k])
  {
    EnteredFromGood(g, inner, a);
    ChainReachable(g, a.added, k);
  }

  lemma JoinsReachable(g: Graph, inner: set<string>, a: Assembly)
    requires Good(g, inner, a)
    ensures forall k :: 0 <= k < |a.joins| ==> Reachable(g, {a.added[0]}, a.joins[k].table)
  {
    forall k | 0 <= k < |a.joins| ensures Reachable(g, {a.added[0]}, a.joins[k].table) {
      AddedReachable(g, inner, a, k + 1);
      assert FragmentOk(g, inner, a, k);
    }
  }

  /** The left side of fragment `k` is the main table or the table of an
      earlier fragment, under that table's alias, over a graph edge. */
  lemma ScopeOf(g: Graph, inner: set<string>, a: Assembly, k: nat)
    requires Good(g, inner, a) && k < |a.joins|
    ensures var jn := a.joins[k];
            || (AliasOf(a.m, a.added[0]) == Some(jn.leftAlias) &&
                InGraph(g, Edge(a.added[0], jn.table, jn.leftCol, jn.rightCol)))
            || exists l :: 0 <= l < k && jn.leftAlias == a.joins[l].alias &&
                 InGraph(g, Edge(a.joins[l].table, jn.table, jn.leftCol, jn.rightCol))
  {
    assert FragmentOk(g, inner, a, k);
    var jn := a.joins[k];
    var j :| 0 <= j <= k && AliasOf(a.m, a.added[j]) == Some(jn.leftAlias) &&
             InGraph(g, Edge(a.added[j], jn.table, jn.leftCol, jn.rightCol));
    if j > 0 {
      assert FragmentOk(g, inner, a, j - 1);
    }
  }

  /** The main table's alias and the fragments' aliases are pairwise distinct. */
  lemma AliasesOf(g: Graph, inner: set<string>, a: Assembly)
    requires Good(g, inner, a)
    ensures AliasOf(a.m, a.added[0]).Some?
    ensures forall k :: 0 <= k < |a.joins| ==> a.joins[k].alias != AliasOf(a.m, a.added[0]).value
    ensures forall k, l :: 0 <= k < l < |a.joins| ==> a.joins[k].alias != a.joins[l].alias
  {
    JoinTablesDistinct(g, inner, a);
    forall k | 0 <= k < |a.joins| ensures a.joins[k].alias != AliasOf(a.m, a.added[0]).value {
      assert FragmentOk(g, inner, a, k);
      AliasOfDistinct(a.m, a.joins[k].table, a.added[0]);
    }
    forall k, l | 0 <= k < l < |a.joins| ensures a.joins[k].alias != a.joins[l].alias {
      assert FragmentOk(g, inner, a, k) && FragmentOk(g, inner, a, l);
      AliasOfDistinct(a.m, a.joins[k].table, a.joins[l].table);
    }
  }
}

=== FILE: build.dfy ===
/** `build_sql`: from a question and the catalog to one SELECT statement.
    The question is lowercased once; table detection, alias allocation, the
    join loop, the select list, the WHERE predicates and the LIMIT are then
    computed from it and assembled into a `Query`, which `Render` writes out. */
module Build {
  import opened Text
  import opened Order
  import opened Catalog
  import opened Alias
  import opened JoinGraph
  import opened JoinPath
  import opened Sql
  import opened Joins
  import opened Patterns
  import opened Detect
  import opened Assemble
  import opened Select
  import opened Where

  /** The values `build_sql` computes before assembling the text. `needed`
      lists `needed_tables` in sorted order; `a` holds the join fragments,
      the final alias map and `added_tables` after the join loop. */
  datatype Plan = Plan(s: string, count: bool, needed: seq<string>, main: string, a: Assembly)

  /** `sorted(needed_tables)` is determined by the set alone: any listing of
      the same tables sorts to the same list, so the order in which the set
      happens to be enumerated does not matter. */
  lemma {:induction false} SortIndependent(l: seq<string>, k: seq<string>)
    requires Distinct(l) && Distinct(k)
    requires forall x :: x in l <==> x in k
    ensures Sort(l) == Sort(k)
  {
    SortKeepsElements(l);
    SortKeepsElements(k);
    SortedUnique(Sort(l), Sort(k));
  }

  lemma SortKeepsElements(l: seq<string>)
    requires Distinct(l)
    ensures forall x :: x in Sort(l) <==> x in l
  {
    forall x ensures x in Sort(l) <==> x in l {
      assert x in Sort(l) <==> x in multiset(Sort(l));
      assert x in l <==> x in multiset(l);
    }
  }

  /** The needed tables in sorted order, with the main table first: the
      least needed table, which has columns. */
  function SortedNeeded(cat: Catalog, s: string): (r: seq<string>)
    requires WellFormed(cat)
    ensures Sorted(r) && |r| > 0
    ensures forall x :: x in r <==> x in NeededTables(cat, s)
    ensures forall x :: x in NeededTables(cat, s) ==> x == r[0] || Less(r[0], x)
    ensures |Columns(cat, r[0])| > 0
  {
    var found := NeededTables(cat, s);
    var sorted := Sort(found);
    SortKeepsElements(found);
    assert found[0] in sorted;
    forall x | x in found ensures x == sorted[0] || Less(sorted[0], x) {
      SortedHeadLeast(sorted, x);
    }
    ColumnsOfName(cat, sorted[0]);
    sorted
  }

  /** The alias map after the sorted allocation loop, and the main table's
      alias in it: the base alias of the least needed table. */
  lemma InitialMap(sorted: seq<string>)
    requires Sorted(sorted) && |sorted| > 0
    ensures Distinct(sorted)
    ensures var m := BindAll([], sorted);
            && Unique(m)
            && (forall x :: x in Tables(m) <==> x in sorted)
            && AliasOf(m, sorted[0]) == Some(Base(sorted[0]))
  {
    SortedIsDistinct(sorted);
    assert Tables([]) == {};
    BindAllTables([], sorted);
    FirstAlias(sorted);
  }

  /** The state the join loop starts from. */
  function Start(g: Graph, sorted: seq<string>): (a: Assembly)
    requires Sorted(sorted) && |sorted| > 0
    ensures Good(g, SourceSet(sorted), a)
    ensures a.added == [sorted[0]]
    ensures AliasOf(a.m, sorted[0]) == Some(Base(sorted[0]))
    ensures forall t :: t in sorted ==> t in Tables(a.m)
  {
    InitialMap(sorted);
    var m := BindAll([], sorted);
    GoodStart(g, SourceSet(sorted), m, sorted[0]);
    Assembly([], m, [sorted[0]])
  }

  /** Tables of a map stay in any extension of it. */
  lemma TablesGrow(m: AliasMap, m': AliasMap)
    requires m <= m'
    ensures forall t :: t in Tables(m) ==> t in Tables(m')
  {
    forall t | t in Tables(m) ensures t in Tables(m') {
      var e :| e in m && e.table == t;
      assert e in m';
    }
  }

  /** The join loop over the sorted needed tables, from the main table. */
  function JoinLoop(g: Graph, sorted: seq<string>): (a: Assembly)
    requires Sorted(sorted) && |sorted| > 0
    ensures Good(g, SourceSet(sorted), a)
    ensures a.added[0] == sorted[0]
    ensures AliasOf(a.m, sorted[0]) == Some(Base(sorted[0]))
    ensures forall t :: t in sorted ==> t in Tables(a.m)
    ensures forall t :: t in sorted && Reachable(g, {sorted[0]}, t) ==> t in a.added
  {
    var a0 := Start(g, sorted);
    var a := AssembleJoins(g, SourceSet(sorted), a0, sorted);
    AliasOfExtend(a0.m, a.m, sorted[0]);
    TablesGrow(a0.m, a.m);
    a
  }

  /** The alias map after the join loop is the allocation loop's map for the
      sorted needed tables, extended only by the tables the join loop added,
      every entry under the alias `Allocate` gave it against the aliases bound
      before it. */
  lemma JoinLoopFrame(g: Graph, sorted: seq<string>)
    requires Sorted(sorted) && |sorted| > 0
    ensures var a := JoinLoop(g, sorted);
            && Distinct(sorted) && BindAll([], sorted) <= a.m && Allocated([], a.m)
            && forall x :: x in Tables(a.m) <==> x in sorted || x in a.added
  {
    InitialMap(sorted);
    assert Tables([]) == {};
    var m0 := BindAll([], sorted);
    BindAllAllocates([], sorted);
    var a0 := Start(g, sorted);
    assert a0.m == m0;
    var a := AssembleJoins(g, SourceSet(sorted), a0, sorted);
    AllocatedTrans([], m0, a.m);
  }

  /** Everything up to the end of the join loop. */
  function MakePlan(cat: Catalog, nlq: string): (p: Plan)
    requires WellFormed(cat)
    ensures p.s == ToLower(nlq) && p.count == CountSearch(p.s)
    ensures Sorted(p.needed) && |p.needed| > 0 && p.main == p.needed[0]
    ensures forall x :: x in p.needed <==> x in NeededTables(cat, p.s)
    ensures |Columns(cat, p.main)| > 0
    ensures Good(BuildJoinGraph(cat), SourceSet(p.needed), p.a)
    ensures p.a.added[0] == p.main
    ensures AliasOf(p.a.m, p.main) == Some(Base(p.main))
    ensures forall t :: t in p.needed ==> t in Tables(p.a.m)
    ensures forall t :: t in p.needed && Reachable(BuildJoinGraph(cat), {p.main}, t) ==> t in p.a.added
  {
    var s := ToLower(nlq);
    var sorted := SortedNeeded(cat, s);
    Plan(s, CountSearch(s), sorted, sorted[0], JoinLoop(BuildJoinGraph(cat), sorted))
  }

  /** The plan's alias map holds the needed tables in sorted order, then the
      tables the join loop added, and nothing else; every alias is the one
      `Allocate` gave against the aliases bound before it. */
  lemma PlanFrame(cat: Catalog, nlq: string)
    requires WellFormed(cat)
    ensures var p := MakePlan(cat, nlq);
            && Distinct(p.needed) && BindAll([], p.needed) <= p.a.m && Allocated([], p.a.m)
            && forall x :: x in Tables(p.a.m) <==> x in p.needed || x in p.a.added
  {
    var s := ToLower(nlq);
    var sorted := SortedNeeded(cat, s);
    JoinLoopFrame(BuildJoinGraph(cat), sorted);
  }

  /** The statement `build_sql` returns, as a structured value. */
  function BuildQuery(cat: Catalog, nlq: string): (q: Query)
    requires WellFormed(cat)
    ensures q.table in NeededTables(cat, ToLower(nlq))
    ensures forall x :: x in NeededTables(cat, ToLower(nlq)) ==> x == q.table || Less(q.table, x)
    ensures q.alias == Base(q.table) && |Columns(cat, q.table)| > 0
    ensures q.select.CountDistinct? <==> IsCountQuery(ToLower(nlq))
    ensures q.select.CountDistinct? ==> q.select.alias == q.alias && q.limit.None?
    ensures q.select.CountDistinct? && PrimaryKey(cat, q.table).Some? ==>
              q.select.column == PrimaryKey(cat, q.table).value
    ensures q.select.CountDistinct? && PrimaryKey(cat, q.table).None? ==>
              q.select.column == Columns(cat, q.table)[0]
  {
    QueryOf(cat, MakePlan(cat, nlq))
  }

  /** The query assembled from a plan: the main table under its alias, the
      select clause, the join fragments, the predicates and the limit. */
  function QueryOf(cat: Catalog, p: Plan): (q: Query)
    requires |Columns(cat, p.main)| > 0 && AliasOf(p.a.m, p.main).Some?
    ensures q.table == p.main && q.alias == AliasOf(p.a.m, p.main).value
    ensures q.select.CountDistinct? <==> p.count
    ensures p.count ==> q.select.alias == q.alias && q.select.column == CountKey(cat, p.main)
    ensures p.count ==> q.limit.None?
  {
    var alias := AliasOf(p.a.m, p.main).value;
    Query(SelectFor(cat, p.a.m, p.main, alias, p.count), p.main, alias, p.a.joins,
          Filters(cat, p.a.m, FindAll(p.s, 0)), LimitValue(p.s, p.count))
  }

  /** The select clause: the count override or the deduplicated columns. */
  function SelectFor(cat: Catalog, m: AliasMap, main: string, alias: string, count: bool): (r: SelectList)
    requires |Columns(cat, main)| > 0
    ensures r.CountDistinct? <==> count
    ensures count ==> r.alias == alias && r.column == CountKey(cat, main)
    ensures !count ==> r.refs == SelectColumns(cat, m)
  {
    if count then CountDistinct(alias, CountKey(cat, main))
    else ColumnList(SelectColumns(cat, m))
  }

  /** `build_sql(nlq)`: the statement opens with the SELECT keyword on its own
      line, and a limit, when there is one, is the statement's last line. */
  function BuildSql(cat: Catalog, nlq: string): (sql: string)
    requires WellFormed(cat)
    ensures "SELECT\n    " <= sql
    ensures var q := BuildQuery(cat, nlq);
            q.limit.Some? ==>
              var tail := "\nLIMIT " + NatToString(q.limit.value);
              |tail| <= |sql| && sql[|sql| - |tail|..] == tail
  {
    RenderEnds(BuildQuery(cat, nlq));
    Render(BuildQuery(cat, nlq))
  }

  // ---------------------------------------------------------------------
  // Properties of the statement

  /** The plan behind a query. */
  lemma PlanOfQuery(cat: Catalog, nlq: string)
    requires WellFormed(cat)
    ensures var p := MakePlan(cat, nlq);
            var q := BuildQuery(cat, nlq);
            && q.table == p.main && q.alias == Base(p.main)
            && q.joins == p.a.joins
            && (q.select.ColumnList? ==> q.select.refs == SelectColumns(cat, p.a.m))
            && q.filters == Filters(cat, p.a.m, FindAll(p.s, 0))
            && q.limit == LimitValue(p.s, p.count)
  {
  }

  /** A table is entered into the FROM clause at most once: the joined
      tables are pairwise distinct and none is the main table. */
  lemma JoinedOnce(cat: Catalog, nlq: string)
    requires WellFormed(cat)
    ensures var q := BuildQuery(cat, nlq);
            && (forall k :: 0 <= k < |q.joins| ==> q.joins[k].table != q.table)
            && (forall k, l :: 0 <= k < l < |q.joins| ==> q.joins[k].table != q.joins[l].table)
  {
    var p := MakePlan(cat, nlq);
    PlanOfQuery(cat, nlq);
    JoinTablesDistinct(BuildJoinGraph(cat), SourceSet(p.needed), p.a);
  }

  /** A join is INNER exactly when its table is one the question needs;
      tables that only bridge a path are LEFT joined. */
  lemma JoinKinds(cat: Catalog, nlq: string)
    requires WellFormed(cat)
    ensures var q := BuildQuery(cat, nlq);
            forall k :: 0 <= k < |q.joins| ==>
              (q.joins[k].kind == InnerJoin <==> q.joins[k].table in NeededTables(cat, ToLower(nlq)))
  {
    var p := MakePlan(cat, nlq);
    PlanOfQuery(cat, nlq);
    JoinKindsOf(BuildJoinGraph(cat), SourceSet(p.needed), p.a);
  }

  /** Every needed table that the join graph connects to the main table is
      in the FROM clause. */
  lemma NeededJoined(cat: Catalog, nlq: string, t: string)
    requires WellFormed(cat)
    requires t in NeededTables(cat, ToLower(nlq))
    requires Reachable(BuildJoinGraph(cat), {BuildQuery(cat, nlq).table}, t)
    ensures var q := BuildQuery(cat, nlq);
            t == q.table || exists k :: 0 <= k < |q.joins| && q.joins[k].table == t
  {
    var p := MakePlan(cat, nlq);
    PlanOfQuery(cat, nlq);
    AddedJoined(BuildJoinGraph(cat), SourceSet(p.needed), p.a, t);
  }

  /** Conversely, every joined table is reachable from the main table. */
  lemma JoinedReachable(cat: Catalog, nlq: string)
    requires WellFormed(cat)
    ensures var q := BuildQuery(cat, nlq);
            forall k :: 0 <= k < |q.joins| ==> Reachable(BuildJoinGraph(cat), {q.table}, q.joins[k].table)
  {
    var p := MakePlan(cat, nlq);
    PlanOfQuery(cat, nlq);
    JoinsReachable(BuildJoinGraph(cat), SourceSet(p.needed), p.a);
  }

  /** A foreign key of the catalog joins table `x` to the fragment's table,
      on the fragment's column pair. */
  predicate LinkedBy(cat: Catalog, x: string, j: Join) {
    exists i :: 0 <= i < |Links(cat)| && JoinGraph.Joins(Links(cat)[i], x, Neighbor(j.table, j.leftCol, j.rightCol))
  }

  lemma GraphEdgeLinked(cat: Catalog, x: string, j: Join)
    requires InGraph(BuildJoinGraph(cat), Edge(x, j.table, j.leftCol, j.rightCol))
    ensures LinkedBy(cat, x, j)
  {
    NeighborIff(cat, x, Neighbor(j.table, j.leftCol, j.rightCol));
  }

  /** Every ON condition refers to a table already in scope, the main table
      or one joined earlier, under that table's alias, and its two columns
      are the column pair of a foreign key between the two tables. */
  lemma JoinScope(cat: Catalog, nlq: string)
    requires WellFormed(cat)
    ensures var q := BuildQuery(cat, nlq);
            forall k :: 0 <= k < |q.joins| ==>
              || (q.joins[k].leftAlias == q.alias && LinkedBy(cat, q.table, q.joins[k]))
              || exists l :: 0 <= l < k && q.joins[k].leftAlias == q.joins[l].alias &&
                             LinkedBy(cat, q.joins[l].table, q.joins[k])
  {
    var p := MakePlan(cat, nlq);
    var q := BuildQuery(cat, nlq);
    PlanOfQuery(cat, nlq);
    forall k | 0 <= k < |q.joins|
      ensures || (q.joins[k].leftAlias == q.alias && LinkedBy(cat, q.table, q.joins[k]))
              || exists l :: 0 <= l < k && q.joins[k].leftAlias == q.joins[l].alias &&
                             LinkedBy(cat, q.joins[l].table, q.joins[k])
    {
      var jn := q.joins[k];
      ScopeOf(BuildJoinGraph(cat), SourceSet(p.needed), p.a, k);
      if AliasOf(p.a.m, p.main) == Some(jn.leftAlias) &&
         InGraph(BuildJoinGraph(cat), Edge(p.main, jn.table, jn.leftCol, jn.rightCol)) {
        GraphEdgeLinked(cat, p.main, jn);
      } else {
        var l :| 0 <= l < k && jn.leftAlias == q.joins[l].alias &&
                 InGraph(BuildJoinGraph(cat), Edge(q.joins[l].table, jn.table, jn.leftCol, jn.rightCol));
        GraphEdgeLinked(cat, q.joins[l].table, jn);
      }
    }
  }

  /** The main alias and the join aliases are pairwise distinct. */
  lemma AliasesDistinct(cat: Catalog, nlq: string)
    requires WellFormed(cat)
    ensures var q := BuildQuery(cat, nlq);
            && (forall k :: 0 <= k < |q.joins| ==> q.joins[k].alias != q.alias)
            && (forall k, l :: 0 <= k < l < |q.joins| ==> q.joins[k].alias != q.joins[l].alias)
  {
    var p := MakePlan(cat, nlq);
    PlanOfQuery(cat, nlq);
    AliasesOf(BuildJoinGraph(cat), SourceSet(p.needed), p.a);
  }

  /** Without a count, every column of every needed table is named in the
      select list, whether or not the table could be joined. */
  lemma SelectCoversNeeded(cat: Catalog, nlq: string, t: string, c: string)
    requires WellFormed(cat)
    requires t in NeededTables(cat, ToLower(nlq)) && c in Columns(cat, t)
    requires BuildQuery(cat, nlq).select.ColumnList?
    ensures HasName(BuildQuery(cat, nlq).select.refs, c)
  {
    var p := MakePlan(cat, nlq);
    PlanOfQuery(cat, nlq);
    SelectCovers(cat, p.a.m, t, c);
  }

  /** The select list names each column at most once. */
  lemma SelectDistinct(cat: Catalog, nlq: string)
    requires WellFormed(cat)
    requires BuildQuery(cat, nlq).select.ColumnList?
    ensures var r := BuildQuery(cat, nlq).select.refs;
            forall k, l :: 0 <= k < l < |r| ==> r[k].column != r[l].column
  {
    var p := MakePlan(cat, nlq);
    PlanOfQuery(cat, nlq);
    DedupDistinct(Visited(cat, p.a.m), {});
  }

  /** The WHERE predicates are exactly those of the `<word> is <value>`
      matches of the lowercased question whose word names a column of an
      aliased table: each predicate comes from a match, and each such match
      contributes its predicate. */
  lemma WhereOfQuestion(cat: Catalog, nlq: string)
    requires WellFormed(cat)
    ensures var q := BuildQuery(cat, nlq);
            var p := MakePlan(cat, nlq);
            var ms := FindAll(ToLower(nlq), 0);
            && (forall x :: x in q.filters ==> FromMatch(cat, p.a.m, ms, x))
            && (forall i :: 0 <= i < |ms| && PredicateFor(cat, p.a.m, ms[i]).Some? ==>
                  PredicateFor(cat, p.a.m, ms[i]).value in q.filters)
  {
    var p := MakePlan(cat, nlq);
    PlanOfQuery(cat, nlq);
    FiltersSound(cat, p.a.m, FindAll(p.s, 0));
    FiltersComplete(cat, p.a.m, FindAll(p.s, 0));
  }

  /** The WHERE predicates follow the order of their matches in the
      question: `idx` gives, for each predicate, the position of the match
      it comes from, positions strictly increasing, and every match whose
      word names a column of an aliased table is among them. */
  lemma WhereInOrder(cat: Catalog, nlq: string) returns (idx: seq<nat>)
    requires WellFormed(cat)
    ensures Indexed(cat, MakePlan(cat, nlq).a.m, FindAll(ToLower(nlq), 0), BuildQuery(cat, nlq).filters, idx)
  {
    var p := MakePlan(cat, nlq);
    PlanOfQuery(cat, nlq);
    idx := FiltersInOrder(cat, p.a.m, FindAll(p.s, 0));
  }

  /** A LIMIT is emitted exactly when the question is not a count question
      and its first `show N` / `top N` match gives a non-zero N, and then it
      is that N: the digit group of a match with no match before it. */
  lemma LimitOfQuestion(cat: Catalog, nlq: string)
    requires WellFormed(cat)
    ensures var q := BuildQuery(cat, nlq);
            var s := ToLower(nlq);
            && (q.limit.Some? <==>
                  !IsCountQuery(s) && LimitSearch(s).Some? && ParseDigits(LimitSearch(s).value) > 0)
            && (q.limit.Some? ==> q.limit.value == ParseDigits(LimitSearch(s).value))
            && (q.limit.Some? ==> exists i: nat, v: string :: i <= |s| && LimitMatch(s, i, v) &&
                                    NoLimitBefore(s, i) && IsDigitString(v) && q.limit.value == ParseDigits(v))
  {
    var s := ToLower(nlq);
    var count := CountSearch(s);
    assert count == IsCountQuery(s);
    var lim := LimitValue(s, count);
    var q := BuildQuery(cat, nlq);
    assert q.limit == lim by {
      PlanOfQuery(cat, nlq);
    }
    LimitValueOf(s, count);
  }

  /** The limit value facts, in a context free of the catalog. */
  lemma LimitValueOf(s: string, count: bool)
    ensures var r := LimitValue(s, count);
            && (r.Some? <==> !count && LimitSearch(s).Some? && ParseDigits(LimitSearch(s).value) > 0)
            && (r.Some? ==> r.value == ParseDigits(LimitSearch(s).value))
            && (r.Some? ==> exists i: nat, v: string :: i <= |s| && LimitMatch(s, i, v) &&
                              NoLimitBefore(s, i) && IsDigitString(v) && r.value == ParseDigits(v))
  {
  }
}

=== FILE: catalog.dfy ===
/** The schema catalog the synthesizer reads: tables in enumeration order,
    their columns, an optional primary key and their foreign keys. It is an
    input value here; introspecting a live store is not modelled. */
module Catalog {
  import opened Text

  /** One foreign key of a table: `(col_from, table_to, col_to)`. */
  datatype ForeignKey = ForeignKey(column: string, refTable: string, refColumn: string)

  datatype Table = Table(
    name: string,
    columns: seq<string>,
    primaryKey: Option<string>,
    foreignKeys: seq<ForeignKey>)

  /** Tables in the order the store enumerates them. */
  type Catalog = seq<Table>

  /** A foreign key together with the table that owns it. */
  datatype Link = Link(owner: string, column: string, refTable: string, refColumn: string)

  function Names(cat: Catalog): seq<string> {
    if cat == [] then [] else [cat[0].name] + Names(cat[1..])
  }

  /** What the synthesizer relies on: at least one table (the fallback table
      is the first one), distinct non-empty table names, at least one column
      per table (the primary-key fallback reads the first column), and every
      foreign key pointing at a catalog table (every table a join reaches is
      looked up for its columns). The source itself only fails on a dangling
      foreign key when a join path crosses it; the model asks it of every key. */
  predicate WellFormed(cat: Catalog) {
    && |cat| > 0
    && (forall i :: 0 <= i < |cat| ==> |cat[i].name| > 0 && |cat[i].columns| > 0)
    && (forall i, j :: 0 <= i < j < |cat| ==> cat[i].name != cat[j].name)
    && (forall i, k :: 0 <= i < |cat| && 0 <= k < |cat[i].foreignKeys| ==>
          cat[i].foreignKeys[k].refTable in Names(cat))
  }

  lemma {:induction false} NamesIndex(cat: Catalog)
    ensures |Names(cat)| == |cat|
    ensures forall i :: 0 <= i < |cat| ==> Names(cat)[i] == cat[i].name
  {
    if cat != [] {
      NamesIndex(cat[1..]);
    }
  }

  /** `SCHEMA[name]`: the columns of the first table called `name`. */
  function Columns(cat: Catalog, name: string): (cols: seq<string>)
    ensures name !in Names(cat) ==> cols == []
    ensures forall i :: (0 <= i < |cat| && cat[i].name == name &&
                         forall j :: 0 <= j < i ==> cat[j].name != name) ==> cols == cat[i].columns
  {
    if cat == [] then []
    else if cat[0].name == name then cat[0].columns
    else Columns(cat[1..], name)
  }

  /** In a well-formed catalog every listed table has columns. */
  lemma ColumnsOfName(cat: Catalog, name: string)
    requires WellFormed(cat) && name in Names(cat)
    ensures |Columns(cat, name)| > 0
  {
    NamesIndex(cat);
    var i :| 0 <= i < |cat| && Names(cat)[i] == name;
    assert Columns(cat, name) == cat[i].columns;
  }

  /** `PRIMARY_KEYS.get(name)` */
  function PrimaryKey(cat: Catalog, name: string): Option<string> {
    if cat == [] then None
    else if cat[0].name == name then cat[0].primaryKey
    else PrimaryKey(cat[1..], name)
  }

  /** The foreign keys of all tables, table by table in enumeration order. */
  function TableLinks(t: Table, fks: seq<ForeignKey>): (r: seq<Link>)
    ensures |r| == |fks|
    ensures forall k :: 0 <= k < |fks| ==>
              r[k] == Link(t.name, fks[k].column, fks[k].refTable, fks[k].refColumn)
  {
    if fks == [] then []
    else [Link(t.name, fks[0].column, fks[0].refTable, fks[0].refColumn)] + TableLinks(t, fks[1..])
  }

  function Links(cat: Catalog): seq<Link> {
    if cat == [] then [] else TableLinks(cat[0], cat[0].foreignKeys) + Links(cat[1..])
  }

  /** Every foreign key of every table appears in `Links`, and nothing else does. */
  lemma {:induction false} LinksComplete(cat: Catalog)
    ensures forall l :: l in Links(cat) <==>
              exists i, k :: 0 <= i < |cat| && 0 <= k < |cat[i].foreignKeys| &&
                l == Link(cat[i].name, cat[i].foreignKeys[k].column,
                          cat[i].foreignKeys[k].refTable, cat[i].foreignKeys[k].refColumn)
  {
    if cat != [] {
      LinksComplete(cat[1..]);
      var head := TableLinks(cat[0], cat[0].foreignKeys);
      forall l | l in Links(cat)
        ensures exists i, k :: 0 <= i < |cat| && 0 <= k < |cat[i].foreignKeys| &&
                  l == Link(cat[i].name, cat[i].foreignKeys[k].column,
                            cat[i].foreignKeys[k].refTable, cat[i].foreignKeys[k].refColumn)
      {
        if l in head {
          var k :| 0 <= k < |head| && head[k] == l;
        } else {
          assert l in Links(cat[1..]);
          var i, k :| 0 <= i < |cat[1..]| && 0 <= k < |cat[1..][i].foreignKeys| &&
                l == Link(cat[1..][i].name, cat[1..][i].foreignKeys[k].column,
                          cat[1..][i].foreignKeys[k].refTable, cat[1..][i].foreignKeys[k].refColumn);
          assert cat[i + 1] == cat[1..][i];
        }
      }
      forall i, k | 0 <= i < |cat| && 0 <= k < |cat[i].foreignKeys|
        ensures Link(cat[i].name, cat[i].foreignKeys[k].column,
                     cat[i].foreignKeys[k].refTable, cat[i].foreignKeys[k].refColumn) in Links(cat)
      {
        if i == 0 {
          assert head[k] in head;
        } else {
          assert cat[i] == cat[1..][i - 1];
        }
      }
    }
  }
}

=== FILE: detect.dfy ===
/** Which tables a question needs: a table is needed when its name, its name
    without a final `s`, its name with an `s` added, or one of its column
    names occurs in the lowercased question; when none is, the first table
    of the catalog is used. */
module Detect {
  import opened Text
  import opened Catalog
  import opened Order

  predicate EndsWithS(s: string) {
    |s| > 0 && s[|s| - 1] == 's'
  }

  /** The name without its final `s`, if it has one. */
  function Stem(s: string): (r: string)
    ensures EndsWithS(s) ==> r + "s" == s
    ensures !EndsWithS(s) ==> r == s
  {
    if EndsWithS(s) then s[..|s| - 1] else s
  }

  /** Some column's lowercased name occurs in the question. */
  predicate ColumnMentioned(q: string, cols: seq<string>) {
    exists c :: c in cols && Contains(q, ToLower(c))
  }

  /** An occurrence of a word is an occurrence of each of its prefixes. */
  lemma ContainsPrefix(q: string, w: string, v: string)
    requires Contains(q, w) && v <= w
    ensures Contains(q, v)
  {
    var i :| 0 <= i <= |q| && w <= q[i..];
    assert v <= q[i..];
  }

  /** The three name tests of the chain hold together exactly when the stem occurs. */
  lemma StemTest(q: string, name: string)
    ensures (Contains(q, name) || (EndsWithS(name) && Contains(q, name[..|name| - 1])) ||
             (!EndsWithS(name) && Contains(q, name + "s"))) <==> Contains(q, Stem(name))
  {
    if EndsWithS(name) && Contains(q, name) {
      ContainsPrefix(q, name, Stem(name));
    }
    if !EndsWithS(name) && Contains(q, name + "s") {
      ContainsPrefix(q, name + "s", name);
    }
  }

  /** The if/elif chain of one table, `q` being the lowercased question.
      The three name tests together amount to one: the name's stem occurs. */
  function Mentioned(t: Table, q: string): (r: bool)
    ensures r <==> Contains(q, Stem(ToLower(t.name))) || ColumnMentioned(q, t.columns)
  {
    var name := ToLower(t.name);
    var r :=
      if Contains(q, name) then true
      else if EndsWithS(name) && Contains(q, name[..|name| - 1]) then true
      else if !EndsWithS(name) && Contains(q, name + "s") then true
      else ColumnMentioned(q, t.columns);
    StemTest(q, name);
    r
  }

  /** Table `x` of the catalog passes the chain. */
  predicate MentionedName(cat: Catalog, q: string, x: string) {
    exists i :: 0 <= i < |cat| && cat[i].name == x && Mentioned(cat[i], q)
  }

  lemma MentionedNameCons(cat: Catalog, q: string, x: string)
    requires cat != []
    ensures MentionedName(cat, q, x) <==>
              (x == cat[0].name && Mentioned(cat[0], q)) || MentionedName(cat[1..], q, x)
  {
    if MentionedName(cat, q, x) {
      var i :| 0 <= i < |cat| && cat[i].name == x && Mentioned(cat[i], q);
      if i > 0 {
        assert cat[1..][i - 1] == cat[i];
      }
    }
    if MentionedName(cat[1..], q, x) {
      var i :| 0 <= i < |cat[1..]| && cat[1..][i].name == x && Mentioned(cat[1..][i], q);
      assert cat[i + 1] == cat[1..][i];
    }
  }

  /** The mentioned tables, in catalog order. */
  function MentionedNames(cat: Catalog, q: string): (r: seq<string>)
    requires forall i, j :: 0 <= i < j < |cat| ==> cat[i].name != cat[j].name
    ensures Distinct(r)
    ensures forall x :: x in r <==> MentionedName(cat, q, x)
  {
    if cat == [] then []
    else
      var rest := MentionedNames(cat[1..], q);
      forall x | x in rest ensures x != cat[0].name {
        var i :| 0 <= i < |cat[1..]| && cat[1..][i].name == x && Mentioned(cat[1..][i], q);
        assert cat[1..][i] == cat[i + 1];
      }
      var r := if Mentioned(cat[0], q) then [cat[0].name] + rest else rest;
      forall x ensures x in r <==> MentionedName(cat, q, x) {
        MentionedNameCons(cat, q, x);
      }
      DistinctCons(cat[0].name, rest);
      r
  }

  /** `needed_tables`, listed without repetition: the mentioned tables, or
      the first table of the catalog when none is mentioned. */
  function NeededTables(cat: Catalog, q: string): (r: seq<string>)
    requires WellFormed(cat)
    ensures |r| > 0 && Distinct(r)
    ensures forall x :: x in r ==> x in Names(cat)
    ensures forall x :: x in r <==>
              MentionedName(cat, q, x) ||
              ((forall i :: 0 <= i < |cat| ==> !Mentioned(cat[i], q)) && x == cat[0].name)
  {
    NamesIndex(cat);
    var found := MentionedNames(cat, q);
    if found == [] then
      assert forall i :: 0 <= i < |cat| ==> !Mentioned(cat[i], q) by {
        forall i | 0 <= i < |cat| ensures !Mentioned(cat[i], q) {
          if Mentioned(cat[i], q) {
            assert MentionedName(cat, q, cat[i].name);
          }
        }
      }
      [cat[0].name]
    else
      assert MentionedName(cat, q, found[0]);
      var i :| 0 <= i < |cat| && cat[i].name == found[0] && Mentioned(cat[i], q);
      found
  }
}

=== FILE: join_graph.dfy ===
/** The join graph: an adjacency list keyed by table name, built from the
    catalog's foreign keys. Each foreign key is entered twice, once under the
    owning table and once under the referenced table, and BOTH entries carry
    the key's `(col_from, col_to)` pair unchanged. */
module JoinGraph {
  import opened Catalog

  /** An adjacency entry `(neighbor, col_from, col_to)`. */
  datatype Neighbor = Neighbor(table: string, colFrom: string, colTo: string)

  type Graph = map<string, seq<Neighbor>>

  /** `JOIN_GRAPH.get(x, [])` */
  function Get(g: Graph, x: string): seq<Neighbor> {
    if x in g then g[x] else []
  }

  /** `JOIN_GRAPH[x].append(n)` on a dictionary of lists with default `[]`. */
  function Append(g: Graph, x: string, n: Neighbor): Graph {
    g[x := Get(g, x) + [n]]
  }

  /** The two appends one foreign key triggers, owner first. */
  function AddLink(g: Graph, l: Link): Graph {
    Append(Append(g, l.owner, Neighbor(l.refTable, l.column, l.refColumn)),
           l.refTable, Neighbor(l.owner, l.column, l.refColumn))
  }

  function BuildFrom(g: Graph, links: seq<Link>): Graph
    decreases |links|
  {
    if links == [] then g else BuildFrom(AddLink(g, links[0]), links[1..])
  }

  /** The module-level loop that fills `JOIN_GRAPH`. */
  function BuildJoinGraph(cat: Catalog): Graph {
    BuildFrom(map[], Links(cat))
  }

  /** What one foreign key contributes to the adjacency list of `x`. */
  function Contribution(l: Link, x: string): seq<Neighbor> {
    (if l.owner == x then [Neighbor(l.refTable, l.column, l.refColumn)] else []) +
    (if l.refTable == x then [Neighbor(l.owner, l.column, l.refColumn)] else [])
  }

  /** The adjacency list of `x`, stated declaratively, key by key. */
  function Adjacency(links: seq<Link>, x: string): seq<Neighbor> {
    if links == [] then [] else Contribution(links[0], x) + Adjacency(links[1..], x)
  }

  lemma AddLinkGet(g: Graph, l: Link, x: string)
    ensures Get(AddLink(g, l), x) == Get(g, x) + Contribution(l, x)
  {
  }

  /** The dictionary the loop builds holds, under every key, exactly the
      declarative adjacency list, in append order. */
  lemma {:induction false} BuildFromAdjacency(g: Graph, links: seq<Link>, x: string)
    ensures Get(BuildFrom(g, links), x) == Get(g, x) + Adjacency(links, x)
    decreases |links|
  {
    if links != [] {
      AddLinkGet(g, links[0], x);
      BuildFromAdjacency(AddLink(g, links[0]), links[1..], x);
    }
  }

  /** Whether foreign key `l` joins `x` to `n` in either direction. */
  predicate Joins(l: Link, x: string, n: Neighbor) {
    || (l.owner == x && n == Neighbor(l.refTable, l.column, l.refColumn))
    || (l.refTable == x && n == Neighbor(l.owner, l.column, l.refColumn))
  }

  lemma {:induction false} AdjacencyMember(links: seq<Link>, x: string, n: Neighbor)
    ensures n in Adjacency(links, x) <==> exists k :: 0 <= k < |links| && Joins(links[k], x, n)
  {
    if links != [] {
      AdjacencyMember(links[1..], x, n);
      if n in Adjacency(links[1..], x) {
        var k :| 0 <= k < |links[1..]| && Joins(links[1..][k], x, n);
        assert Joins(links[k + 1], x, n);
      }
      if exists k :: 0 <= k < |links| && Joins(links[k], x, n) {
        var k :| 0 <= k < |links| && Joins(links[k], x, n);
        if k > 0 {
          assert Joins(links[1..][k - 1], x, n);
        }
      }
    }
  }

  /** An entry is in `JOIN_GRAPH[x]` exactly when some foreign key of the
      catalog joins `x` to that neighbour, with the key's own column pair. */
  lemma NeighborIff(cat: Catalog, x: string, n: Neighbor)
    ensures n in Get(BuildJoinGraph(cat), x) <==>
              exists k :: 0 <= k < |Links(cat)| && Joins(Links(cat)[k], x, n)
  {
    BuildFromAdjacency(map[], Links(cat), x);
    assert Get(map[], x) == [];
    assert Get(BuildJoinGraph(cat), x) == Adjacency(Links(cat), x);
    AdjacencyMember(Links(cat), x, n);
  }

  /** For a foreign key `(T, cf, U, ct)`, `(U, cf, ct)` is listed under `T`
      and `(T, cf, ct)` under `U`: the same pair in both directions. */
  lemma ForeignKeyEdges(cat: Catalog, i: nat, k: nat)
    requires i < |cat| && k < |cat[i].foreignKeys|
    ensures Neighbor(cat[i].foreignKeys[k].refTable, cat[i].foreignKeys[k].column,
                     cat[i].foreignKeys[k].refColumn) in Get(BuildJoinGraph(cat), cat[i].name)
    ensures Neighbor(cat[i].name, cat[i].foreignKeys[k].column,
                     cat[i].foreignKeys[k].refColumn) in Get(BuildJoinGraph(cat), cat[i].foreignKeys[k].refTable)
  {
    var fk := cat[i].foreignKeys[k];
    var l := Link(cat[i].name, fk.column, fk.refTable, fk.refColumn);
    LinksComplete(cat);
    assert l in Links(cat);
    var m :| 0 <= m < |Links(cat)| && Links(cat)[m] == l;
    NeighborIff(cat, cat[i].name, Neighbor(fk.refTable, fk.column, fk.refColumn));
    NeighborIff(cat, fk.refTable, Neighbor(cat[i].name, fk.column, fk.refColumn));
  }

  /** The neighbour relation is symmetric and keeps the column pair as is. */
  lemma Symmetric(cat: Catalog, x: string, y: string, colFrom: string, colTo: string)
    ensures Neighbor(y, colFrom, colTo) in Get(BuildJoinGraph(cat), x) <==>
            Neighbor(x, colFrom, colTo) in Get(BuildJoinGraph(cat), y)
  {
    NeighborIff(cat, x, Neighbor(y, colFrom, colTo));
    NeighborIff(cat, y, Neighbor(x, colFrom, colTo));
    var links := Links(cat);
    if exists k :: 0 <= k < |links| && Joins(links[k], x, Neighbor(y, colFrom, colTo)) {
      var k :| 0 <= k < |links| && Joins(links[k], x, Neighbor(y, colFrom, colTo));
      assert Joins(links[k], y, Neighbor(x, colFrom, colTo));
    }
    if exists k :: 0 <= k < |links| && Joins(links[k], y, Neighbor(x, colFrom, colTo)) {
      var k :| 0 <= k < |links| && Joins(links[k], y, Neighbor(x, colFrom, colTo));
      assert Joins(links[k], x, Neighbor(y, colFrom, colTo));
    }
  }
}

=== FILE: join_path.dfy ===
/** `find_join_path`: breadth-first search over the join graph, seeded with
    every table already in the query and sharing one visited set among them.
    It returns the join steps from whichever source reached the target first,
    or the empty list. */
module JoinPath {
  import opened Text
  import opened JoinGraph

  /** A path step `(left, right, left_col, right_col)`. */
  datatype Edge = Edge(left: string, right: string, leftCol: string, rightCol: string)

  /** A queue element `(table, path so far)`. */
  datatype Entry = Entry(table: string, path: seq<Edge>)

  function SourceSet(sources: seq<string>): set<string> {
    set s | s in sources
  }

  /** Every table that appears as a neighbour somewhere in the graph. */
  ghost function Nodes(g: Graph): set<string> {
    set x, n | x in g && n in g[x] :: n.table
  }

  lemma NeighborInNodes(g: Graph, x: string, n: Neighbor)
    requires n in Get(g, x)
    ensures n.table in Nodes(g)
  {
  }

  ghost function NeighborTables(nbrs: seq<Neighbor>): set<string> {
    set n | n in nbrs :: n.table
  }

  lemma NeighborTablesCons(nbrs: seq<Neighbor>)
    requires nbrs != []
    ensures NeighborTables(nbrs) == {nbrs[0].table} + NeighborTables(nbrs[1..])
  {
    assert nbrs == [nbrs[0]] + nbrs[1..];
  }

  /** What one pass of the inner loop leaves behind: the neighbours' tables
      are visited, the old queue is kept, and each appended entry is a
      previously unvisited neighbour with the path extended by its step. */
  ghost predicate Expanded(cur: string, path: seq<Edge>, nbrs: seq<Neighbor>, queue: seq<Entry>,
                           visited: set<string>, queue': seq<Entry>, visited': set<string>) {
    && visited' == visited + NeighborTables(nbrs)
    && |queue| <= |queue'|
    && queue'[..|queue|] == queue
    && (forall j :: |queue| <= j < |queue'| ==>
          && queue'[j].table !in visited
          && exists n :: n in nbrs && queue'[j] == Entry(n.table, path + [Edge(cur, n.table, n.colFrom, n.colTo)]))
    && (forall x :: x in visited' && x !in visited ==>
          exists j :: |queue| <= j < |queue'| && queue'[j].table == x)
  }

  lemma ExpandedSkip(cur: string, path: seq<Edge>, nbrs: seq<Neighbor>, queue: seq<Entry>,
                     visited: set<string>, queue': seq<Entry>, visited': set<string>)
    requires nbrs != [] && nbrs[0].table in visited
    requires Expanded(cur, path, nbrs[1..], queue, visited, queue', visited')
    ensures Expanded(cur, path, nbrs, queue, visited, queue', visited')
  {
    NeighborTablesCons(nbrs);
    forall j | |queue| <= j < |queue'|
      ensures exists n :: n in nbrs && queue'[j] == Entry(n.table, path + [Edge(cur, n.table, n.colFrom, n.colTo)])
    {
      var n :| n in nbrs[1..] && queue'[j] == Entry(n.table, path + [Edge(cur, n.table, n.colFrom, n.colTo)]);
      assert n in nbrs;
    }
  }

  lemma ExpandedTake(cur: string, path: seq<Edge>, nbrs: seq<Neighbor>, queue: seq<Entry>,
                     visited: set<string>, queue': seq<Entry>, visited': set<string>)
    requires nbrs != [] && nbrs[0].table !in visited
    requires Expanded(cur, path, nbrs[1..],
                      queue + [Entry(nbrs[0].table, path + [Edge(cur, nbrs[0].table, nbrs[0].colFrom, nbrs[0].colTo)])],
                      visited + {nbrs[0].table}, queue', visited')
    ensures Expanded(cur, path, nbrs, queue, visited, queue', visited')
    ensures visited' - visited == (visited' - (visited + {nbrs[0].table})) + {nbrs[0].table}
  {
    var n0 := nbrs[0];
    var e := Entry(n0.table, path + [Edge(cur, n0.table, n0.colFrom, n0.colTo)]);
    var queue1 := queue + [e];
    NeighborTablesCons(nbrs);
    assert queue'[..|queue1|] == queue1;
    assert queue'[|queue|] == e by {
      assert queue'[..|queue1|][|queue|] == e;
    }
    assert queue'[..|queue|] == queue by {
      assert queue'[..|queue|] == queue'[..|queue1|][..|queue|];
    }
    forall j | |queue| <= j < |queue'|
      ensures queue'[j].table !in visited
      ensures exists n :: n in nbrs && queue'[j] == Entry(n.table, path + [Edge(cur, n.table, n.colFrom, n.colTo)])
    {
      if j == |queue| {
        assert n0 in nbrs;
      } else {
        var n :| n in nbrs[1..] && queue'[j] == Entry(n.table, path + [Edge(cur, n.table, n.colFrom, n.colTo)]);
        assert n in nbrs;
      }
    }
    forall x | x in visited' && x !in visited
      ensures exists j :: |queue| <= j < |queue'| && queue'[j].table == x
    {
      if x == n0.table {
        assert queue'[|queue|].table == x;
      }
    }
  }

  /** The entry neighbour `n` queues with the path extended by its step. */
  function Queued(cur: string, path: seq<Edge>, n: Neighbor): Entry {
    Entry(n.table, path + [Edge(cur, n.table, n.colFrom, n.colTo)])
  }

  /** What neighbour `n` adds after the neighbours `before`: its entry, unless
      its table is visited or already named by one of them. */
  function Contribution(cur: string, path: seq<Edge>, n: Neighbor, before: seq<Neighbor>,
                        visited: set<string>): seq<Entry> {
    if n.table in visited || NamedBy(before, n.table) then [] else [Queued(cur, path, n)]
  }

  /** Some neighbour of `nbrs` is table `t`. */
  predicate NamedBy(nbrs: seq<Neighbor>, t: string) {
    nbrs != [] && (nbrs[0].table == t || NamedBy(nbrs[1..], t))
  }

  /** The entries the inner loop queues, as a reference independent of the
      loop: one for each neighbour whose table is neither visited nor named
      by an earlier neighbour, in neighbour order, with that neighbour's
      column pair as the new step. */
  function Fresh(cur: string, path: seq<Edge>, nbrs: seq<Neighbor>, visited: set<string>): seq<Entry>
    decreases |nbrs|
  {
    if nbrs == [] then []
    else
      var init := nbrs[..|nbrs| - 1];
      Fresh(cur, path, init, visited) + Contribution(cur, path, nbrs[|nbrs| - 1], init, visited)
  }

  /** Counting the first neighbour as visited leaves a later one's
      contribution unchanged. */
  lemma ContributionCons(cur: string, path: seq<Edge>, n: Neighbor, before: seq<Neighbor>, visited: set<string>)
    requires before != []
    ensures Contribution(cur, path, n, before, visited) ==
            Contribution(cur, path, n, before[1..], visited + {before[0].table})
  {
  }

  /** Peeling the first neighbour off the reference: it contributes its entry
      unless its table is visited, and the rest see its table as visited. */
  lemma {:induction false} FreshCons(cur: string, path: seq<Edge>, nbrs: seq<Neighbor>, visited: set<string>)
    requires nbrs != []
    ensures Fresh(cur, path, nbrs, visited) ==
              Contribution(cur, path, nbrs[0], [], visited) +
              Fresh(cur, path, nbrs[1..], visited + {nbrs[0].table})
    decreases |nbrs|
  {
    var v' := visited + {nbrs[0].table};
    if |nbrs| == 1 {
      assert nbrs[..0] == [];
      assert Fresh(cur, path, nbrs[1..], v') == [];
    } else {
      var init := nbrs[..|nbrs| - 1];
      assert init[0] == nbrs[0];
      FreshCons(cur, path, init, visited);
      FreshConsStep(cur, path, nbrs, visited);
    }
  }

  /** The step of `FreshCons`: peeling the first neighbour commutes with
      appending the last one. */
  lemma FreshConsStep(cur: string, path: seq<Edge>, nbrs: seq<Neighbor>, visited: set<string>)
    requires |nbrs| > 1
    requires var init := nbrs[..|nbrs| - 1];
             Fresh(cur, path, init, visited) ==
               Contribution(cur, path, nbrs[0], [], visited) + Fresh(cur, path, init[1..], visited + {nbrs[0].table})
    ensures Fresh(cur, path, nbrs, visited) ==
              Contribution(cur, path, nbrs[0], [], visited) +
              Fresh(cur, path, nbrs[1..], visited + {nbrs[0].table})
  {
    var v' := visited + {nbrs[0].table};
    var init := nbrs[..|nbrs| - 1];
    var last := nbrs[|nbrs| - 1];
    var rest := nbrs[1..];
    assert rest[..|rest| - 1] == init[1..] && rest[|rest| - 1] == last;
    ContributionCons(cur, path, last, init, visited);
    assert init[0] == nbrs[0];
  }

  /** The inner loop over `JOIN_GRAPH.get(current, [])`: every neighbour not yet
      visited is marked visited and queued with the path extended by one step. */
  function Expand(cur: string, path: seq<Edge>, nbrs: seq<Neighbor>,
                  queue: seq<Entry>, visited: set<string>): (r: (seq<Entry>, set<string>))
    decreases |nbrs|
  {
    if nbrs == [] then (queue, visited)
    else
      var n := nbrs[0];
      if n.table !in visited then
        Expand(cur, path, nbrs[1..], queue + [Queued(cur, path, n)], visited + {n.table})
      else
        Expand(cur, path, nbrs[1..], queue, visited)
  }

  /** One pass of the inner loop leaves behind what `Expanded` describes, and
      the queue grows by exactly the newly visited tables. */
  lemma {:induction false} ExpandSpec(cur: string, path: seq<Edge>, nbrs: seq<Neighbor>,
                                      queue: seq<Entry>, visited: set<string>)
    ensures var r := Expand(cur, path, nbrs, queue, visited);
            && Expanded(cur, path, nbrs, queue, visited, r.0, r.1)
            && |r.0| == |queue| + |r.1 - visited|
    decreases |nbrs|
  {
    if nbrs == [] {
      assert queue[..|queue|] == queue;
    } else {
      var n := nbrs[0];
      if n.table !in visited {
        var q' := queue + [Queued(cur, path, n)];
        ExpandSpec(cur, path, nbrs[1..], q', visited + {n.table});
        var r := Expand(cur, path, nbrs[1..], q', visited + {n.table});
        ExpandedTake(cur, path, nbrs, queue, visited, r.0, r.1);
      } else {
        ExpandSpec(cur, path, nbrs[1..], queue, visited);
        var r := Expand(cur, path, nbrs[1..], queue, visited);
        ExpandedSkip(cur, path, nbrs, queue, visited, r.0, r.1);
      }
    }
  }

  /** An unvisited first neighbour is queued first, ahead of what the rest
      queue with its table counted as visited. */
  lemma FreshTake(cur: string, path: seq<Edge>, nbrs: seq<Neighbor>, visited: set<string>)
    requires nbrs != [] && nbrs[0].table !in visited
    ensures Fresh(cur, path, nbrs, visited) ==
            [Queued(cur, path, nbrs[0])] + Fresh(cur, path, nbrs[1..], visited + {nbrs[0].table})
  {
    FreshCons(cur, path, nbrs, visited);
  }

  lemma ExpandTakeStep(cur: string, path: seq<Edge>, nbrs: seq<Neighbor>, queue: seq<Entry>, visited: set<string>)
    requires nbrs != [] && nbrs[0].table !in visited
    requires var v' := visited + {nbrs[0].table};
             var q' := queue + [Queued(cur, path, nbrs[0])];
             Expand(cur, path, nbrs[1..], q', v').0 == q' + Fresh(cur, path, nbrs[1..], v')
    ensures Expand(cur, path, nbrs, queue, visited).0 == queue + Fresh(cur, path, nbrs, visited)
  {
    var e := Queued(cur, path, nbrs[0]);
    var v' := visited + {nbrs[0].table};
    FreshTake(cur, path, nbrs, visited);
    assert Expand(cur, path, nbrs, queue, visited) == Expand(cur, path, nbrs[1..], queue + [e], v');
    AppendFront(Expand(cur, path, nbrs, queue, visited).0, queue, e,
                Fresh(cur, path, nbrs[1..], v'), Fresh(cur, path, nbrs, visited));
  }

  lemma AppendFront<T>(a: seq<T>, x: seq<T>, e: T, rest: seq<T>, whole: seq<T>)
    requires a == (x + [e]) + rest && whole == [e] + rest
    ensures a == x + whole
  {
  }

  lemma ExpandSkipStep(cur: string, path: seq<Edge>, nbrs: seq<Neighbor>, queue: seq<Entry>, visited: set<string>)
    requires nbrs != [] && nbrs[0].table in visited
    requires Expand(cur, path, nbrs[1..], queue, visited).0 == queue + Fresh(cur, path, nbrs[1..], visited)
    ensures Expand(cur, path, nbrs, queue, visited).0 == queue + Fresh(cur, path, nbrs, visited)
  {
    FreshCons(cur, path, nbrs, visited);
    assert visited + {nbrs[0].table} == visited;
  }

  /** Expanding a table appends exactly the reference entries, in neighbour
      order: which tables are queued, in which order, and for a table named by
      several neighbours, the column pair of the first. */
  lemma {:induction false} ExpandInOrder(cur: string, path: seq<Edge>, nbrs: seq<Neighbor>,
                                         queue: seq<Entry>, visited: set<string>)
    ensures Expand(cur, path, nbrs, queue, visited).0 == queue + Fresh(cur, path, nbrs, visited)
    decreases |nbrs|
  {
    if nbrs != [] {
      var n := nbrs[0];
      if n.table !in visited {
        ExpandInOrder(cur, path, nbrs[1..], queue + [Queued(cur, path, n)], visited + {n.table});
        ExpandTakeStep(cur, path, nbrs, queue, visited);
      } else {
        ExpandInOrder(cur, path, nbrs[1..], queue, visited);
        ExpandSkipStep(cur, path, nbrs, queue, visited);
      }
    }
  }

  lemma StrictSubsetCardinality(a: set<string>, b: set<string>)
    requires a < b
    ensures |a| < |b|
  {
    var x :| x in b && x !in a;
    SubsetCardinality(a, b - {x});
  }

  /** One expansion step either visits a new table or shortens the queue. */
  lemma ExpandProgress(g: Graph, cur: string, visited: set<string>, visited': set<string>)
    requires visited' == visited + NeighborTables(Get(g, cur))
    ensures visited' == visited || |Nodes(g) - visited'| < |Nodes(g) - visited|
  {
    if visited' != visited {
      var x :| x in visited' && x !in visited;
      var n :| n in Get(g, cur) && n.table == x;
      NeighborInNodes(g, cur, n);
      StrictSubsetCardinality(Nodes(g) - visited', Nodes(g) - visited);
    }
  }

  /** The `while queue` loop. */
  function Bfs(g: Graph, target: string, queue: seq<Entry>, visited: set<string>): seq<Edge>
    decreases |Nodes(g) - visited|, |queue|
  {
    if queue == [] then []
    else if queue[0].table == target then queue[0].path
    else
      var r := Expand(queue[0].table, queue[0].path, Get(g, queue[0].table), queue[1..], visited);
      ExpandSpec(queue[0].table, queue[0].path, Get(g, queue[0].table), queue[1..], visited);
      ExpandProgress(g, queue[0].table, visited, r.1);
      Bfs(g, target, r.0, r.1)
  }

  function Seeds(sources: seq<string>): (q: seq<Entry>)
    ensures |q| == |sources|
    ensures forall i :: 0 <= i < |q| ==> q[i] == Entry(sources[i], [])
  {
    if sources == [] then [] else [Entry(sources[0], [])] + Seeds(sources[1..])
  }

  // ---------------------------------------------------------------------
  // Walks and the search invariant

  /** Step `e` follows an entry of `JOIN_GRAPH[e.left]`. */
  ghost predicate InGraph(g: Graph, e: Edge) {
    Neighbor(e.right, e.leftCol, e.rightCol) in Get(g, e.left)
  }

  /** `w` is a chain of graph steps from a source to `t`; the empty chain
      when `t` is itself a source. */
  ghost predicate IsWalk(g: Graph, sources: set<string>, t: string, w: seq<Edge>) {
    if w == [] then t in sources
    else
      && w[0].left in sources
      && w[|w| - 1].right == t
      && (forall i :: 0 <= i < |w| - 1 ==> w[i].right == w[i + 1].left)
      && (forall i :: 0 <= i < |w| ==> InGraph(g, w[i]))
  }

  ghost predicate Reachable(g: Graph, sources: set<string>, t: string) {
    exists w :: IsWalk(g, sources, t, w)
  }

  /** No table is entered twice and no step enters a source. */
  ghost predicate Simple(sources: set<string>, w: seq<Edge>) {
    && (forall i, j :: 0 <= i < j < |w| ==> w[i].right != w[j].right)
    && (forall i :: 0 <= i < |w| ==> w[i].right !in sources)
  }

  lemma WalkExtend(g: Graph, sources: set<string>, u: string, w: seq<Edge>, e: Edge)
    requires IsWalk(g, sources, u, w) && e.left == u && InGraph(g, e)
    ensures IsWalk(g, sources, e.right, w + [e])
  {
  }

  lemma WalkPrefix(g: Graph, sources: set<string>, v: string, w: seq<Edge>)
    requires IsWalk(g, sources, v, w) && |w| > 0
    ensures IsWalk(g, sources, w[|w| - 1].left, w[..|w| - 1])
    ensures InGraph(g, w[|w| - 1]) && w[|w| - 1].right == v
  {
  }

  /** A visited set that contains the sources and is closed under
      neighbours contains every reachable table. */
  lemma {:induction false} ClosedContainsReachable(g: Graph, sources: set<string>, visited: set<string>,
                                                   v: string, w: seq<Edge>)
    requires sources <= visited
    requires forall x :: x in visited ==> forall n :: n in Get(g, x) ==> n.table in visited
    requires IsWalk(g, sources, v, w)
    ensures v in visited
    decreases |w|
  {
    if w != [] {
      var k := |w| - 1;
      WalkPrefix(g, sources, v, w);
      ClosedContainsReachable(g, sources, visited, w[k].left, w[..k]);
      assert Neighbor(v, w[k].leftCol, w[k].rightCol) in Get(g, w[k].left);
    }
  }

  ghost predicate InQueue(q: seq<Entry>, v: string) {
    exists i :: 0 <= i < |q| && q[i].table == v
  }

  /** A queued entry: its table is visited, its path is a simple walk to it
      through visited tables, and no walk to it is shorter. */
  ghost predicate EntryOk(g: Graph, sources: set<string>, visited: set<string>, e: Entry) {
    && e.table in visited
    && IsWalk(g, sources, e.table, e.path)
    && Simple(sources, e.path)
    && (forall i :: 0 <= i < |e.path| ==> e.path[i].right in visited)
    && (forall w :: IsWalk(g, sources, e.table, w) ==> |e.path| <= |w|)
  }

  /** Path lengths in the queue are non-decreasing and span at most one level. */
  ghost predicate Levels(q: seq<Entry>) {
    && (forall i, j :: 0 <= i < j < |q| ==> |q[i].path| <= |q[j].path|)
    && (forall i :: 0 <= i < |q| ==> |q[i].path| <= |q[0].path| + 1)
  }

  ghost predicate EntriesOk(g: Graph, sources: set<string>, visited: set<string>, q: seq<Entry>) {
    forall i :: 0 <= i < |q| ==> EntryOk(g, sources, visited, q[i])
  }

  /** A visited table that has left the queue has all its neighbours visited. */
  ghost predicate Closed(g: Graph, visited: set<string>, q: seq<Entry>) {
    forall v :: v in visited && !InQueue(q, v) ==> forall n :: n in Get(g, v) ==> n.table in visited
  }

  /** Every walk to an unvisited table is longer than the head's path. */
  ghost predicate Far(g: Graph, sources: set<string>, visited: set<string>, q: seq<Entry>) {
    q != [] ==> forall v, w :: v !in visited && IsWalk(g, sources, v, w) ==> |w| > |q[0].path|
  }

  /** The breadth-first search invariant. */
  ghost predicate Inv(g: Graph, sources: set<string>, target: string, q: seq<Entry>, visited: set<string>) {
    && sources <= visited
    && Levels(q)
    && EntriesOk(g, sources, visited, q)
    && Closed(g, visited, q)
    && Far(g, sources, visited, q)
    && (target in visited ==> InQueue(q, target))
  }

  lemma InitialInv(g: Graph, sources: seq<string>, target: string)
    ensures Inv(g, SourceSet(sources), target, Seeds(sources), SourceSet(sources))
  {
    var q := Seeds(sources);
    var s := SourceSet(sources);
    forall v | v in s ensures InQueue(q, v) {
      var i :| 0 <= i < |sources| && sources[i] == v;
      assert q[i].table == v;
    }
    assert Levels(q);
    forall i | 0 <= i < |q| ensures EntryOk(g, s, s, q[i]) {
      assert q[i].table in s;
    }
    assert Closed(g, s, q);
    assert Far(g, s, s, q);
  }

  /** The facts about one step that the invariant lemmas share. */
  ghost predicate Step(g: Graph, sources: set<string>, target: string, q: seq<Entry>, visited: set<string>,
                       q': seq<Entry>, visited': set<string>) {
    && Inv(g, sources, target, q, visited)
    && q != [] && q[0].table != target
    && Expanded(q[0].table, q[0].path, Get(g, q[0].table), q[1..], visited, q', visited')
  }

  lemma StepShifts(g: Graph, sources: set<string>, target: string, q: seq<Entry>, visited: set<string>,
                   q': seq<Entry>, visited': set<string>)
    requires Step(g, sources, target, q, visited, q', visited')
    ensures forall i :: 1 <= i < |q| ==> q'[i - 1] == q[i]
    ensures visited <= visited'
    ensures forall n :: n in Get(g, q[0].table) ==> n.table in visited'
  {
    forall i | 1 <= i < |q| ensures q'[i - 1] == q[i] {
      assert q'[i - 1] == q'[..|q| - 1][i - 1];
    }
  }

  /** The entry for an unvisited neighbour of a queue head is in order. */
  lemma NewEntryOk(g: Graph, sources: set<string>, visited: set<string>, visited': set<string>,
                   head: Entry, n: Neighbor)
    requires EntryOk(g, sources, visited, head) && sources <= visited && visited <= visited'
    requires n in Get(g, head.table) && n.table !in visited && n.table in visited'
    requires forall v, w :: v !in visited && IsWalk(g, sources, v, w) ==> |w| > |head.path|
    ensures EntryOk(g, sources, visited', Entry(n.table, head.path + [Edge(head.table, n.table, n.colFrom, n.colTo)]))
  {
    var step := Edge(head.table, n.table, n.colFrom, n.colTo);
    WalkExtend(g, sources, head.table, head.path, step);
    var p := head.path + [step];
    forall i | 0 <= i < |p| ensures p[i].right in visited' {
      if i < |head.path| {
        assert p[i] == head.path[i];
      }
    }
    assert Simple(sources, p) by {
      forall i, j | 0 <= i < j < |p| ensures p[i].right != p[j].right {
        assert p[i] == head.path[i];
        assert p[i].right in visited;
        if j < |head.path| {
          assert p[j] == head.path[j];
        }
      }
      forall i | 0 <= i < |p| ensures p[i].right !in sources {
        if i < |head.path| {
          assert p[i] == head.path[i];
        }
      }
    }
  }

  lemma StepNew(g: Graph, sources: set<string>, target: string, q: seq<Entry>, visited: set<string>,
                q': seq<Entry>, visited': set<string>, j: nat)
    requires Step(g, sources, target, q, visited, q', visited')
    requires |q| - 1 <= j < |q'|
    ensures q'[j].table !in visited && q'[j].table in visited'
    ensures |q'[j].path| == |q[0].path| + 1
    ensures EntryOk(g, sources, visited', q'[j])
  {
    var head := q[0];
    assert EntryOk(g, sources, visited, head);
    assert |q[1..]| == |q| - 1;
    assert Expanded(head.table, head.path, Get(g, head.table), q[1..], visited, q', visited');
    assert q'[j].table !in visited &&
           exists n :: n in Get(g, head.table) &&
             q'[j] == Entry(n.table, head.path + [Edge(head.table, n.table, n.colFrom, n.colTo)]);
    var n :| n in Get(g, head.table) &&
             q'[j] == Entry(n.table, head.path + [Edge(head.table, n.table, n.colFrom, n.colTo)]);
    assert n.table in NeighborTables(Get(g, head.table));
    assert Far(g, sources, visited, q);
    NewEntryOk(g, sources, visited, visited', head, n);
  }

  lemma StepLevels(g: Graph, sources: set<string>, target: string, q: seq<Entry>, visited: set<string>,
                   q': seq<Entry>, visited': set<string>)
    requires Step(g, sources, target, q, visited, q', visited')
    ensures forall i :: 0 <= i < |q'| ==> |q[0].path| <= |q'[i].path| <= |q[0].path| + 1
    ensures Levels(q')
  {
    StepShifts(g, sources, target, q, visited, q', visited');
    var level := |q[0].path|;
    forall i | 0 <= i < |q'| ensures level <= |q'[i].path| <= level + 1 {
      if i < |q| - 1 {
        assert |q[0].path| <= |q[i + 1].path|;
      } else {
        StepNew(g, sources, target, q, visited, q', visited', i);
      }
    }
    forall i, j | 0 <= i < j < |q'| ensures |q'[i].path| <= |q'[j].path| {
      if j < |q| - 1 {
        assert |q[i + 1].path| <= |q[j + 1].path|;
      } else {
        StepNew(g, sources, target, q, visited, q', visited', j);
      }
    }
  }

  lemma StepEntries(g: Graph, sources: set<string>, target: string, q: seq<Entry>, visited: set<string>,
                    q': seq<Entry>, visited': set<string>)
    requires Step(g, sources, target, q, visited, q', visited')
    ensures EntriesOk(g, sources, visited', q')
  {
    StepShifts(g, sources, target, q, visited, q', visited');
    forall j | 0 <= j < |q'| ensures EntryOk(g, sources, visited', q'[j]) {
      if j < |q| - 1 {
        assert EntryOk(g, sources, visited, q[j + 1]);
      } else {
        StepNew(g, sources, target, q, visited, q', visited', j);
      }
    }
  }

  lemma StepQueued(g: Graph, sources: set<string>, target: string, q: seq<Entry>, visited: set<string>,
                   q': seq<Entry>, visited': set<string>, v: string)
    requires Step(g, sources, target, q, visited, q', visited')
    requires v in visited' && v != q[0].table
    requires v !in visited || InQueue(q, v)
    ensures InQueue(q', v)
  {
    StepShifts(g, sources, target, q, visited, q', visited');
    if v in visited {
      var i :| 0 <= i < |q| && q[i].table == v;
      assert q'[i - 1].table == v;
    } else {
      var j :| |q| - 1 <= j < |q'| && q'[j].table == v;
    }
  }

  lemma StepClosed(g: Graph, sources: set<string>, target: string, q: seq<Entry>, visited: set<string>,
                   q': seq<Entry>, visited': set<string>)
    requires Step(g, sources, target, q, visited, q', visited')
    ensures Closed(g, visited', q')
    ensures target in visited' ==> InQueue(q', target)
  {
    StepShifts(g, sources, target, q, visited, q', visited');
    forall v | v in visited' && !InQueue(q', v)
      ensures forall n :: n in Get(g, v) ==> n.table in visited'
    {
      if v != q[0].table {
        if v !in visited || InQueue(q, v) {
          StepQueued(g, sources, target, q, visited, q', visited', v);
        }
        assert Closed(g, visited, q);
      }
    }
    if target in visited' {
      StepQueued(g, sources, target, q, visited, q', visited', target);
    }
  }

  /** A walk one step longer than the head's path, to a table the step
      leaves unvisited, leaves the head's table through a table queued
      behind the head at the head's level. */
  lemma ShortWalkQueued(g: Graph, sources: set<string>, target: string, q: seq<Entry>, visited: set<string>,
                        visited': set<string>, v: string, w: seq<Edge>)
    requires q != [] && Levels(q) && EntriesOk(g, sources, visited, q)
    requires Closed(g, visited, q) && Far(g, sources, visited, q)
    requires forall n :: n in Get(g, q[0].table) ==> n.table in visited'
    requires visited <= visited' && v !in visited'
    requires IsWalk(g, sources, v, w) && |w| == |q[0].path| + 1
    ensures |q| > 1 && |q[1].path| <= |q[0].path|
  {
    var k := |w| - 1;
    var u := w[k].left;
    var n := Neighbor(v, w[k].leftCol, w[k].rightCol);
    WalkPrefix(g, sources, v, w);
    assert n in Get(g, u);
    assert u in visited;
    assert InQueue(q, u);
    var i :| 0 <= i < |q| && q[i].table == u;
    assert i != 0;
    assert EntryOk(g, sources, visited, q[i]);
    assert |q[i].path| <= |w[..k]|;
  }

  lemma StepFar(g: Graph, sources: set<string>, target: string, q: seq<Entry>, visited: set<string>,
                q': seq<Entry>, visited': set<string>)
    requires Step(g, sources, target, q, visited, q', visited')
    ensures Far(g, sources, visited', q')
  {
    StepShifts(g, sources, target, q, visited, q', visited');
    StepLevels(g, sources, target, q, visited, q', visited');
    var level := |q[0].path|;
    if q' != [] {
      var front := |q'[0].path|;
      forall v, w: seq<Edge> | v !in visited' && IsWalk(g, sources, v, w) ensures |w| > front {
        assert Far(g, sources, visited, q);
        assert |w| > level;
        if |w| == level + 1 {
          assert Inv(g, sources, target, q, visited);
          ShortWalkQueued(g, sources, target, q, visited, visited', v, w);
          assert q'[0] == q[1];
        }
      }
    }
  }

  lemma ExpandPreservesInv(g: Graph, sources: set<string>, target: string,
                           q: seq<Entry>, visited: set<string>)
    requires Inv(g, sources, target, q, visited)
    requires q != [] && q[0].table != target
    ensures var r := Expand(q[0].table, q[0].path, Get(g, q[0].table), q[1..], visited);
            Inv(g, sources, target, r.0, r.1)
  {
    var r := Expand(q[0].table, q[0].path, Get(g, q[0].table), q[1..], visited);
    ExpandSpec(q[0].table, q[0].path, Get(g, q[0].table), q[1..], visited);
    StepShifts(g, sources, target, q, visited, r.0, r.1);
    StepLevels(g, sources, target, q, visited, r.0, r.1);
    StepEntries(g, sources, target, q, visited, r.0, r.1);
    StepClosed(g, sources, target, q, visited, r.0, r.1);
    StepFar(g, sources, target, q, visited, r.0, r.1);
  }

  /** What the search returns, from any state satisfying the invariant. */
  lemma {:induction false} BfsCorrect(g: Graph, sources: set<string>, target: string,
                                      q: seq<Entry>, visited: set<string>)
    requires Inv(g, sources, target, q, visited)
    ensures var r := Bfs(g, target, q, visited);
            && (r != [] ==> IsWalk(g, sources, target, r) && Simple(sources, r))
            && (forall w :: IsWalk(g, sources, target, w) ==> |r| <= |w|)
            && (r == [] ==> target in sources || !Reachable(g, sources, target))
    decreases |Nodes(g) - visited|, |q|
  {
    if q == [] {
      forall w | IsWalk(g, sources, target, w) ensures false {
        ClosedContainsReachable(g, sources, visited, target, w);
      }
    } else if q[0].table == target {
      assert EntryOk(g, sources, visited, q[0]);
    } else {
      var r := Expand(q[0].table, q[0].path, Get(g, q[0].table), q[1..], visited);
      ExpandSpec(q[0].table, q[0].path, Get(g, q[0].table), q[1..], visited);
      ExpandProgress(g, q[0].table, visited, r.1);
      ExpandPreservesInv(g, sources, target, q, visited);
      BfsCorrect(g, sources, target, r.0, r.1);
    }
  }

  /** `find_join_path(start_tables, target_table)`. The result is empty when
      the target is a source or unreachable; otherwise it is a simple chain of
      graph steps from a source to the target, and no chain from any source is
      shorter. */
  function FindJoinPath(g: Graph, sources: seq<string>, target: string): (r: seq<Edge>)
    ensures target in sources ==> r == []
    ensures r != [] ==> IsWalk(g, SourceSet(sources), target, r) && Simple(SourceSet(sources), r)
    ensures forall w :: IsWalk(g, SourceSet(sources), target, w) ==> |r| <= |w|
    ensures r == [] && target !in sources ==> !Reachable(g, SourceSet(sources), target)
  {
    InitialInv(g, sources, target);
    BfsCorrect(g, SourceSet(sources), target, Seeds(sources), SourceSet(sources));
    assert target in sources ==> IsWalk(g, SourceSet(sources), target, []);
    Bfs(g, target, Seeds(sources), SourceSet(sources))
  }
}

=== FILE: joins.dfy ===
/** `generate_joins`: one join fragment per path step, allocating an alias
    for every table the path reaches that has none yet. */
module Joins {
  import opened Text
  import opened Alias
  import opened JoinPath
  import opened Sql

  /** The left table of every step has an alias by the time the step is
      rendered: it is in the map already or an earlier step entered it. */
  predicate LeftsCovered(path: seq<Edge>, m: AliasMap) {
    forall i :: 0 <= i < |path| ==>
      path[i].left in Tables(m) || exists j :: 0 <= j < i && path[j].right == path[i].left
  }

  function Rights(path: seq<Edge>): (r: seq<string>)
    ensures |r| == |path|
    ensures forall i :: 0 <= i < |path| ==> r[i] == path[i].right
  {
    if path == [] then [] else [path[0].right] + Rights(path[1..])
  }

  function KindFor(table: string, inner: set<string>): JoinKind {
    if table in inner then InnerJoin else LeftJoin
  }

  lemma CoveredTail(path: seq<Edge>, m: AliasMap, m1: AliasMap)
    requires path != [] && LeftsCovered(path, m)
    requires Tables(m1) == Tables(m) + {path[0].right}
    ensures LeftsCovered(path[1..], m1)
  {
    forall i | 0 <= i < |path[1..]|
      ensures path[1..][i].left in Tables(m1) ||
              exists j :: 0 <= j < i && path[1..][j].right == path[1..][i].left
    {
      if path[i + 1].left !in Tables(m) {
        var j :| 0 <= j < i + 1 && path[j].right == path[i + 1].left;
        if j > 0 {
          assert path[1..][j - 1].right == path[1..][i].left;
        }
      }
    }
  }

  /** The head fragment keeps its aliases in the final map. */
  lemma GenerateJoinsHead(path: seq<Edge>, m: AliasMap, inner: set<string>, m1: AliasMap, m2: AliasMap, j: Join)
    requires path != [] && Unique(m) && LeftsCovered(path, m)
    requires m1 == Register(m, path[0].right) && m1 <= m2
    requires j == Join(KindFor(path[0].right, inner), path[0].right, AliasOf(m1, path[0].right).value,
                       AliasOf(m, path[0].left).value, path[0].leftCol, path[0].rightCol)
    ensures Renders(j, path[0], m2, inner)
  {
    AliasOfExtend(m, m2, path[0].left);
    AliasOfExtend(m1, m2, path[0].right);
  }

  /** The alias map after the join fragments are generated: the input map
      only grows, gains exactly the path's tables, and keeps aliases and tables
      unique. */
  function GenerateJoins(path: seq<Edge>, m: AliasMap, inner: set<string>): (r: (seq<Join>, AliasMap))
    requires Unique(m) && LeftsCovered(path, m)
    ensures Unique(r.1) && m <= r.1
    ensures forall x :: x in Tables(r.1) <==> x in Tables(m) || x in Rights(path)
    ensures |r.0| == |path|
    decreases |path|
  {
    if path == [] then ([], m)
    else
      var e := path[0];
      var leftAlias := AliasOf(m, e.left).value;
      var m1 := Register(m, e.right);
      var rightAlias := AliasOf(m1, e.right).value;
      var j := Join(KindFor(e.right, inner), e.right, rightAlias, leftAlias, e.leftCol, e.rightCol);
      CoveredTail(path, m, m1);
      var rest := GenerateJoins(path[1..], m1, inner);
      assert Rights(path) == [e.right] + Rights(path[1..]);
      ([j] + rest.0, rest.1)
  }

  /** Every table a join reaches without an alias gets the first free alias
      of the sequence base, base1, base2, ... against those bound before it. */
  lemma {:induction false} JoinsAllocate(path: seq<Edge>, m: AliasMap, inner: set<string>)
    requires Unique(m) && LeftsCovered(path, m)
    ensures Allocated(m, GenerateJoins(path, m, inner).1)
    decreases |path|
  {
    if path == [] {
      AllocatedRefl(m);
    } else {
      var m1 := Register(m, path[0].right);
      RegisterAllocates(m, path[0].right);
      CoveredTail(path, m, m1);
      JoinsAllocate(path[1..], m1, inner);
      AllocatedTrans(m, m1, GenerateJoins(path[1..], m1, inner).1);
    }
  }

  /** Fragment `j` renders step `e` against the final alias map `m`: it joins
      the step's right table under its alias in `m`, as an INNER join exactly
      when that table is in `inner`, on the step's column pair, with the left
      side under the left table's alias. */
  predicate Renders(j: Join, e: Edge, m: AliasMap, inner: set<string>) {
    && j.table == e.right
    && j.leftCol == e.leftCol
    && j.rightCol == e.rightCol
    && j.kind == KindFor(e.right, inner)
    && AliasOf(m, e.right) == Some(j.alias)
    && AliasOf(m, e.left) == Some(j.leftAlias)
  }

  lemma RendersCons(js: seq<Join>, es: seq<Edge>, m: AliasMap, inner: set<string>)
    requires |js| == |es| > 0 && Renders(js[0], es[0], m, inner)
    requires forall i :: 0 <= i < |es| - 1 ==> Renders(js[1..][i], es[1..][i], m, inner)
    ensures forall i :: 0 <= i < |es| ==> Renders(js[i], es[i], m, inner)
  {
    forall i | 1 <= i < |es| ensures Renders(js[i], es[i], m, inner) {
      assert js[i] == js[1..][i - 1] && es[i] == es[1..][i - 1];
    }
  }

  /** One unfolding of `GenerateJoins`: the head fragment, then the
      fragments of the rest of the path against the map with the head's
      table registered. */
  lemma GenerateJoinsUnfold(path: seq<Edge>, m: AliasMap, inner: set<string>)
    requires path != [] && Unique(m) && LeftsCovered(path, m)
    ensures var m1 := Register(m, path[0].right);
            && Unique(m1) && LeftsCovered(path[1..], m1)
            && var r := GenerateJoins(path, m, inner);
               var rest := GenerateJoins(path[1..], m1, inner);
               && r.1 == rest.1 && r.0[1..] == rest.0
               && r.0[0] == Join(KindFor(path[0].right, inner), path[0].right, AliasOf(m1, path[0].right).value,
                                 AliasOf(m, path[0].left).value, path[0].leftCol, path[0].rightCol)
  {
    CoveredTail(path, m, Register(m, path[0].right));
  }

  /** The fragments of a path, given those of its tail. */
  lemma FragmentsCons(path: seq<Edge>, inner: set<string>, js: seq<Join>, rest: seq<Join>, m2: AliasMap)
    requires |path| > 0 && |js| == |path| && js[1..] == rest
    requires Renders(js[0], path[0], m2, inner)
    requires forall i :: 0 <= i < |path[1..]| ==> Renders(rest[i], path[1..][i], m2, inner)
    ensures forall i :: 0 <= i < |path| ==> Renders(js[i], path[i], m2, inner)
  {
    forall i | 0 <= i < |path| - 1
      ensures Renders(js[1..][i], path[1..][i], m2, inner)
    {
      assert js[1..][i] == rest[i];
    }
    RendersCons(js, path, m2, inner);
  }

  /** Every fragment renders its step of the path, in path order. */
  lemma {:induction false} GenerateJoinsFragments(path: seq<Edge>, m: AliasMap, inner: set<string>)
    requires Unique(m) && LeftsCovered(path, m)
    ensures var r := GenerateJoins(path, m, inner);
            forall i :: 0 <= i < |path| ==> Renders(r.0[i], path[i], r.1, inner)
    decreases |path|
  {
    if path != [] {
      var r := GenerateJoins(path, m, inner);
      var m1 := Register(m, path[0].right);
      GenerateJoinsUnfold(path, m, inner);
      var rest := GenerateJoins(path[1..], m1, inner);
      GenerateJoinsFragments(path[1..], m1, inner);
      GenerateJoinsHead(path, m, inner, m1, rest.1, r.0[0]);
      FragmentsCons(path, inner, r.0, rest.0, r.1);
    }
  }
}

=== FILE: order.dfy ===
/** Python's ordering of strings (code point by code point, a proper prefix
    first) and `sorted` on a list of distinct strings. */
module Order {

  /** `a < b` on Python strings. */
  predicate Less(a: string, b: string) {
    if |a| == 0 then |b| > 0
    else if |b| == 0 then false
    else if a[0] != b[0] then a[0] < b[0]
    else Less(a[1..], b[1..])
  }

  lemma {:induction false} LessIrreflexive(a: string)
    ensures !Less(a, a)
  {
    if |a| > 0 {
      LessIrreflexive(a[1..]);
    }
  }

  lemma {:induction false} LessTransitive(a: string, b: string, c: string)
    requires Less(a, b) && Less(b, c)
    ensures Less(a, c)
  {
    if |a| > 0 && |b| > 0 && |c| > 0 && a[0] == b[0] && b[0] == c[0] {
      LessTransitive(a[1..], b[1..], c[1..]);
    }
  }

  lemma {:induction false} LessTotal(a: string, b: string)
    requires a != b
    ensures Less(a, b) || Less(b, a)
  {
    if |a| > 0 && |b| > 0 && a[0] == b[0] {
      assert a == [a[0]] + a[1..] && b == [b[0]] + b[1..];
      LessTotal(a[1..], b[1..]);
    }
  }

  lemma {:induction false} LessAsymmetric(a: string, b: string)
    requires Less(a, b)
    ensures !Less(b, a)
  {
    if |a| > 0 && |b| > 0 && a[0] == b[0] {
      LessAsymmetric(a[1..], b[1..]);
    }
  }

  predicate Sorted(s: seq<string>) {
    forall i, j :: 0 <= i < j < |s| ==> Less(s[i], s[j])
  }

  predicate Distinct<T(==)>(s: seq<T>) {
    forall i, j :: 0 <= i < j < |s| ==> s[i] != s[j]
  }

  lemma DistinctCons<T>(x: T, s: seq<T>)
    requires Distinct(s) && x !in s
    ensures Distinct([x] + s)
  {
    var r := [x] + s;
    forall i, j | 0 <= i < j < |r| ensures r[i] != r[j] {
      assert r[j] == s[j - 1] && r[j] in s;
      if i > 0 {
        assert r[i] == s[i - 1];
      }
    }
  }

  lemma SortedIsDistinct(s: seq<string>)
    requires Sorted(s)
    ensures Distinct(s)
  {
    forall i, j | 0 <= i < j < |s|
      ensures s[i] != s[j]
    {
      if s[i] == s[j] {
        LessIrreflexive(s[i]);
      }
    }
  }

  lemma BelowAll(x: string, s: seq<string>)
    requires Sorted(s) && s != [] && Less(x, s[0])
    ensures forall j :: 0 <= j < |s| ==> Less(x, s[j])
  {
    forall j | 0 <= j < |s| ensures Less(x, s[j]) {
      if j > 0 { LessTransitive(x, s[0], s[j]); }
    }
  }

  lemma HeadBelow(x: string, s: seq<string>, t: seq<string>)
    requires Sorted(s) && s != [] && Less(s[0], x)
    requires multiset(t) == multiset(s[1..]) + multiset{x}
    ensures forall j :: 0 <= j < |t| ==> Less(s[0], t[j])
  {
    forall j | 0 <= j < |t| ensures Less(s[0], t[j]) {
      assert t[j] in multiset(t);
      if t[j] != x {
        assert t[j] in multiset(s[1..]);
        var i :| 0 <= i < |s[1..]| && s[1..][i] == t[j];
        assert s[i + 1] == t[j];
      }
    }
  }

  function Insert(x: string, s: seq<string>): (r: seq<string>)
    requires Sorted(s) && x !in s
    ensures Sorted(r)
    ensures multiset(r) == multiset(s) + multiset{x}
  {
    if s == [] then [x]
    else if Less(x, s[0]) then
      BelowAll(x, s);
      [x] + s
    else
      LessTotal(x, s[0]);
      var t := Insert(x, s[1..]);
      assert s == [s[0]] + s[1..];
      HeadBelow(x, s, t);
      [s[0]] + t
  }

  /** `sorted(s)` for a list without repetitions. */
  function Sort(s: seq<string>): (r: seq<string>)
    requires Distinct(s)
    ensures Sorted(r)
    ensures multiset(r) == multiset(s)
  {
    if s == [] then []
    else
      var t := Sort(s[1..]);
      assert s[0] !in t by {
        assert s == [s[0]] + s[1..];
        assert s[0] !in multiset(s[1..]);
      }
      assert s == [s[0]] + s[1..];
      Insert(s[0], t)
  }

  /** Two sorted lists with the same elements are the same list: `Sort` is
      the one sorted arrangement of its input. */
  lemma {:induction false} SortedUnique(a: seq<string>, b: seq<string>)
    requires Sorted(a) && Sorted(b)
    requires forall x :: x in a <==> x in b
    ensures a == b
  {
    SameElementsBothEmpty(a, b);
    if a != [] {
      SortedHeadLeast(b, a[0]);
      SortedHeadLeast(a, b[0]);
      if a[0] != b[0] {
        LessAsymmetric(b[0], a[0]);
      }
      forall x | x in a[1..] ensures x in b[1..] {
        var i :| 1 <= i < |a| && a[i] == x;
        assert x in a;
        var j :| 0 <= j < |b| && b[j] == x;
        if j == 0 { LessIrreflexive(a[0]); }
      }
      forall x | x in b[1..] ensures x in a[1..] {
        var j :| 1 <= j < |b| && b[j] == x;
        assert x in b;
        var i :| 0 <= i < |a| && a[i] == x;
        if i == 0 { LessIrreflexive(b[0]); }
      }
      SortedUnique(a[1..], b[1..]);
      assert a == [a[0]] + a[1..] && b == [b[0]] + b[1..];
    }
  }

  lemma SameElementsBothEmpty(a: seq<string>, b: seq<string>)
    requires forall x :: x in a <==> x in b
    ensures a == [] <==> b == []
  {
    if a != [] {
      assert a[0] in b;
    }
    if b != [] {
      assert b[0] in a;
    }
  }

  /** The head of a sorted list is its least element. */
  lemma SortedHeadLeast(s: seq<string>, x: string)
    requires Sorted(s) && x in s
    ensures x == s[0] || Less(s[0], x)
  {
  }
}

=== FILE: patterns.dfy ===
/** The three regular expressions `build_sql` applies to the lowercased
    question: the count-keyword search, the `show N` / `top N` limit search,
    and the `column is value` filter scan. Each is modelled by a direct scan
    over maximal character runs and tied to a declarative description of what
    the expression accepts. */
module Patterns {
  import opened Text

  /** `\b` at position i: exactly one side is a word character. */
  predicate Boundary(s: string, i: nat)
    requires i <= |s|
  {
    (i > 0 && IsWordChar(s[i - 1])) != (i < |s| && IsWordChar(s[i]))
  }

  predicate StartsAt(s: string, i: nat, w: string) {
    i + |w| <= |s| && s[i..i + |w|] == w
  }

  /** Every character of `s[i..j]` satisfies `p`. */
  predicate Run(s: string, i: nat, j: nat, p: char -> bool) {
    i <= j <= |s| && forall k :: i <= k < j ==> p(s[k])
  }

  /** The end of the longest run of characters satisfying `p` from `i`: what
      a greedy `x+` or `x*` consumes. */
  function Span(s: string, i: nat, p: char -> bool): (j: nat)
    requires i <= |s|
    ensures Run(s, i, j, p)
    ensures j == |s| || !p(s[j])
    decreases |s| - i
  {
    if i < |s| && p(s[i]) then Span(s, i + 1, p) else i
  }

  /** A run that stops before a character outside the class is the maximal one. */
  lemma {:induction false} SpanUnique(s: string, i: nat, j: nat, p: char -> bool)
    requires i <= |s| && Run(s, i, j, p) && (j == |s| || !p(s[j]))
    ensures j == Span(s, i, p)
    decreases j - i
  {
    if i < j {
      assert p(s[i]);
      SpanUnique(s, i + 1, j, p);
    }
  }

  /** Every run from `i` ends no later than the maximal one. */
  lemma {:induction false} SpanMaximal(s: string, i: nat, j: nat, p: char -> bool)
    requires i <= |s| && Run(s, i, j, p)
    ensures j <= Span(s, i, p)
    decreases j - i
  {
    if i < j {
      assert p(s[i]);
      SpanMaximal(s, i + 1, j, p);
    }
  }

  lemma SpaceIsNotWord(c: char)
    requires IsSpace(c)
    ensures !IsWordChar(c) && !IsDigit(c)
  {
  }

  // ---------------------------------------------------------------------
  // \b(count|number of|total|how many)\b

  const CountWords: seq<string> := ["count", "number of", "total", "how many"]

  /** Keyword `w` occurs at `i` as a whole word. */
  predicate WordAt(s: string, i: nat, w: string) {
    StartsAt(s, i, w) && Boundary(s, i) && Boundary(s, i + |w|)
  }

  predicate CountWordAt(s: string, i: nat) {
    exists k :: 0 <= k < |CountWords| && WordAt(s, i, CountWords[k])
  }

  /** What `re.search` decides: some position holds one of the keywords. */
  ghost predicate IsCountQuery(s: string) {
    exists i :: 0 <= i <= |s| && CountWordAt(s, i)
  }

  /** The keyword test at one position, alternative by alternative. */
  function CountWordHere(s: string, i: nat): (r: bool)
    ensures r <==> CountWordAt(s, i)
  {
    assert CountWords[0] == "count" && CountWords[1] == "number of";
    assert CountWords[2] == "total" && CountWords[3] == "how many";
    WordAt(s, i, "count") || WordAt(s, i, "number of") ||
    WordAt(s, i, "total") || WordAt(s, i, "how many")
  }

  /** The search from position `i` on. */
  function CountFrom(s: string, i: nat): (r: bool)
    requires i <= |s|
    ensures r <==> exists j :: i <= j <= |s| && CountWordAt(s, j)
    decreases |s| - i
  {
    if CountWordHere(s, i) then true
    else if i == |s| then false
    else
      var r := CountFrom(s, i + 1);
      assert r ==> exists j :: i <= j <= |s| && CountWordAt(s, j);
      assert (exists j :: i <= j <= |s| && CountWordAt(s, j)) ==> r by {
        if exists j :: i <= j <= |s| && CountWordAt(s, j) {
          var j :| i <= j <= |s| && CountWordAt(s, j);
          assert j != i;
        }
      }
      r
  }

  /** `bool(re.search(r'\b(count|number of|total|how many)\b', s))` */
  function CountSearch(s: string): (r: bool)
    ensures r <==> IsCountQuery(s)
  {
    CountFrom(s, 0)
  }

  // ---------------------------------------------------------------------
  // \b(?:show|top)\s+(\d+)\b

  /** The pattern matched at `i` with keyword `w`, blanks up to `c` and the
      digit group `s[c..d]`. */
  ghost predicate LimitShape(s: string, i: nat, w: string, c: nat, d: nat) {
    && (w == "show" || w == "top")
    && StartsAt(s, i, w) && Boundary(s, i)
    && i + |w| < c && Run(s, i + |w|, c, IsSpace)
    && c < d && Run(s, c, d, IsDigit) && d <= |s| && Boundary(s, d)
  }

  /** The attempt at position `i`: the captured digits, if the pattern matches there. */
  function LimitAt(s: string, i: nat): (r: Option<string>)
    requires i <= |s|
    ensures r.Some? ==> exists w: string, c: nat, d: nat :: LimitShape(s, i, w, c, d) && r.value == s[c..d]
  {
    var k := if StartsAt(s, i, "show") then 4 else if StartsAt(s, i, "top") then 3 else 0;
    if k == 0 || !Boundary(s, i) then None
    else
      var c := Span(s, i + k, IsSpace);
      var d := Span(s, c, IsDigit);
      if c == i + k || d == c || !Boundary(s, d) then None
      else
        assert LimitShape(s, i, if k == 4 then "show" else "top", c, d);
        Some(s[c..d])
  }

  /** Whenever the pattern matches at `i` in any way, the attempt succeeds and
      captures that very digit group: the match at a position is unique. */
  lemma LimitAtComplete(s: string, i: nat, w: string, c: nat, d: nat)
    requires i <= |s| && LimitShape(s, i, w, c, d)
    ensures LimitAt(s, i) == Some(s[c..d])
  {
    assert s[i] == w[0];
    var k := |w|;
    assert k == if StartsAt(s, i, "show") then 4 else if StartsAt(s, i, "top") then 3 else 0;
    assert IsDigit(s[c]);
    SpanUnique(s, i + k, c, IsSpace);
    assert d == |s| || !IsDigit(s[d]) by {
      if d < |s| {
        assert IsDigit(s[d - 1]);
      }
    }
    SpanUnique(s, c, d, IsDigit);
  }

  /** `re.search` from position `i` on: the leftmost match, with its position. */
  function LimitFrom(s: string, i: nat): (r: Option<(nat, string)>)
    requires i <= |s|
    ensures r.Some? ==> i <= r.value.0 <= |s| && LimitAt(s, r.value.0) == Some(r.value.1)
    ensures r.Some? ==> forall j :: i <= j < r.value.0 ==> LimitAt(s, j).None?
    ensures r.None? ==> forall j :: i <= j <= |s| ==> LimitAt(s, j).None?
    decreases |s| - i
  {
    var here := LimitAt(s, i);
    if here.Some? then Some((i, here.value))
    else if i == |s| then None
    else LimitFrom(s, i + 1)
  }

  /** The pattern matches at `i` and captures `v`. */
  ghost predicate LimitMatch(s: string, i: nat, v: string) {
    exists w: string, c: nat, d: nat :: LimitShape(s, i, w, c, d) && v == s[c..d]
  }

  /** The pattern matches at no position before `i`. */
  ghost predicate NoLimitBefore(s: string, i: nat) {
    forall j: nat, w: string, c: nat, d: nat :: j < i ==> !LimitShape(s, j, w, c, d)
  }

  /** A position the scanner skipped admits no match. */
  lemma NoLimitBeforeFrom(s: string, i: nat)
    requires i <= |s|
    requires forall j :: 0 <= j < i ==> LimitAt(s, j).None?
    ensures NoLimitBefore(s, i)
  {
    forall j: nat, w: string, c: nat, d: nat | j < i ensures !LimitShape(s, j, w, c, d) {
      if LimitShape(s, j, w, c, d) {
        LimitAtComplete(s, j, w, c, d);
      }
    }
  }

  /** The digits `\b(?:show|top)\s+(\d+)\b` captures in its leftmost match:
      the value is the digit group of a match at some position, and no
      earlier position admits a match. */
  function LimitSearch(s: string): (r: Option<string>)
    ensures r.Some? ==> IsDigitString(r.value)
    ensures r.Some? ==> exists i: nat :: i <= |s| && LimitMatch(s, i, r.value) && NoLimitBefore(s, i)
    ensures r.None? <==> forall i: nat, w: string, c: nat, d: nat :: i <= |s| ==> !LimitShape(s, i, w, c, d)
  {
    var m := LimitFrom(s, 0);
    if m.None? then
      forall i: nat, w: string, c: nat, d: nat | i <= |s| ensures !LimitShape(s, i, w, c, d) {
        if LimitShape(s, i, w, c, d) {
          LimitAtComplete(s, i, w, c, d);
        }
      }
      None
    else
      LeftmostFound(s, m.value.0, m.value.1);
      Some(m.value.1)
  }

  /** What the scanner's first success tells about the text. */
  lemma LeftmostFound(s: string, i: nat, v: string)
    requires i <= |s| && LimitAt(s, i) == Some(v)
    requires forall j :: 0 <= j < i ==> LimitAt(s, j).None?
    ensures IsDigitString(v) && LimitMatch(s, i, v) && NoLimitBefore(s, i)
  {
    var w: string, c: nat, d: nat :| LimitShape(s, i, w, c, d) && v == s[c..d];
    assert forall k :: 0 <= k < |s[c..d]| ==> s[c..d][k] == s[c + k];
    NoLimitBeforeFrom(s, i);
  }

  /** A match exists at one position at most with one captured value: the
      leftmost match, and so the value `LimitSearch` reports, is unique. */
  lemma LimitLeftmostUnique(s: string, i: nat, v: string, i': nat, v': string)
    requires i <= |s| && LimitMatch(s, i, v) && NoLimitBefore(s, i)
    requires i' <= |s| && LimitMatch(s, i', v') && NoLimitBefore(s, i')
    ensures i == i' && v == v'
  {
    var w: string, c: nat, d: nat :| LimitShape(s, i, w, c, d) && v == s[c..d];
    var w': string, c': nat, d': nat :| LimitShape(s, i', w', c', d') && v' == s[c'..d'];
    if i < i' {
      assert false;
    } else if i' < i {
      assert false;
    } else {
      LimitAtComplete(s, i, w, c, d);
      LimitAtComplete(s, i, w', c', d');
    }
  }

  // ---------------------------------------------------------------------
  // (\w+)\s+is\s+([^\s,]+)

  /** `[^\s,]` */
  predicate IsValueChar(c: char) {
    !IsSpace(c) && c != ','
  }

  /** One match: where it starts and ends, and its two groups. */
  datatype FilterMatch = FilterMatch(start: nat, end: nat, column: string, value: string)

  /** The pattern accepts `s[p..d]` split as a word `s[p..a]`, blanks, `is`
      at `b`, blanks, and a value `s[c..d]`. */
  ghost predicate FilterShape(s: string, p: nat, a: nat, b: nat, c: nat, d: nat) {
    && p < a && Run(s, p, a, IsWordChar)
    && a < b && Run(s, a, b, IsSpace)
    && StartsAt(s, b, "is")
    && b + 2 < c && Run(s, b + 2, c, IsSpace)
    && c < d && Run(s, c, d, IsValueChar)
  }

  /** The attempt at position `p`, every quantifier greedy. */
  function FilterAt(s: string, p: nat): (r: Option<FilterMatch>)
    requires p <= |s|
    ensures r.Some? ==> r.value.start == p < r.value.end <= |s|
    ensures r.Some? ==> exists a: nat, b: nat, c: nat :: FilterShape(s, p, a, b, c, r.value.end) &&
                          r.value.column == s[p..a] && r.value.value == s[c..r.value.end]
  {
    var a := Span(s, p, IsWordChar);
    var b := Span(s, a, IsSpace);
    if a == p || b == a || !StartsAt(s, b, "is") then None
    else
      var c := Span(s, b + 2, IsSpace);
      var d := Span(s, c, IsValueChar);
      if c == b + 2 || d == c then None
      else
        assert FilterShape(s, p, a, b, c, d);
        Some(FilterMatch(p, d, s[p..a], s[c..d]))
  }

  /** Whenever the pattern accepts some `s[p..d]`, the attempt at `p`
      succeeds with the same groups, its value running at least to `d`: the
      split is forced and the greedy value is the longest. */
  lemma FilterAtComplete(s: string, p: nat, a: nat, b: nat, c: nat, d: nat)
    requires p <= |s| && FilterShape(s, p, a, b, c, d)
    ensures FilterAt(s, p).Some?
    ensures FilterAt(s, p).value.column == s[p..a]
    ensures d <= FilterAt(s, p).value.end
    ensures FilterAt(s, p).value.value == s[c..FilterAt(s, p).value.end]
  {
    SpaceIsNotWord(s[a]);
    SpanUnique(s, p, a, IsWordChar);
    SpanUnique(s, a, b, IsSpace);
    assert !IsSpace(s[c]);
    SpanUnique(s, b + 2, c, IsSpace);
    SpanMaximal(s, c, d, IsValueChar);
  }

  /** `m` is the match the attempt at its start position produces. */
  predicate Found(s: string, m: FilterMatch) {
    m.start <= |s| && FilterAt(s, m.start) == Some(m)
  }

  /** Position `p` lies inside one of the matches in `r`. */
  predicate Covered(r: seq<FilterMatch>, p: nat) {
    exists k :: 0 <= k < |r| && r[k].start <= p < r[k].end
  }

  /** `re.findall` from position `pos`: scan for the leftmost match, take it,
      resume at its end. Every match found is the attempt at its start, the
      matches come in order without overlapping, and every position from
      `pos` on where an attempt would succeed lies inside one of them. */
  function FindAll(s: string, pos: nat): (r: seq<FilterMatch>)
    requires pos <= |s|
    ensures forall k :: 0 <= k < |r| ==> pos <= r[k].start && Found(s, r[k])
    ensures forall k :: 0 <= k < |r| - 1 ==> r[k].end <= r[k + 1].start
    ensures forall p :: pos <= p <= |s| && FilterAt(s, p).Some? ==> Covered(r, p)
    decreases |s| - pos
  {
    var here := FilterAt(s, pos);
    if here.Some? then
      var m := here.value;
      var rest := FindAll(s, m.end);
      var r := [m] + rest;
      FindAllCons(s, pos, m, rest);
      r
    else if pos == |s| then []
    else
      var r := FindAll(s, pos + 1);
      assert forall p :: pos <= p <= |s| && FilterAt(s, p).Some? ==> pos + 1 <= p;
      r
  }

  lemma FindAllCons(s: string, pos: nat, m: FilterMatch, rest: seq<FilterMatch>)
    requires pos <= |s| && FilterAt(s, pos) == Some(m)
    requires forall k :: 0 <= k < |rest| ==> m.end <= rest[k].start && Found(s, rest[k])
    requires forall k :: 0 <= k < |rest| - 1 ==> rest[k].end <= rest[k + 1].start
    requires forall p :: m.end <= p <= |s| && FilterAt(s, p).Some? ==> Covered(rest, p)
    ensures var r := [m] + rest;
            && (forall k :: 0 <= k < |r| ==> pos <= r[k].start && Found(s, r[k]))
            && (forall k :: 0 <= k < |r| - 1 ==> r[k].end <= r[k + 1].start)
            && (forall p :: pos <= p <= |s| && FilterAt(s, p).Some? ==> Covered(r, p))
  {
    var r := [m] + rest;
    assert Found(s, m);
    ConsFound(s, pos, m, rest);
    ConsOrdered(m, rest);
    ConsCovered(s, pos, m, rest);
  }

  lemma ConsFound(s: string, pos: nat, m: FilterMatch, rest: seq<FilterMatch>)
    requires Found(s, m) && pos <= m.start
    requires forall k :: 0 <= k < |rest| ==> m.end <= rest[k].start && Found(s, rest[k])
    requires m.start < m.end
    ensures forall k :: 0 <= k < |rest| + 1 ==> pos <= ([m] + rest)[k].start && Found(s, ([m] + rest)[k])
  {
    var r := [m] + rest;
    forall k | 0 <= k < |r|
      ensures pos <= r[k].start && Found(s, r[k])
    {
      if k > 0 {
        assert r[k] == rest[k - 1];
      }
    }
  }

  lemma ConsOrdered(m: FilterMatch, rest: seq<FilterMatch>)
    requires forall k :: 0 <= k < |rest| ==> m.end <= rest[k].start
    requires forall k :: 0 <= k < |rest| - 1 ==> rest[k].end <= rest[k + 1].start
    ensures forall k :: 0 <= k < |rest| ==> ([m] + rest)[k].end <= ([m] + rest)[k + 1].start
  {
    var r := [m] + rest;
    forall k | 0 <= k < |r| - 1
      ensures r[k].end <= r[k + 1].start
    {
      assert r[k + 1] == rest[k];
      if k > 0 {
        assert r[k] == rest[k - 1];
      }
    }
  }

  lemma ConsCovered(s: string, pos: nat, m: FilterMatch, rest: seq<FilterMatch>)
    requires m.start == pos < m.end
    requires forall p :: m.end <= p <= |s| && FilterAt(s, p).Some? ==> Covered(rest, p)
    ensures forall p :: pos <= p <= |s| && FilterAt(s, p).Some? ==> Covered([m] + rest, p)
  {
    var r := [m] + rest;
    forall p | pos <= p <= |s| && FilterAt(s, p).Some?
      ensures Covered(r, p)
    {
      if p < m.end {
        assert r[0].start <= p < r[0].end;
      } else {
        var k :| 0 <= k < |rest| && rest[k].start <= p < rest[k].end;
        assert r[k + 1] == rest[k];
      }
    }
  }
}

=== FILE: scenarios.dfy ===
/** Worked cases on a two-table bank catalog: `accounts.customer_id`
    references `customers.id`. */
module Scenarios {
  import opened Text
  import opened Catalog
  import opened Alias
  import opened JoinGraph
  import opened JoinPath
  import opened Sql
  import opened Patterns
  import opened Where

  const Customers := Table("customers", ["id", "name", "email"], Some("id"), [])
  const Accounts := Table("accounts", ["id", "customer_id", "balance"], Some("id"),
                          [ForeignKey("customer_id", "customers", "id")])
  const Bank: Catalog := [Customers, Accounts]

  lemma BankWellFormed()
    ensures WellFormed(Bank)
  {
    assert Bank[1..] == [Accounts] && Bank[1..][1..] == [];
    assert Names([Accounts]) == ["accounts"] + Names([]);
    assert Names(Bank) == ["customers", "accounts"];
  }

  /** Both directions of the foreign key are listed with the key's own
      column pair, `(customer_id, id)`; the entry under `customers` is not
      swapped, so a join walked from `customers` reads
      `cu.customer_id = ac.id`. */
  lemma BankGraph()
    ensures Get(BuildJoinGraph(Bank), "accounts") == [Neighbor("customers", "customer_id", "id")]
    ensures Get(BuildJoinGraph(Bank), "customers") == [Neighbor("accounts", "customer_id", "id")]
  {
    var l := Link("accounts", "customer_id", "customers", "id");
    assert Bank[1..] == [Accounts] && Bank[1..][1..] == [];
    assert TableLinks(Accounts, Accounts.foreignKeys) == [l];
    assert Links([Accounts]) == [l] + Links([]);
    assert TableLinks(Customers, []) == [];
    assert Links(Bank) == [l];
    assert [l][1..] == [];
    BuildFromAdjacency(map[], [l], "accounts");
    BuildFromAdjacency(map[], [l], "customers");
  }

  /** In any graph whose only entry under `customers` leads to `accounts`,
      the path found is that one step, with that entry's column pair. */
  lemma OneStep(g: Graph)
    requires Get(g, "customers") == [Neighbor("accounts", "customer_id", "id")]
    ensures FindJoinPath(g, ["customers"], "accounts") == [Edge("customers", "accounts", "customer_id", "id")]
  {
    var e := Edge("customers", "accounts", "customer_id", "id");
    assert SourceSet(["customers"]) == {"customers"};
    assert IsWalk(g, {"customers"}, "accounts", [e]);
    var r := FindJoinPath(g, ["customers"], "accounts");
    assert r != [] && |r| <= 1;
    WalkOfOne(g, r);
  }

  lemma WalkOfOne(g: Graph, r: seq<Edge>)
    requires Get(g, "customers") == [Neighbor("accounts", "customer_id", "id")]
    requires |r| == 1 && IsWalk(g, {"customers"}, "accounts", r)
    ensures r == [Edge("customers", "accounts", "customer_id", "id")]
  {
    assert InGraph(g, r[0]);
  }

  /** Joining `accounts` from `customers` takes the one reverse step, and
      its column pair is the key's own: the fragment reads
      `ON cu.customer_id = ac.id`, naming a column `customers` lacks. */
  lemma ReverseStep()
    ensures FindJoinPath(BuildJoinGraph(Bank), ["customers"], "accounts") ==
              [Edge("customers", "accounts", "customer_id", "id")]
  {
    BankGraph();
    OneStep(BuildJoinGraph(Bank));
  }

  /** A value with `@` is quoted; a digit string is written bare. */
  lemma FormatCases()
    ensures Format("a@b.com") == Quoted("a@b.com")
    ensures Format("500") == Number("500")
    ensures Format("active") == Quoted("active")
  {
    assert IsDigitString("500");
    assert '@' in "a@b.com" && !IsDigit("active"[0]);
  }

  /** A second table whose name starts with `cu` receives `cu1`. */
  lemma AliasClash()
    ensures Allocate("cupboards", {"cu"}) == "cu1"
    ensures Allocate("cupboards", {}) == "cu"
  {
    assert "cupboards"[..2] == "cu";
    assert ToLower("cu") == "cu";
    assert NatToString(1) == "1";
    assert Candidate("cu", 1) == "cu1";
  }

  const Sample := Query(ColumnList([ColumnRef("ac", "id"), ColumnRef("cu", "name")]),
                        "accounts", "ac",
                        [Join(InnerJoin, "customers", "cu", "ac", "customer_id", "id")],
                        [Predicate("cu", "email", Quoted("a@b.com"))],
                        Some(5))

  lemma SampleSelect()
    ensures RenderSelect(Sample.select) == "ac.id,\n    cu.name"
  {
    var refs := Sample.select.refs;
    assert refs[1..] == [refs[1]] && refs[1..][1..] == [];
    assert "ac" + "." + "id" == "ac.id" && "cu" + "." + "name" == "cu.name";
    assert RenderColumns(refs) == ["ac.id", "cu.name"];
    assert JoinWith(",\n    ", ["cu.name"]) == "cu.name";
    assert "ac.id" + ",\n    " == "ac.id,\n    ";
  }

  lemma SampleJoin()
    ensures RenderJoin(Sample.joins[0]) == "INNER JOIN customers cu ON ac.customer_id = cu.id"
  {
    var j := Sample.joins[0];
    var t := KindText(j.kind) + " " + j.table + " " + j.alias;
    assert t == "INNER JOIN customers cu";
    assert t + " ON " + j.leftAlias == "INNER JOIN customers cu ON ac";
    assert t + " ON " + j.leftAlias + "." + j.leftCol == "INNER JOIN customers cu ON ac.customer_id";
    assert t + " ON " + j.leftAlias + "." + j.leftCol + " = " + j.alias ==
           "INNER JOIN customers cu ON ac.customer_id = cu";
  }

  lemma SampleFrom()
    ensures RenderFrom(Sample) == "FROM accounts ac\n" + "INNER JOIN customers cu ON ac.customer_id = cu.id"
  {
    SampleJoin();
    assert RenderJoins(Sample.joins) == [RenderJoin(Sample.joins[0])];
    assert "FROM " + Sample.table + " " + Sample.alias + "\n" == "FROM accounts ac\n";
  }

  lemma SampleWhere()
    ensures RenderWhere(Sample) == "\nWHERE cu.email = 'a@b.com'"
  {
    var p := Sample.filters[0];
    var c := p.alias + "." + p.column;
    assert c == "cu.email";
    assert c + " = " == "cu.email = ";
    assert RenderLiteral(p.value) == "'a@b.com'";
    assert c + " = " + RenderLiteral(p.value) == "cu.email = 'a@b.com'";
    assert RenderPredicates(Sample.filters) == ["cu.email = 'a@b.com'"];
    assert "\n" + "WHERE " == "\nWHERE ";
  }

  lemma SampleLimit()
    ensures RenderLimit(Sample) == "\nLIMIT 5"
  {
    assert NatToString(5) == "5";
  }

  /** The rendered text of a one-join statement, clause by clause: the
      select list one column per line, the INNER JOIN with its ON
      condition, the quoted e-mail predicate and the limit. */
  lemma RenderCase()
    ensures Render(Sample) ==
              "SELECT\n    " + "ac.id,\n    cu.name" + "\n" +
              "FROM accounts ac\n" + "INNER JOIN customers cu ON ac.customer_id = cu.id" +
              "\nWHERE cu.email = 'a@b.com'" +
              "\nLIMIT 5"
  {
    SampleSelect();
    SampleFrom();
    SampleWhere();
    SampleLimit();
  }

  /** "how many" is a count keyword as a whole word. */
  lemma HowManyCounts()
    ensures CountSearch("how many")
  {
    assert WordAt("how many", 0, CountWords[3]);
  }

  /** No keyword starts with a character other than `c`, `n`, `t`, `h`. */
  lemma NoKeywordAt(s: string, i: nat)
    requires i < |s| && s[i] != 'c' && s[i] != 'n' && s[i] != 't' && s[i] != 'h'
    ensures !CountWordAt(s, i)
  {
    forall k | 0 <= k < |CountWords| ensures !StartsAt(s, i, CountWords[k]) {
      var w := CountWords[k];
      assert w[0] == 'c' || w[0] == 'n' || w[0] == 't' || w[0] == 'h';
      if i + |w| <= |s| {
        assert s[i..i + |w|][0] != w[0];
      }
    }
  }

  /** Every keyword is at least five characters long. */
  lemma NoRoomForKeyword(s: string, i: nat)
    requires i <= |s| < i + 5
    ensures !CountWordAt(s, i)
  {
  }

  /** "count" inside "discount" is not at a word boundary. */
  lemma DiscountDoesNotCount()
    ensures !CountSearch("discount")
  {
    var s := "discount";
    forall i | 0 <= i <= |s| ensures !CountWordAt(s, i) {
      if i == 3 {
        assert !Boundary(s, 3);
      } else if i < 6 {
        NoKeywordAt(s, i);
      } else {
        NoRoomForKeyword(s, i);
      }
    }
  }

  const Show := "show 5 accounts"

  lemma ShowShape()
    ensures LimitShape(Show, 0, "show", 5, 6)
  {
    assert StartsAt(Show, 0, "show") && Boundary(Show, 0);
    assert Run(Show, 4, 5, IsSpace) && Run(Show, 5, 6, IsDigit);
    assert Boundary(Show, 6);
  }

  /** "show 5 accounts" asks for five rows; a count question drops the limit. */
  lemma ShowFive()
    ensures LimitSearch(Show) == Some("5")
    ensures LimitValue(Show, false) == Some(5)
    ensures LimitValue(Show, true) == None
  {
    ShowShape();
    LimitAtComplete(Show, 0, "show", 5, 6);
    assert Show[5..6] == "5";
    assert ParseDigits("5") == 5 by {
      assert "5"[..0] == [];
    }
  }

  const Email := "email is a@b.com"

  lemma EmailShape()
    ensures FilterShape(Email, 0, 5, 6, 9, 16)
  {
    assert Run(Email, 0, 5, IsWordChar);
    assert Run(Email, 5, 6, IsSpace) && StartsAt(Email, 6, "is") && Run(Email, 8, 9, IsSpace);
    assert Run(Email, 9, 16, IsValueChar);
  }

  lemma EmailGroups()
    ensures Email[0..5] == "email" && Email[9..16] == "a@b.com"
  {
  }

  lemma EmailFirst()
    ensures FilterAt(Email, 0) == Some(FilterMatch(0, 16, "email", "a@b.com"))
  {
    EmailShape();
    EmailGroups();
    FilterAtComplete(Email, 0, 5, 6, 9, 16);
    var r := FilterAt(Email, 0).value;
    assert r.end == 16;
  }

  /** The filter scan finds `email is a@b.com` with the whole address as
      the value, and nothing after it. */
  lemma EmailFilter()
    ensures FindAll(Email, 0) == [FilterMatch(0, 16, "email", "a@b.com")]
  {
    EmailFirst();
    assert FilterAt(Email, 16).None?;
    assert FindAll(Email, 16) == [];
  }
}

=== FILE: select.dfy ===
/** The select list: every column of every aliased table, in alias-map
    order, keeping only the first occurrence of each column name. */
module Select {
  import opened Text
  import opened Catalog
  import opened Alias
  import opened Sql

  function Refs(alias: string, cols: seq<string>): (r: seq<ColumnRef>)
    ensures |r| == |cols|
    ensures forall i :: 0 <= i < |cols| ==> r[i] == ColumnRef(alias, cols[i])
  {
    if cols == [] then [] else [ColumnRef(alias, cols[0])] + Refs(alias, cols[1..])
  }

  /** Every `(alias, column)` pair the nested loops visit, in visiting order. */
  function Visited(cat: Catalog, m: AliasMap): seq<ColumnRef> {
    if m == [] then [] else Refs(m[0].alias, Columns(cat, m[0].table)) + Visited(cat, m[1..])
  }

  /** The visited pairs are exactly the `(alias, column)` pairs of the map's
      entries. */
  lemma {:induction false} VisitedPairs(cat: Catalog, m: AliasMap)
    ensures forall c :: c in Visited(cat, m) ==> exists i :: 0 <= i < |m| && c.alias == m[i].alias &&
                                                  c.column in Columns(cat, m[i].table)
    ensures forall i, c :: 0 <= i < |m| && c in Columns(cat, m[i].table) ==> ColumnRef(m[i].alias, c) in Visited(cat, m)
  {
    if m != [] {
      VisitedPairs(cat, m[1..]);
      var rest := Visited(cat, m[1..]);
      var head := Refs(m[0].alias, Columns(cat, m[0].table));
      assert Visited(cat, m) == head + rest;
      forall i, c | 0 <= i < |m| && c in Columns(cat, m[i].table)
        ensures ColumnRef(m[i].alias, c) in head + rest
      {
        if i == 0 {
          var j :| 0 <= j < |Columns(cat, m[0].table)| && Columns(cat, m[0].table)[j] == c;
          assert head[j] == ColumnRef(m[i].alias, c);
        } else {
          assert m[1..][i - 1] == m[i];
        }
      }
      forall c | c in head + rest
        ensures exists i :: 0 <= i < |m| && c.alias == m[i].alias && c.column in Columns(cat, m[i].table)
      {
        if c in rest {
          var i :| 0 <= i < |m[1..]| && c.alias == m[1..][i].alias && c.column in Columns(cat, m[1..][i].table);
          assert m[i + 1] == m[1..][i];
        } else {
          var j :| 0 <= j < |head| && head[j] == c;
          assert c.column in Columns(cat, m[0].table);
        }
      }
    }
  }

  /** Some pair in `refs` carries column name `c`. */
  predicate HasName(refs: seq<ColumnRef>, c: string) {
    exists i :: 0 <= i < |refs| && refs[i].column == c
  }

  /** The position of the first pair carrying column name `c`. */
  function FirstIndex(refs: seq<ColumnRef>, c: string): (i: nat)
    requires HasName(refs, c)
    ensures i < |refs| && refs[i].column == c
    ensures forall j :: 0 <= j < i ==> refs[j].column != c
  {
    if refs[0].column == c then 0
    else
      assert HasName(refs[1..], c) by {
        var i :| 0 <= i < |refs| && refs[i].column == c;
        assert refs[1..][i - 1] == refs[i];
      }
      var i := FirstIndex(refs[1..], c);
      assert refs[i + 1] == refs[1..][i];
      assert forall j :: 1 <= j < i + 1 ==> refs[j] == refs[1..][j - 1];
      i + 1
  }

  /** What a result of `Dedup` must be: for each of its entries, the first pair
      in `refs` with that column name, with names outside `seen`, listed in
      the order they occur in `refs`, and with no such name missing. */
  ghost predicate FirstOccurrences(refs: seq<ColumnRef>, seen: set<string>, r: seq<ColumnRef>) {
    && (forall k :: 0 <= k < |r| ==> r[k].column !in seen && HasName(refs, r[k].column) &&
                                     r[k] == refs[FirstIndex(refs, r[k].column)])
    && (forall k, l :: 0 <= k < l < |r| ==>
          FirstIndex(refs, r[k].column) < FirstIndex(refs, r[l].column))
    && (forall i :: 0 <= i < |refs| && refs[i].column !in seen ==> HasName(r, refs[i].column))
  }

  lemma FirstIndexTail(refs: seq<ColumnRef>, c: string)
    requires refs != [] && refs[0].column != c && HasName(refs, c)
    ensures HasName(refs[1..], c)
    ensures FirstIndex(refs, c) == FirstIndex(refs[1..], c) + 1
  {
    var i :| 0 <= i < |refs| && refs[i].column == c;
    assert refs[1..][i - 1] == refs[i];
  }

  /** Skipping a head whose name was already seen. */
  lemma FirstOccurrencesSkip(refs: seq<ColumnRef>, seen: set<string>, r: seq<ColumnRef>)
    requires refs != [] && refs[0].column in seen
    requires FirstOccurrences(refs[1..], seen, r)
    ensures FirstOccurrences(refs, seen, r)
  {
    forall k | 0 <= k < |r|
      ensures HasName(refs, r[k].column) && r[k] == refs[FirstIndex(refs, r[k].column)]
    {
      var i := FirstIndex(refs[1..], r[k].column);
      assert refs[i + 1] == refs[1..][i];
      FirstIndexTail(refs, r[k].column);
    }
    forall k, l | 0 <= k < l < |r|
      ensures FirstIndex(refs, r[k].column) < FirstIndex(refs, r[l].column)
    {
      FirstIndexTail(refs, r[k].column);
      FirstIndexTail(refs, r[l].column);
    }
    forall i | 0 <= i < |refs| && refs[i].column !in seen
      ensures HasName(r, refs[i].column)
    {
      assert refs[i] == refs[1..][i - 1];
    }
  }

  /** Taking a head whose name is new. */
  lemma FirstOccurrencesTake(refs: seq<ColumnRef>, seen: set<string>, rest: seq<ColumnRef>)
    requires refs != [] && refs[0].column !in seen
    requires FirstOccurrences(refs[1..], seen + {refs[0].column}, rest)
    ensures FirstOccurrences(refs, seen, [refs[0]] + rest)
  {
    TakeEntries(refs, seen, rest);
    TakeOrder(refs, seen, rest);
    TakeComplete(refs, seen, rest);
  }

  lemma TakeEntries(refs: seq<ColumnRef>, seen: set<string>, rest: seq<ColumnRef>)
    requires refs != [] && refs[0].column !in seen
    requires FirstOccurrences(refs[1..], seen + {refs[0].column}, rest)
    ensures var r := [refs[0]] + rest;
            forall k :: 0 <= k < |r| ==> r[k].column !in seen && HasName(refs, r[k].column) &&
                                         r[k] == refs[FirstIndex(refs, r[k].column)]
    ensures forall k :: 0 <= k < |rest| ==> 0 < FirstIndex(refs, rest[k].column) &&
                                            FirstIndex(refs, rest[k].column) == FirstIndex(refs[1..], rest[k].column) + 1
  {
    var r := [refs[0]] + rest;
    assert HasName(refs, refs[0].column);
    forall k | 0 <= k < |rest|
      ensures rest[k].column !in seen && HasName(refs, rest[k].column)
      ensures rest[k] == refs[FirstIndex(refs, rest[k].column)]
      ensures 0 < FirstIndex(refs, rest[k].column)
      ensures FirstIndex(refs, rest[k].column) == FirstIndex(refs[1..], rest[k].column) + 1
    {
      var i := FirstIndex(refs[1..], rest[k].column);
      assert refs[i + 1] == refs[1..][i];
      FirstIndexTail(refs, rest[k].column);
    }
    forall k | 0 <= k < |r|
      ensures r[k].column !in seen && HasName(refs, r[k].column) && r[k] == refs[FirstIndex(refs, r[k].column)]
    {
      if k > 0 {
        assert r[k] == rest[k - 1];
      }
    }
  }

  lemma TakeOrder(refs: seq<ColumnRef>, seen: set<string>, rest: seq<ColumnRef>)
    requires refs != [] && refs[0].column !in seen
    requires FirstOccurrences(refs[1..], seen + {refs[0].column}, rest)
    ensures var r := [refs[0]] + rest;
            forall k, l :: 0 <= k < l < |r| ==> FirstIndex(refs, r[k].column) < FirstIndex(refs, r[l].column)
  {
    TakeEntries(refs, seen, rest);
    var r := [refs[0]] + rest;
    assert HasName(refs, refs[0].column);
    forall k, l | 0 <= k < l < |r|
      ensures FirstIndex(refs, r[k].column) < FirstIndex(refs, r[l].column)
    {
      assert r[l] == rest[l - 1];
      if k > 0 {
        assert r[k] == rest[k - 1];
      }
    }
  }

  lemma TakeComplete(refs: seq<ColumnRef>, seen: set<string>, rest: seq<ColumnRef>)
    requires refs != [] && refs[0].column !in seen
    requires forall i :: 0 <= i < |refs[1..]| && refs[1..][i].column !in seen + {refs[0].column} ==>
               HasName(rest, refs[1..][i].column)
    ensures var r := [refs[0]] + rest;
            forall i :: 0 <= i < |refs| && refs[i].column !in seen ==> HasName(r, refs[i].column)
  {
    var r := [refs[0]] + rest;
    forall i | 0 <= i < |refs| && refs[i].column !in seen
      ensures HasName(r, refs[i].column)
    {
      if refs[i].column == refs[0].column {
        assert r[0].column == refs[i].column;
      } else {
        assert refs[i] == refs[1..][i - 1];
        var k :| 0 <= k < |rest| && rest[k].column == refs[i].column;
        assert r[k + 1] == rest[k];
      }
    }
  }

  /** The `if col not in added_cols` filter over the visited pairs. */
  function Dedup(refs: seq<ColumnRef>, seen: set<string>): (r: seq<ColumnRef>)
    ensures FirstOccurrences(refs, seen, r)
    decreases |refs|
  {
    if refs == [] then []
    else if refs[0].column in seen then
      var r := Dedup(refs[1..], seen);
      FirstOccurrencesSkip(refs, seen, r);
      r
    else
      var rest := Dedup(refs[1..], seen + {refs[0].column});
      FirstOccurrencesTake(refs, seen, rest);
      [refs[0]] + rest
  }

  /** Column names in the select list are pairwise distinct. */
  lemma DedupDistinct(refs: seq<ColumnRef>, seen: set<string>)
    ensures var r := Dedup(refs, seen);
            forall k, l :: 0 <= k < l < |r| ==> r[k].column != r[l].column
  {
    var r := Dedup(refs, seen);
    forall k, l | 0 <= k < l < |r| ensures r[k].column != r[l].column {
      assert FirstIndex(refs, r[k].column) < FirstIndex(refs, r[l].column);
    }
  }

  /** `select_cols` */
  function SelectColumns(cat: Catalog, m: AliasMap): seq<ColumnRef> {
    Dedup(Visited(cat, m), {})
  }

  /** Every column of every aliased table is named in the select list. */
  lemma SelectCovers(cat: Catalog, m: AliasMap, t: string, c: string)
    requires t in Tables(m) && c in Columns(cat, t)
    ensures HasName(SelectColumns(cat, m), c)
  {
    var e :| e in m && e.table == t;
    var i :| 0 <= i < |m| && m[i] == e;
    var refs := Visited(cat, m);
    VisitedPairs(cat, m);
    assert ColumnRef(m[i].alias, c) in refs;
    var n :| 0 <= n < |refs| && refs[n] == ColumnRef(m[i].alias, c);
    assert refs[n].column !in {};
  }

  // ---------------------------------------------------------------------
  // Which alias a column name is selected under, and in what order

  /** The position of the first entry of `cols` equal to `c`. */
  function ColIndex(cols: seq<string>, c: string): (j: nat)
    requires c in cols
    ensures j < |cols| && cols[j] == c
    ensures forall k :: 0 <= k < j ==> cols[k] != c
  {
    if cols[0] == c then 0
    else
      var j := ColIndex(cols[1..], c);
      assert forall k :: 1 <= k < j + 1 ==> cols[k] == cols[1..][k - 1];
      j + 1
  }

  /** Some aliased table has a column named `c`. */
  ghost predicate Owned(cat: Catalog, m: AliasMap, c: string) {
    exists i :: 0 <= i < |m| && c in Columns(cat, m[i].table)
  }

  /** The first alias-map entry whose table has a column named `c`. */
  function Owner(cat: Catalog, m: AliasMap, c: string): (i: nat)
    requires Owned(cat, m, c)
    ensures i < |m| && c in Columns(cat, m[i].table)
    ensures forall k :: 0 <= k < i ==> c !in Columns(cat, m[k].table)
  {
    if c in Columns(cat, m[0].table) then 0
    else
      assert Owned(cat, m[1..], c) by {
        var i :| 0 <= i < |m| && c in Columns(cat, m[i].table);
        assert m[1..][i - 1] == m[i];
      }
      var i := Owner(cat, m[1..], c);
      assert forall k :: 1 <= k < i + 1 ==> m[k] == m[1..][k - 1];
      i + 1
  }

  /** Where the columns of entry `i` start among the visited pairs. */
  function Offset(cat: Catalog, m: AliasMap, i: nat): nat
    requires i <= |m|
  {
    if i == 0 then 0 else |Columns(cat, m[0].table)| + Offset(cat, m[1..], i - 1)
  }

  /** The columns of an earlier entry all come before those of a later one. */
  lemma {:induction false} OffsetGrows(cat: Catalog, m: AliasMap, a: nat, b: nat)
    requires a < b <= |m|
    ensures Offset(cat, m, a) + |Columns(cat, m[a].table)| <= Offset(cat, m, b)
  {
    if a > 0 {
      OffsetGrows(cat, m[1..], a - 1, b - 1);
      assert m[1..][a - 1] == m[a];
    }
  }

  /** A visited position determines its entry and column position. */
  lemma OffsetOrder(cat: Catalog, m: AliasMap, a: nat, j: nat, b: nat, k: nat)
    requires a < |m| && j < |Columns(cat, m[a].table)|
    requires b < |m| && k < |Columns(cat, m[b].table)|
    requires Offset(cat, m, a) + j < Offset(cat, m, b) + k
    ensures a < b || (a == b && j < k)
  {
    if b < a {
      OffsetGrows(cat, m, b, a);
    }
  }

  /** A pair with name `c` at `p`, and none before, is the first one. */
  lemma FirstIndexIs(refs: seq<ColumnRef>, c: string, p: nat)
    requires p < |refs| && refs[p].column == c
    requires forall k :: 0 <= k < p ==> refs[k].column != c
    ensures HasName(refs, c) && FirstIndex(refs, c) == p
  {
  }

  /** Where the first visited pair with column name `c` sits: among the
      pairs of the first entry whose table has `c`, at the first position of
      `c` among its columns. */
  function FirstVisit(cat: Catalog, m: AliasMap, c: string): nat
    requires Owned(cat, m, c)
  {
    var i := Owner(cat, m, c);
    Offset(cat, m, i) + ColIndex(Columns(cat, m[i].table), c)
  }

  /** The visited pairs first reach the name `c` inside the block of its
      owning entry, at the column's position there, under that entry's alias. */
  lemma {:induction false} VisitedFirst(cat: Catalog, m: AliasMap, c: string)
    requires Owned(cat, m, c)
    ensures FirstVisitAt(cat, m, c)
  {
    if c in Columns(cat, m[0].table) {
      VisitedFirstHead(cat, m, c);
    } else {
      OwnerTail(cat, m, c);
      VisitedFirst(cat, m[1..], c);
      VisitedFirstTail(cat, m, c);
    }
  }

  /** The visited pair at `FirstVisit` is the owner's alias with `c`, and no
      earlier visited pair carries the name `c`. */
  ghost predicate FirstVisitAt(cat: Catalog, m: AliasMap, c: string)
    requires Owned(cat, m, c)
  {
    var refs := Visited(cat, m);
    var p := FirstVisit(cat, m, c);
    && p < |refs| && refs[p] == ColumnRef(m[Owner(cat, m, c)].alias, c)
    && forall k :: 0 <= k < p ==> refs[k].column != c
  }

  lemma VisitedFirstHead(cat: Catalog, m: AliasMap, c: string)
    requires m != [] && c in Columns(cat, m[0].table)
    ensures Owned(cat, m, c) && FirstVisitAt(cat, m, c)
  {
    var cols := Columns(cat, m[0].table);
    var head := Refs(m[0].alias, cols);
    var refs := head + Visited(cat, m[1..]);
    assert Visited(cat, m) == refs;
    assert Owner(cat, m, c) == 0 && Offset(cat, m, 0) == 0;
    var j := ColIndex(cols, c);
    assert FirstVisit(cat, m, c) == j;
    assert refs[j] == head[j];
    assert forall k :: 0 <= k < j ==> refs[k] == head[k];
  }

  lemma VisitedFirstTail(cat: Catalog, m: AliasMap, c: string)
    requires m != [] && c !in Columns(cat, m[0].table)
    requires Owned(cat, m, c) && Owned(cat, m[1..], c)
    requires Owner(cat, m, c) == Owner(cat, m[1..], c) + 1
    requires m[Owner(cat, m, c)] == m[1..][Owner(cat, m[1..], c)]
    requires FirstVisitAt(cat, m[1..], c)
    ensures FirstVisitAt(cat, m, c)
  {
    var cols := Columns(cat, m[0].table);
    var head := Refs(m[0].alias, cols);
    var rest := Visited(cat, m[1..]);
    var p := FirstVisit(cat, m[1..], c);
    FirstVisitStep(cat, m, c);
    RefsAvoid(m[0].alias, cols, c);
    PositionShift(head, rest, c, p);
    assert Visited(cat, m) == head + rest;
  }

  /** Past a first entry without `c`, the first visit moves by that entry's
      column count. */
  lemma FirstVisitStep(cat: Catalog, m: AliasMap, c: string)
    requires m != [] && Owned(cat, m, c) && Owned(cat, m[1..], c)
    requires Owner(cat, m, c) == Owner(cat, m[1..], c) + 1
    requires m[Owner(cat, m, c)] == m[1..][Owner(cat, m[1..], c)]
    ensures FirstVisit(cat, m, c) == |Columns(cat, m[0].table)| + FirstVisit(cat, m[1..], c)
  {
    var i := Owner(cat, m[1..], c);
    assert Offset(cat, m, i + 1) == |Columns(cat, m[0].table)| + Offset(cat, m[1..], i);
  }

  /** When the first entry's table lacks `c`, the owner is found in the rest
      of the map, one position further on. */
  lemma OwnerTail(cat: Catalog, m: AliasMap, c: string)
    requires Owned(cat, m, c) && c !in Columns(cat, m[0].table)
    ensures Owned(cat, m[1..], c)
    ensures Owner(cat, m, c) == Owner(cat, m[1..], c) + 1
    ensures m[Owner(cat, m, c)] == m[1..][Owner(cat, m[1..], c)]
  {
    var i :| 0 <= i < |m| && c in Columns(cat, m[i].table);
    assert m[1..][i - 1] == m[i];
  }

  /** No pair of `Refs(alias, cols)` carries a name outside `cols`. */
  lemma RefsAvoid(alias: string, cols: seq<string>, c: string)
    requires c !in cols
    ensures forall k :: 0 <= k < |Refs(alias, cols)| ==> Refs(alias, cols)[k].column != c
  {
    forall k | 0 <= k < |cols| ensures Refs(alias, cols)[k].column != c {
      assert cols[k] in cols;
    }
  }

  /** A first occurrence at `p` in `rest` is one at `|head| + p` in
      `head + rest` when the head does not carry the name. */
  lemma PositionShift(head: seq<ColumnRef>, rest: seq<ColumnRef>, c: string, p: nat)
    requires forall k :: 0 <= k < |head| ==> head[k].column != c
    requires p < |rest| && forall k :: 0 <= k < p ==> rest[k].column != c
    ensures (head + rest)[|head| + p] == rest[p]
    ensures forall k :: 0 <= k < |head| + p ==> (head + rest)[k].column != c
  {
    var refs := head + rest;
    forall k | 0 <= k < |head| + p ensures refs[k].column != c {
      if k < |head| {
        assert refs[k] == head[k];
      } else {
        assert refs[k] == rest[k - |head|];
      }
    }
  }

  /** Name `c` is listed before name `d`: its first owning entry is earlier,
      or it is the same entry and `c` comes first among that table's columns. */
  ghost predicate Before(cat: Catalog, m: AliasMap, c: string, d: string)
    requires Owned(cat, m, c) && Owned(cat, m, d)
  {
    var i := Owner(cat, m, c);
    var i' := Owner(cat, m, d);
    i < i' || (i == i' && ColIndex(Columns(cat, m[i].table), c) < ColIndex(Columns(cat, m[i].table), d))
  }

  /** The select list takes each column name under the alias of the first
      alias-map entry whose table has it, and lists the names by that entry,
      then by their position among its columns: the nested loops in
      insertion order, with the first occurrence winning. */
  lemma SelectOrder(cat: Catalog, m: AliasMap)
    ensures var r := SelectColumns(cat, m);
            && (forall k :: 0 <= k < |r| ==>
                  Owned(cat, m, r[k].column) &&
                  r[k] == ColumnRef(m[Owner(cat, m, r[k].column)].alias, r[k].column))
            && (forall k, l :: 0 <= k < l < |r| ==>
                  Owned(cat, m, r[k].column) && Owned(cat, m, r[l].column) &&
                  Before(cat, m, r[k].column, r[l].column))
  {
    var refs := Visited(cat, m);
    var r := SelectColumns(cat, m);
    assert FirstOccurrences(refs, {}, r);
    VisitedPairs(cat, m);
    forall k | 0 <= k < |r|
      ensures Owned(cat, m, r[k].column)
      ensures r[k] == ColumnRef(m[Owner(cat, m, r[k].column)].alias, r[k].column)
    {
      var c := r[k].column;
      assert refs[FirstIndex(refs, c)] in refs;
      VisitedFirst(cat, m, c);
      FirstIndexIs(refs, c, FirstVisit(cat, m, c));
    }
    forall k, l | 0 <= k < l < |r|
      ensures Owned(cat, m, r[k].column) && Owned(cat, m, r[l].column)
      ensures Before(cat, m, r[k].column, r[l].column)
    {
      var c, d := r[k].column, r[l].column;
      VisitedFirst(cat, m, c);
      VisitedFirst(cat, m, d);
      FirstIndexIs(refs, c, FirstVisit(cat, m, c));
      FirstIndexIs(refs, d, FirstVisit(cat, m, d));
      var i, i' := Owner(cat, m, c), Owner(cat, m, d);
      OffsetOrder(cat, m, i, ColIndex(Columns(cat, m[i].table), c), i', ColIndex(Columns(cat, m[i'].table), d));
    }
  }

  /** `PRIMARY_KEYS.get(main_table, list(SCHEMA[main_table])[0])` */
  function CountKey(cat: Catalog, main: string): (k: string)
    requires |Columns(cat, main)| > 0
    ensures PrimaryKey(cat, main).Some? ==> k == PrimaryKey(cat, main).value
    ensures PrimaryKey(cat, main).None? ==> k == Columns(cat, main)[0]
  {
    match PrimaryKey(cat, main)
    case Some(k) => k
    case None => Columns(cat, main)[0]
  }
}

=== FILE: sql.dfy ===
/** The synthesized statement as a structured record, and its rendering to
    the exact text `build_sql` assembles with f-strings. */
module Sql {
  import opened Text

  datatype JoinKind = InnerJoin | LeftJoin

  /** `{type} {right} {right_alias} ON {left_alias}.{left_col} = {right_alias}.{right_col}` */
  datatype Join = Join(kind: JoinKind, table: string, alias: string,
                       leftAlias: string, leftCol: string, rightCol: string)

  /** `{alias}.{col}` in the select list. */
  datatype ColumnRef = ColumnRef(alias: string, column: string)

  datatype SelectList =
    | ColumnList(refs: seq<ColumnRef>)
    | CountDistinct(alias: string, column: string)

  /** A filter value: written as is, or between single quotes. */
  datatype Literal = Number(digits: string) | Quoted(chars: string)

  /** `{alias}.{col_name} = {value}` */
  datatype Predicate = Predicate(alias: string, column: string, value: Literal)

  datatype Query = Query(
    select: SelectList,
    table: string,
    alias: string,
    joins: seq<Join>,
    filters: seq<Predicate>,
    limit: Option<nat>)

  /** `sep.join(parts)` */
  function JoinWith(sep: string, parts: seq<string>): string {
    if |parts| == 0 then ""
    else if |parts| == 1 then parts[0]
    else parts[0] + sep + JoinWith(sep, parts[1..])
  }

  function KindText(k: JoinKind): string {
    match k
    case InnerJoin => "INNER JOIN"
    case LeftJoin => "LEFT JOIN"
  }

  function RenderJoin(j: Join): string {
    KindText(j.kind) + " " + j.table + " " + j.alias + " ON " +
    j.leftAlias + "." + j.leftCol + " = " + j.alias + "." + j.rightCol
  }

  function RenderJoins(joins: seq<Join>): (r: seq<string>)
    ensures |r| == |joins|
    ensures forall i :: 0 <= i < |joins| ==> r[i] == RenderJoin(joins[i])
  {
    if joins == [] then [] else [RenderJoin(joins[0])] + RenderJoins(joins[1..])
  }

  function RenderColumns(refs: seq<ColumnRef>): (r: seq<string>)
    ensures |r| == |refs|
    ensures forall i :: 0 <= i < |refs| ==> r[i] == refs[i].alias + "." + refs[i].column
  {
    if refs == [] then [] else [refs[0].alias + "." + refs[0].column] + RenderColumns(refs[1..])
  }

  function RenderSelect(s: SelectList): string {
    match s
    case ColumnList(refs) => JoinWith(",\n    ", RenderColumns(refs))
    case CountDistinct(alias, column) => "COUNT(DISTINCT " + alias + "." + column + ") AS customer_count"
  }

  function RenderLiteral(v: Literal): string {
    match v
    case Number(d) => d
    case Quoted(t) => "'" + t + "'"
  }

  function RenderPredicates(ps: seq<Predicate>): (r: seq<string>)
    ensures |r| == |ps|
    ensures forall i :: 0 <= i < |ps| ==>
              r[i] == ps[i].alias + "." + ps[i].column + " = " + RenderLiteral(ps[i].value)
  {
    if ps == [] then []
    else [ps[0].alias + "." + ps[0].column + " = " + RenderLiteral(ps[0].value)] + RenderPredicates(ps[1..])
  }

  /** The FROM clause with its joins: `f"FROM {main_table} {main_alias}\n" + "\n".join(joins_sql)`. */
  function RenderFrom(q: Query): string {
    "FROM " + q.table + " " + q.alias + "\n" + JoinWith("\n", RenderJoins(q.joins))
  }

  function RenderWhere(q: Query): string {
    if q.filters == [] then "" else "\n" + "WHERE " + JoinWith(" AND ", RenderPredicates(q.filters))
  }

  function RenderLimit(q: Query): string {
    match q.limit
    case None => ""
    case Some(n) => "\nLIMIT " + NatToString(n)
  }

  /** The final assembly of the statement text. */
  function Render(q: Query): string {
    "SELECT\n    " + RenderSelect(q.select) + "\n" + RenderFrom(q) + RenderWhere(q) + RenderLimit(q)
  }

  /** The statement opens with the SELECT line, and a limit, when there is
      one, is its last line. */
  lemma RenderEnds(q: Query)
    ensures "SELECT\n    " <= Render(q)
    ensures q.limit.Some? ==>
              var sql := Render(q);
              var tail := "\nLIMIT " + NatToString(q.limit.value);
              |tail| <= |sql| && sql[|sql| - |tail|..] == tail
  {
    var head := "SELECT\n    " + RenderSelect(q.select) + "\n" + RenderFrom(q) + RenderWhere(q);
    assert Render(q) == head + RenderLimit(q);
    assert (head + RenderLimit(q))[|head|..] == RenderLimit(q);
  }
}

=== FILE: text.dfy ===
/** Character classes, lowercasing, substring search and decimal numerals,
    as the query synthesizer uses them, restricted to ASCII. */
module Text {

  datatype Option<T> = None | Some(value: T)

  /** `\w`: ASCII letters, digits and the underscore. */
  predicate IsWordChar(c: char) {
    ('a' <= c <= 'z') || ('A' <= c <= 'Z') || ('0' <= c <= '9') || c == '_'
  }

  /** `\d` and `str.isdigit` on one character. */
  predicate IsDigit(c: char) {
    '0' <= c <= '9'
  }

  /** `\s`: tab, line feed, vertical tab, form feed, carriage return, the
      four information separators 0x1C-0x1F, and space. */
  predicate IsSpace(c: char) {
    9 <= c as int <= 13 || 28 <= c as int <= 32
  }

  predicate IsUpper(c: char) {
    'A' <= c <= 'Z'
  }

  function LowerChar(c: char): char {
    if IsUpper(c) then (c as int + 32) as char else c
  }

  /** `str.lower()` */
  function ToLower(s: string): (r: string)
    ensures |r| == |s|
    ensures forall i :: 0 <= i < |s| ==> r[i] == LowerChar(s[i])
  {
    if s == [] then [] else [LowerChar(s[0])] + ToLower(s[1..])
  }

  /** The lowered text holds no upper-case letter, so lowering it again
      changes nothing. */
  lemma LowerIdempotent(s: string)
    ensures forall i :: 0 <= i < |ToLower(s)| ==> !IsUpper(ToLower(s)[i])
    ensures ToLower(ToLower(s)) == ToLower(s)
  {
    var r := ToLower(s);
    assert forall i :: 0 <= i < |r| ==> r[i] == LowerChar(s[i]);
    assert ToLower(r) == r;
  }

  /** Python's `w in s`. */
  predicate Contains(s: string, w: string) {
    exists i :: 0 <= i <= |s| && w <= s[i..]
  }

  predicate AllDigits(s: string) {
    forall i :: 0 <= i < |s| ==> IsDigit(s[i])
  }

  /** `str.isdigit()`: at least one character, and all of them digits. */
  predicate IsDigitString(s: string) {
    |s| > 0 && AllDigits(s)
  }

  function DigitChar(d: nat): (c: char)
    requires d < 10
    ensures IsDigit(c)
  {
    ('0' as int + d) as char
  }

  function DigitValue(c: char): (d: nat)
    requires IsDigit(c)
    ensures d < 10
  {
    c as int - '0' as int
  }

  /** `str(n)` for a non-negative integer: decimal, no leading zeros. */
  function NatToString(n: nat): (r: string)
    ensures IsDigitString(r)
    ensures r[0] == '0' ==> n == 0 && |r| == 1
  {
    if n < 10 then [DigitChar(n)] else NatToString(n / 10) + [DigitChar(n % 10)]
  }

  /** `int(s)` for a string of ASCII digits. */
  function ParseDigits(s: string): nat
    requires AllDigits(s)
  {
    if s == [] then 0 else ParseDigits(s[..|s| - 1]) * 10 + DigitValue(s[|s| - 1])
  }

  /** A digit string in the form `str` produces: no leading zero except "0" itself. */
  predicate Canonical(s: string) {
    IsDigitString(s) && (s[0] == '0' ==> |s| == 1)
  }

  /** `int(str(n)) == n` */
  lemma {:induction false} ParseNatToString(n: nat)
    ensures ParseDigits(NatToString(n)) == n
  {
    if n >= 10 {
      var s := NatToString(n);
      assert s[..|s| - 1] == NatToString(n / 10);
      ParseNatToString(n / 10);
    }
  }

  /** Decimal rendering is injective. */
  lemma NatToStringInjective(a: nat, b: nat)
    requires NatToString(a) == NatToString(b)
    ensures a == b
  {
    ParseNatToString(a);
    ParseNatToString(b);
  }

  lemma {:induction false} ParseNonZeroLeading(s: string)
    requires IsDigitString(s) && s[0] != '0'
    ensures ParseDigits(s) >= 1
  {
    if |s| > 1 {
      ParseNonZeroLeading(s[..|s| - 1]);
    }
  }

  /** `str(int(s)) == s` for every canonical digit string. */
  lemma {:induction false} NatToStringParse(s: string)
    requires Canonical(s)
    ensures NatToString(ParseDigits(s)) == s
  {
    if |s| > 1 {
      var p := s[..|s| - 1];
      assert Canonical(p);
      ParseNonZeroLeading(p);
      NatToStringParse(p);
      var n := ParseDigits(s);
      assert n / 10 == ParseDigits(p) && n % 10 == DigitValue(s[|s| - 1]);
      assert s == p + [s[|s| - 1]];
    }
  }

  /** A subset is no larger than its superset. */
  lemma {:induction false} SubsetCardinality(a: set<string>, b: set<string>)
    requires a <= b
    ensures |a| <= |b|
    decreases |a|
  {
    if a != {} {
      var x :| x in a;
      SubsetCardinality(a - {x}, b - {x});
    }
  }
}

=== FILE: where.dfy ===
/** The WHERE predicates built from the `column is value` matches, and the
    LIMIT taken from the `show N` / `top N` match. */
module Where {
  import opened Text
  import opened Catalog
  import opened Alias
  import opened Sql
  import opened Patterns

  /** How a captured value is written: `'@' in value or not value.isdigit()`
      selects the quoted form. A digit string never holds `@`, so the value
      is bare exactly when it is a digit string. */
  function Format(v: string): (r: Literal)
    ensures r.Number? <==> IsDigitString(v)
    ensures r.Number? ==> r.digits == v
    ensures r.Quoted? ==> r.chars == v
  {
    if '@' in v || !IsDigitString(v) then Quoted(v) else Number(v)
  }

  /** `col_name in [c.lower() for c in SCHEMA[table]]` */
  predicate HasColumn(cat: Catalog, table: string, name: string) {
    exists c :: c in Columns(cat, table) && ToLower(c) == name
  }

  /** The alias of the first alias-map entry from position `from` on whose
      table has a column that lowercases to `name`; the inner loop's `break`. */
  function Resolve(cat: Catalog, m: AliasMap, name: string, from: nat := 0): (r: Option<string>)
    requires from <= |m|
    ensures r.None? <==> forall i :: from <= i < |m| ==> !HasColumn(cat, m[i].table, name)
    ensures r.Some? ==> exists i :: from <= i < |m| && m[i].alias == r.value &&
                          HasColumn(cat, m[i].table, name) &&
                          forall j :: from <= j < i ==> !HasColumn(cat, m[j].table, name)
    decreases |m| - from
  {
    if from == |m| then None
    else if HasColumn(cat, m[from].table, name) then Some(m[from].alias)
    else Resolve(cat, m, name, from + 1)
  }

  /** The predicate one match contributes, if its column resolves. */
  function PredicateFor(cat: Catalog, m: AliasMap, x: FilterMatch): Option<Predicate> {
    match Resolve(cat, m, x.column)
    case None => None
    case Some(a) => Some(Predicate(a, x.column, Format(x.value)))
  }

  /** `where_clauses`: one predicate per match whose column resolves, in
      match order. */
  function Filters(cat: Catalog, m: AliasMap, ms: seq<FilterMatch>): (r: seq<Predicate>)
    ensures |r| <= |ms|
  {
    if ms == [] then []
    else
      var rest := Filters(cat, m, ms[1..]);
      match PredicateFor(cat, m, ms[0])
      case None => rest
      case Some(p) => [p] + rest
  }

  /** Predicate `p` is the one some match of `ms` contributes. */
  predicate FromMatch(cat: Catalog, m: AliasMap, ms: seq<FilterMatch>, p: Predicate) {
    exists i :: 0 <= i < |ms| && PredicateFor(cat, m, ms[i]) == Some(p)
  }

  lemma FromMatchTail(cat: Catalog, m: AliasMap, ms: seq<FilterMatch>, p: Predicate)
    requires ms != [] && FromMatch(cat, m, ms[1..], p)
    ensures FromMatch(cat, m, ms, p)
  {
    var i :| 0 <= i < |ms[1..]| && PredicateFor(cat, m, ms[1..][i]) == Some(p);
    assert ms[i + 1] == ms[1..][i];
  }

  /** Every predicate comes from some match. */
  lemma {:induction false} FiltersSound(cat: Catalog, m: AliasMap, ms: seq<FilterMatch>)
    ensures forall p :: p in Filters(cat, m, ms) ==> FromMatch(cat, m, ms, p)
  {
    if ms != [] {
      FiltersSound(cat, m, ms[1..]);
      var rest := Filters(cat, m, ms[1..]);
      forall p | p in rest ensures FromMatch(cat, m, ms, p) {
        FromMatchTail(cat, m, ms, p);
      }
      match PredicateFor(cat, m, ms[0])
      case None =>
      case Some(h) =>
        assert FromMatch(cat, m, ms, h) by {
          assert PredicateFor(cat, m, ms[0]) == Some(h);
        }
    }
  }

  /** No match whose column resolves is dropped. */
  lemma {:induction false} FiltersComplete(cat: Catalog, m: AliasMap, ms: seq<FilterMatch>)
    ensures forall i :: 0 <= i < |ms| && PredicateFor(cat, m, ms[i]).Some? ==>
              PredicateFor(cat, m, ms[i]).value in Filters(cat, m, ms)
  {
    if ms != [] {
      FiltersComplete(cat, m, ms[1..]);
      var rest := Filters(cat, m, ms[1..]);
      var all := Filters(cat, m, ms);
      assert forall p :: p in rest ==> p in all;
      forall i | 0 <= i < |ms| && PredicateFor(cat, m, ms[i]).Some?
        ensures PredicateFor(cat, m, ms[i]).value in all
      {
        if i == 0 {
          assert all == [PredicateFor(cat, m, ms[0]).value] + rest;
        } else {
          assert ms[i] == ms[1..][i - 1];
          assert PredicateFor(cat, m, ms[i]).value in rest;
        }
      }
    }
  }

  /** The outcome of every match, in match order. */
  function Outcomes(cat: Catalog, m: AliasMap, ms: seq<FilterMatch>): (o: seq<Option<Predicate>>)
    ensures |o| == |ms| && forall i :: 0 <= i < |ms| ==> o[i] == PredicateFor(cat, m, ms[i])
  {
    seq(|ms|, i requires 0 <= i < |ms| => PredicateFor(cat, m, ms[i]))
  }

  /** The present values of a list of outcomes, in order. */
  function Present<T>(o: seq<Option<T>>): seq<T> {
    if o == [] then []
    else if o[0].Some? then [o[0].value] + Present(o[1..])
    else Present(o[1..])
  }

  /** `r` lists the present outcomes at positions `idx`, in order, and misses none. */
  ghost predicate InOrder<T>(o: seq<Option<T>>, r: seq<T>, idx: seq<nat>) {
    && |idx| == |r|
    && (forall k :: 0 <= k < |idx| ==> idx[k] < |o| && o[idx[k]] == Some(r[k]))
    && (forall k, l :: 0 <= k < l < |idx| ==> idx[k] < idx[l])
    && (forall i :: 0 <= i < |o| && o[i].Some? ==> i in idx)
  }

  /** Every position moved one further on. */
  function Shift(idx: seq<nat>): (r: seq<nat>)
    ensures |r| == |idx| && forall k :: 0 <= k < |idx| ==> r[k] == idx[k] + 1
  {
    seq(|idx|, k requires 0 <= k < |idx| => idx[k] + 1)
  }

  /** `InOrder` for the outcomes after the first, positions counted in `o`. */
  ghost predicate ShiftedFrom<T>(o: seq<Option<T>>, r: seq<T>, s: seq<nat>) {
    && |s| == |r|
    && (forall k :: 0 <= k < |s| ==> 0 < s[k] < |o| && o[s[k]] == Some(r[k]))
    && (forall k, l :: 0 <= k < l < |s| ==> s[k] < s[l])
    && (forall i :: 0 < i < |o| && o[i].Some? ==> i in s)
  }

  lemma ShiftInOrder<T>(o: seq<Option<T>>, r: seq<T>, idx: seq<nat>)
    requires o != [] && InOrder(o[1..], r, idx)
    ensures ShiftedFrom(o, r, Shift(idx))
  {
    var s := Shift(idx);
    forall k | 0 <= k < |s| ensures 0 < s[k] < |o| && o[s[k]] == Some(r[k]) {
      assert o[s[k]] == o[1..][idx[k]];
    }
    forall i | 0 < i < |o| && o[i].Some? ensures i in s {
      assert o[1..][i - 1] == o[i];
      var k :| 0 <= k < |idx| && idx[k] == i - 1;
      assert s[k] == i;
    }
  }

  lemma TakeInOrder<T>(o: seq<Option<T>>, r: seq<T>, s: seq<nat>)
    requires o != [] && o[0].Some? && ShiftedFrom(o, r, s)
    ensures InOrder(o, [o[0].value] + r, [0] + s)
  {
    var idx := [0] + s;
    assert forall k :: 0 < k < |idx| ==> idx[k] == s[k - 1];
    assert forall k :: 0 < k < |idx| ==> ([o[0].value] + r)[k] == r[k - 1];
  }

  /** The present values are listed in order, one per present outcome. */
  lemma {:induction false} PresentInOrder<T>(o: seq<Option<T>>) returns (idx: seq<nat>)
    ensures InOrder(o, Present(o), idx)
  {
    if o == [] {
      idx := [];
    } else {
      var tail := PresentInOrder(o[1..]);
      ShiftInOrder(o, Present(o[1..]), tail);
      if o[0].Some? {
        TakeInOrder(o, Present(o[1..]), Shift(tail));
        idx := [0] + Shift(tail);
      } else {
        idx := Shift(tail);
      }
    }
  }

  /** `Filters` keeps the present outcomes of the matches. */
  lemma {:induction false} FiltersPresent(cat: Catalog, m: AliasMap, ms: seq<FilterMatch>)
    ensures Filters(cat, m, ms) == Present(Outcomes(cat, m, ms))
  {
    if ms != [] {
      FiltersPresent(cat, m, ms[1..]);
      assert Outcomes(cat, m, ms)[1..] == Outcomes(cat, m, ms[1..]);
    }
  }

  /** `r` lists the predicates of the matches at positions `idx`, in match
      order: one predicate per position, positions strictly increasing, each
      a match whose column resolves, and every such match among them. */
  ghost predicate Indexed(cat: Catalog, m: AliasMap, ms: seq<FilterMatch>, r: seq<Predicate>, idx: seq<nat>) {
    && |idx| == |r|
    && (forall k :: 0 <= k < |idx| ==> idx[k] < |ms| && PredicateFor(cat, m, ms[idx[k]]) == Some(r[k]))
    && (forall k, l :: 0 <= k < l < |idx| ==> idx[k] < idx[l])
    && (forall i :: 0 <= i < |ms| && PredicateFor(cat, m, ms[i]).Some? ==> i in idx)
  }

  /** The predicates appear in match order, one per match whose column
      resolves, and every such match contributes. */
  lemma FiltersInOrder(cat: Catalog, m: AliasMap, ms: seq<FilterMatch>) returns (idx: seq<nat>)
    ensures Indexed(cat, m, ms, Filters(cat, m, ms), idx)
  {
    var o := Outcomes(cat, m, ms);
    idx := PresentInOrder(o);
    FiltersPresent(cat, m, ms);
  }

  /** `limit_number` as used by the LIMIT clause: absent for count
      questions, when nothing matched, and when the number is zero. */
  function LimitValue(s: string, count: bool): (r: Option<nat>)
    ensures count ==> r.None?
    ensures r.Some? ==> LimitSearch(s).Some? && r.value == ParseDigits(LimitSearch(s).value) && r.value > 0
    ensures r.Some? ==> exists i: nat, v: string :: i <= |s| && LimitMatch(s, i, v) && NoLimitBefore(s, i) &&
                          IsDigitString(v) && r.value == ParseDigits(v)
    ensures !count && LimitSearch(s).Some? && ParseDigits(LimitSearch(s).value) > 0 ==> r.Some?
  {
    match LimitSearch(s)
    case None => None
    case Some(d) =>
      var n := ParseDigits(d);
      if n == 0 || count then None else Some(n)
  }

  /** The LIMIT text repeats the captured digits when they have no leading
      zero; `int` then `str` strips leading zeros otherwise. */
  lemma LimitText(s: string, count: bool)
    requires LimitValue(s, count).Some?
    requires LimitSearch(s).value[0] != '0'
    ensures NatToString(LimitValue(s, count).value) == LimitSearch(s).value
  {
    NatToStringParse(LimitSearch(s).value);
  }
}
